=== FILE: README.md ===
# Museum admin console and visitor chat — a Dafny model

The system is a Next.js front end for a museum. Staff use an admin console
over a document store with collections, items, metadata and images:

- a dynamic metadata editor;
- bulk operations on selected items;
- an item table with search and pagination;
- images, collections and items pages;
- create and content forms.

Visitors use a chat page. It posts the conversation to a server route that
forwards it to a backend. It can also send a camera photo together with a
question. Assistant answers are shown with a small markdown renderer.

This project models the logic of those screens and of the API client they
share. Each React handler is a pure function from the page state to the next
page state and, where the handler talks to the backend, to the request it
sends:

- Network results are inputs of type `Js.Outcome<T>`: `Succeeded(value)` or
  `Failed(message)`.
- A `window.confirm` answer is a `bool` input.
- An `async` handler is split at its `await` into a start function and a
  finish function.
- JavaScript's `a || b` on strings is `Js.Or`.
- `obj[key] || ""` on a string record is `Js.Field`.
- `JSON.parse` and the browser APIs (camera, `FileReader`, object URLs) are
  parameters.
- The backend address has two settings, the build environment and a
  `window` property. Together they are an `Api.Config`. Whether lib/api.ts
  runs on the server or in the browser is an `Api.Side`. The pages modelled
  here all run in the browser.

Modules follow the source files:

| module | file |
|---|---|
| `Js` | the string and sequence helpers every page uses |
| `Api` | `lib/api.ts` |
| `Catalog`, `Chat` | the records of `lib/types.ts` |
| `MetadataEditor` | the dynamic metadata editor |
| `BulkOperations` | the bulk-operations page |
| `ItemTable` | the item table |
| `ItemsPage`, `SortedStrings` | the all-items page and its type list |
| `ImagesPage` | the images page |
| `CollectionsPage`, `CollectionCard` | the collections page and its cards |
| `AdminLayout` | the admin navigation |
| `DocumentEditor` | the document editor |
| `ContentPage`, `CreatePage` | the two creation forms |
| `ImageUpload`, `CameraCapture` | the upload and camera dialogs |
| `MessageBubble` | the markdown renderer |
| `ChatRoute` | the chat server route |
| `ChatPage` | the chat landing page |

## Model

| member | source | states |
|---|---|---|
| Js.Trim | components/chat/CameraCapture.tsx:90 | the trimmed text sits in the original with nothing but white space before and after it, and neither of its ends is white space |
| Js.TrimIdempotent | components/chat/CameraCapture.tsx:90-91 | trimming a second time changes nothing |
| Js.BlankIffAllSpace | app/page.tsx:91 | `!text.trim()` holds exactly when every character of the text is white space |
| Js.OrFallsThroughOnlyOnEmpty | lib/api.ts:6-9 | `a \|\| b` on strings gives `b` only when `a` is empty, and is empty only when both are |
| Js.ToLower | components/admin/ItemTable.tsx:23 | lower-casing keeps the length and maps each character on its own |
| Js.EmptyQueryMatchesEverything | components/admin/ItemTable.tsx:22-24 | an empty search term matches every text |
| Js.QueryMatchesItself | components/admin/ItemTable.tsx:22-24 | every text matches itself as a search term, whatever its case |
| Js.Split | components/chat/MessageBubble.tsx:92 | `split` gives one more piece than there are separators, no piece contains the separator, and joining the pieces gives back the text |
| Js.NatToString | app/admin/bulk/page.tsx:97 | a count is rendered as decimal digits with no leading zero |
| Js.NatToStringRoundTrip | app/admin/bulk/page.tsx:97 | the decimal rendering of a count reads back as the same count |
| Js.Filter | app/admin/bulk/page.tsx:126 | a filter keeps an ordered part of the list, keeps every element that passes, and keeps everything when everything passes |
| Js.FilterMember | app/admin/bulk/page.tsx:126 | an element is in a filter's result exactly when it is in the input and passes |
| Js.FilterKeepsNoDups | app/admin/bulk/page.tsx:126 | filtering a list without repeats gives a list without repeats |
| Js.FilterCommute | app/admin/images/page.tsx:59-60 | two filters applied in either order give the same list |
| Catalog.ItemsOf | app/admin/bulk/page.tsx:64 | a collection's items are its `items` list, or none when the field is missing |
| MetadataEditor.CoreEntries | components/admin/DynamicMetadataEditor.tsx:41 | the core section shows only entries of the metadata, with their own values |
| MetadataEditor.CustomEntries | components/admin/DynamicMetadataEditor.tsx:42 | the custom section shows only entries of the metadata, with their own values |
| MetadataEditor.Partition | components/admin/DynamicMetadataEditor.tsx:20-42 | the two sections do not overlap, together hold the whole metadata, and a key is core exactly when it is one of the six core names |
| MetadataEditor.Suggestions | components/admin/DynamicMetadataEditor.tsx:221 | a suggestion chip is offered exactly for the suggested names the metadata lacks, in the listed order |
| MetadataEditor.Init | components/admin/DynamicMetadataEditor.tsx:35-39 | the editor starts from the item's metadata with empty new-field inputs and no error |
| MetadataEditor.EditLocally | components/admin/DynamicMetadataEditor.tsx:148 | typing sets that field in the local copy, sends nothing and changes nothing else |
| MetadataEditor.PickSuggestion | components/admin/DynamicMetadataEditor.tsx:227 | a chip fills the new-field name input and changes nothing else |
| MetadataEditor.UpdateField | components/admin/DynamicMetadataEditor.tsx:44-57 | leaving a field sends a partial update of that one key; on success the local copy takes the value and keeps every other key; on failure it is unchanged and the error is shown |
| MetadataEditor.UpdateFieldMirrorsStore | components/admin/DynamicMetadataEditor.tsx:44-52 | after a successful update the local copy equals what the store holds once it applies the command |
| MetadataEditor.AddCustomField | components/admin/DynamicMetadataEditor.tsx:59-85 | an empty name or value and an existing name are refused with their messages and send nothing; otherwise exactly that field is sent; on success it joins the copy and the inputs are cleared; on failure the inputs stay and the error is shown |
| MetadataEditor.AddFieldIsFreshMerge | components/admin/DynamicMetadataEditor.tsx:74-79 | a successful add equals the store's merge of the one new key, and the set of keys strictly grows |
| MetadataEditor.AddThenRemoveRestores | components/admin/DynamicMetadataEditor.tsx:59-105 | adding a custom field and then removing it, both successfully, restores the metadata |
| MetadataEditor.DuplicateGuardIgnoresCoreness | components/admin/DynamicMetadataEditor.tsx:65-68 | an add of an existing name is refused whether that name is core or custom, while its removal is sent exactly when it is custom |
| MetadataEditor.RemoveField | components/admin/DynamicMetadataEditor.tsx:87-105 | a core field is refused before any prompt; otherwise the prompt names the field, a declined prompt sends nothing, and a successful removal drops that key and no other |
| MetadataEditor.SaveAllChanges | components/admin/DynamicMetadataEditor.tsx:107-124 | "save all" sends the whole local copy with `replace_all` set; the copy does not change, and the error is set exactly on failure |
| MetadataEditor.SaveAllMirrorsStore | components/admin/DynamicMetadataEditor.tsx:107-117 | whatever the store held before, after save-all it holds exactly the local copy |
| MetadataEditor.AddEnabledPassesMissingInputGuard | components/admin/DynamicMetadataEditor.tsx:211 | whenever the add button is enabled, the add is either sent or refused as a duplicate |
| BulkOperations.Init | app/admin/bulk/page.tsx:40-42 | the page starts with no selection, the metadata-update operation, no data and one empty row |
| BulkOperations.Toggle | app/admin/bulk/page.tsx:125-127 | a checkbox flips that id's membership in the selection, leaves the other ids in their order, and keeps the selection free of repeats |
| BulkOperations.ToggleTwiceRestores | app/admin/bulk/page.tsx:125-127 | clicking an unselected row twice restores the selection |
| BulkOperations.SelectAll | app/admin/bulk/page.tsx:129-131 | "select all" selects every loaded id, in order |
| BulkOperations.DeselectAll | app/admin/bulk/page.tsx:133-135 | "deselect all" empties the selection |
| BulkOperations.SelectAllThenToggle | app/admin/bulk/page.tsx:125-131 | after "select all" over distinct ids, a checkbox unselects exactly its item |
| BulkOperations.AddRow | app/admin/bulk/page.tsx:137-139 | adds one empty key/value row at the end |
| BulkOperations.UpdateRow | app/admin/bulk/page.tsx:141-143 | replaces the row at that index with the new key and value and leaves every other row |
| BulkOperations.RemoveRow | app/admin/bulk/page.tsx:145-147 | drops exactly the row at that index, or nothing for an index out of range |
| BulkOperations.AddThenRemoveRow | app/admin/bulk/page.tsx:137-147 | adding a row and removing it again restores the rows |
| BulkOperations.SuggestRow | app/admin/bulk/page.tsx:371-378 | a suggestion fills the key of the first row whose key is empty, or adds a row when there is none |
| BulkOperations.ReduceRows | app/admin/bulk/page.tsx:81-88 | a key is sent exactly when some row with a non-empty key and value names it, with the value of the last such row |
| BulkOperations.ReduceIgnoresNonQualifying | app/admin/bulk/page.tsx:81-88 | replacing one row with an empty key or value by another such row does not change what is sent |
| BulkOperations.RowHelpersSendNothingNew | app/admin/bulk/page.tsx:137-139 | adding an empty row, or a suggestion that fills only a key, does not change the fields sent |
| BulkOperations.SetOperation | app/admin/bulk/page.tsx:302 | choosing an operation changes the operation and nothing else |
| BulkOperations.SetNewZone | app/admin/bulk/page.tsx:395 | typing a zone replaces the operation data with that zone alone and changes nothing else |
| BulkOperations.TitleFallbacks | app/admin/bulk/page.tsx:149-155 | a row's title is the first non-empty of title, name and id; the subtitle is never empty and reads "Sin descripción" without artist or type |
| BulkOperations.LoadItems | app/admin/bulk/page.tsx:57-71 | no collection means no request; a successful load replaces the items (none when missing) and clears the selection; a failure keeps both and records the error |
| BulkOperations.Execute | app/admin/bulk/page.tsx:73-123 | an empty selection, or a metadata update without fields, alerts and sends nothing; otherwise the prompt names the count; a declined prompt changes nothing; a confirmed one sends the selected ids, the operation and its data; the collection reloads exactly when something succeeded, and a reload empties the selection; a failure records the message |
| BulkOperations.ConfirmMessageNamesCount | app/admin/bulk/page.tsx:95-98 | the prompt holds the number of selected items in decimal and either names the operation or warns that a delete cannot be undone |
| BulkOperations.DeleteSendsLeftoverZone | app/admin/bulk/page.tsx:79 | a delete still carries the zone typed for an earlier move |
| BulkOperations.NoSuccessNoReload | app/admin/bulk/page.tsx:115-117 | when no item succeeded there is no reload |
| BulkOperations.ExampleDeleteThree | app/admin/bulk/page.tsx:73-123 | a confirmed delete of three items sends those three ids with no data, and two successes trigger a reload |
| Api.ApiBase | lib/api.ts:4-9 | the server takes the environment setting and the browser the `window` setting, each falling back to the default host, so the base is never empty |
| Api.ApiUrl | lib/api.ts:72 | the request prefix is the environment setting on either side, and the default URL when that is unset |
| Api.BaseAndUrlDiverge | lib/api.ts:72 | `API_URL` equals `API_BASE` on the server exactly when the environment is set; in the browser an environment value alone moves only `API_URL`, and a `window` value alone moves only `API_BASE` |
| Api.ImageUrl | lib/api.ts:214 | an image URL starts with the base and ends with the file name |
| Api.DefaultHeaders | lib/api.ts:80-86 | every request carries the ngrok header, and the JSON content type is added exactly when the body is not a form |
| Api.Headers | lib/api.ts:90 | caller headers override the defaults key by key and leave the other defaults alone |
| Api.BuildRequest | lib/api.ts:76-92 | the request goes to the prefix followed by the endpoint, with the caller's method, the given body and the merged headers |
| Api.AdminRequest | lib/api.ts:11 | an admin helper's request goes to the prefix, then `API_BASE`, then `/admin` and the path, with the default headers |
| Api.AbsoluteEndpointIsPrefixedAgain | lib/api.ts:88 | an admin endpoint built from the absolute base is prefixed again, so it never reaches the URL it names; in the browser an environment value X with no `window` value gives X, then the default host |
| Api.GetItem | lib/api.ts:146 | a GET without body to the item's admin URL |
| Api.UpdateItem | lib/api.ts:148-152 | a PUT of the JSON body, declared as JSON, to the item's admin URL |
| Api.DeleteItem | lib/api.ts:154-157 | a DELETE without body to the item's admin URL |
| Api.ItemHelpersDifferInMethod | lib/api.ts:146-157 | the three item helpers share URL and headers and differ in method, and only the update has a body |
| Api.JsonBodyDeclaresJson | lib/api.ts:80-90 | a JSON request declares JSON unless the caller overrides the content type, and a form request never declares it |
| Api.ErrorMessage | lib/api.ts:96 | the message starts with the status and status text on one line and ends with the body, or "No body" |
| Api.Receive | lib/api.ts:94-102 | a failure exactly when the status is not ok, carrying the error message, or when an ok status other than 204 brings a body that is not JSON, carrying the parser's message; an empty object exactly for 204; otherwise the value read from the body |
| Api.OnlyNoContentSkipsJson | lib/api.ts:99-102 | an empty body under an ok status other than 204 is rejected by the JSON read, while the same body under 204 gives `{}` |
| Api.ErrorMessageReadsBack | lib/api.ts:94-97 | the status reads back from the message's leading digits, and the body from after its first line |
| Api.GetCollections | lib/api.ts:124-127 | one summary per name in the reply, in order, with a zero count and no description; a reply that is not an array gives none |
| Api.GetCollectionsKeepsNames | lib/api.ts:126 | the summaries carry exactly the names the backend sent |
| Api.ListImagesParams | lib/api.ts:219-221 | the query holds a zone or artist filter exactly when it is given and non-empty, zone first |
| Api.Spread | lib/api.ts:229 | string metadata is parsed (an empty string as `{}`), object metadata is taken as is, and missing metadata adds nothing |
| Api.DefaultUrl | lib/api.ts:228 | an image's URL is its stored one when non-empty, otherwise the static file under the base |
| Api.MergeImage | lib/api.ts:226-230 | the merged image has the record's keys, `metadata` included, plus `url` and the metadata keys; metadata wins over `url`, which wins over the record; the original `metadata` survives unless the metadata holds a key of that name |
| Api.MetadataOverridesUrl | lib/api.ts:226-230 | a metadata `url` value is kept over the computed one, and the metadata object stays on the record |
| Api.MissingUrlPointsAtStaticFile | lib/api.ts:228 | an image with no stored URL and no metadata points at its static file |
| Api.ListImages | lib/api.ts:225-233 | one merged record per image of the reply, in order; no list exactly when the reply has none |
| Api.SearchParams | lib/api.ts:261-268 | the query is the term, the collection (default `mac_info`), the count (default 5) in decimal, and the type filter exactly when one is given |
| Api.SearchResultCountReadsBack | lib/api.ts:265 | the count in the query reads back as the requested number, or 5 |
| Api.Lookup | lib/api.ts:279 | the count of the first entry under the name, zero when that count is missing, and zero for a collection the detail does not list |
| Api.LookupFindsEntry | lib/api.ts:279 | with unique names, every listed collection's lookup gives its own count |
| Api.LookupAtMostSum | lib/api.ts:275-279 | one collection's count lies between zero and the total over all collections |
| Api.SumNonNegative | lib/api.ts:275-278 | the item total is not negative when the backend's counts are not |
| Api.SumTotalsAppend | lib/api.ts:275-278 | the item total over two parts of the detail is the sum of their totals |
| Api.GetAnalytics | lib/api.ts:271-283 | the item total is the sum over the detail and the image total is the `mac_images` count, missing parts counting as zero; recent uploads are zero |
| Api.ImagesWithinItems | lib/api.ts:275-279 | the image total is never negative and never exceeds the item total, when the backend's counts are not negative |
| ItemTable.Filtered | components/admin/ItemTable.tsx:22-24 | the search result is an ordered part of the rows |
| ItemTable.FilteredKeepsExactlyMatches | components/admin/ItemTable.tsx:22-24 | a row is in the search result exactly when it is among the rows and its id or another field it has contains the term, ignoring case |
| ItemTable.EmptySearchKeepsAll | components/admin/ItemTable.tsx:22-24 | an empty search shows every row |
| ItemTable.Cell | components/admin/ItemTable.tsx:63-66 | a cell shows the first of its two fields that is non-empty, or a dash; it is never empty |
| ItemTable.TotalPages | components/admin/ItemTable.tsx:26 | the page count is the least number of 10-row pages that holds every row |
| ItemTable.PageRows | components/admin/ItemTable.tsx:27-28 | a page shows at most 10 rows, taken in order from its offset |
| ItemTable.PagesCoverFiltered | components/admin/ItemTable.tsx:26-28 | the pages from the first to the last, joined, are exactly the filtered rows |
| ItemTable.Previous | components/admin/ItemTable.tsx:104 | "previous" goes back one page but never below page one |
| ItemTable.Next | components/admin/ItemTable.tsx:112 | "next" goes forward one page but never past the last |
| ItemTable.ButtonsStayInRange | components/admin/ItemTable.tsx:104-113 | from a page in range both buttons stay in range, and each stays put exactly at its own end |
| ItemTable.PaginationIffMoreThanOnePage | components/admin/ItemTable.tsx:95 | the pager shows exactly when there are more than 10 rows |
| ItemTable.Init | components/admin/ItemTable.tsx:18-19 | the table starts on page one with an empty search |
| ItemTable.SetSearch | components/admin/ItemTable.tsx:18-19 | as written, a new search keeps the current page |
| ItemTable.NarrowingSearchStrandsPage | components/admin/ItemTable.tsx:18-28 | as written, a search typed on any page after the first that matches between 1 and 10 rows shows no row and hides the pager |
| ItemTable.SetSearchFromFirstPage | components/admin/ItemTable.tsx:18-28 | corrected: a new search goes back to page one |
| ItemTable.SearchFromFirstPageShowsMatches | components/admin/ItemTable.tsx:18-28 | after the corrected change the first ten matches are shown, and the table is empty only when nothing matches |
| ItemsPage.CollectionNames | app/admin/items/page.tsx:43 | an array reply gives its names in order; anything else gives none |
| ItemsPage.LoadEach | app/admin/items/page.tsx:57-73 | every loaded item is tagged with a listed collection whose load succeeded and holds it |
| ItemsPage.FailingCollectionIsSkipped | app/admin/items/page.tsx:57-73 | each collection adds its own items in list order, and a failing one adds nothing |
| ItemsPage.Init | app/admin/items/page.tsx:28-35 | the page starts on all collections and all types, with no term, nothing listed or loaded, no error, and loading |
| ItemsPage.LoadCollections | app/admin/items/page.tsx:37-49 | a reply sets the listed names; a failure records its message; neither changes `loading` |
| ItemsPage.LoadTrigger | app/admin/items/page.tsx:101-105 | the effect loads the items, ending `loading`, only when some collection is listed, and otherwise changes nothing |
| ItemsPage.LoadAllItems | app/admin/items/page.tsx:51-95 | with "all" every listed collection is loaded in turn; with one collection a success shows its tagged items and a failure keeps the old items and records the error; each run of the loader ends `loading` |
| ItemsPage.NoCollectionKeepsSkeleton | app/admin/items/page.tsx:28-49 | as written, a failed or empty listing leaves the page loading for good, with a failure's message recorded but never shown, whatever collection is chosen next |
| ItemsPage.LoadCollectionsSettling | app/admin/items/page.tsx:37-49 | corrected: the same names and error, and `loading` is dropped when nothing is listed |
| ItemsPage.SettlingMountEndsLoading | app/admin/items/page.tsx:97-105 | after the corrected listing the page always leaves the skeleton, shows a failure's message, and loads a non-empty listing exactly as written |
| ItemsPage.EffectiveType | app/admin/items/page.tsx:123 | an item's type is `tipo`, else `type`, else "sin_tipo"; never empty |
| ItemsPage.SearchedIsFilter | app/admin/items/page.tsx:111-118 | the search step keeps, in order, exactly the items whose id, some metadata value or document contains the term, ignoring case |
| ItemsPage.TypedIsFilter | app/admin/items/page.tsx:121-126 | the type step keeps, in order, exactly the items whose effective type is the chosen one, or every item for "all" |
| ItemsPage.ShownIsOneFilter | app/admin/items/page.tsx:107-128 | the two steps in sequence equal one filter by both conditions |
| ItemsPage.ShownMembership | app/admin/items/page.tsx:107-128 | an item is shown exactly when it was loaded and passes both conditions, and the shown items keep the loaded order |
| ItemsPage.NoFilterShowsAll | app/admin/items/page.tsx:107-128 | with no term and type "all" every loaded item is shown |
| ItemsPage.EffectiveTypes | app/admin/items/page.tsx:150-152 | one type per loaded item, in order |
| ItemsPage.AvailableTypes | app/admin/items/page.tsx:148-155 | the type menu is strictly sorted and holds exactly the types of the loaded items |
| ItemsPage.AvailableTypesCanonical | app/admin/items/page.tsx:148-155 | any strictly sorted list of exactly those types is the menu itself, and each menu entry selects at least one item |
| ItemsPage.TitleFallbacks | app/admin/items/page.tsx:157-163 | the title is the first non-empty of `titulo`, `nombre`, `name` and the id; the subtitle is the first non-empty of `artista`, `artist`, `descripcion` and "Sin descripción" |
| SortedStrings.LessIrreflexive | app/admin/items/page.tsx:154 | no type sorts before itself |
| SortedStrings.LessTransitive | app/admin/items/page.tsx:154 | the order used for the menu is transitive |
| SortedStrings.LessTotal | app/admin/items/page.tsx:154 | of two different types one sorts first |
| SortedStrings.Insert | app/admin/items/page.tsx:149-152 | adding a type to a sorted list keeps it sorted and adds exactly that type |
| SortedStrings.SortedDistinct | app/admin/items/page.tsx:148-155 | a set of types turned into a sorted array is strictly sorted and holds exactly the given values |
| SortedStrings.SortedIsUnique | app/admin/items/page.tsx:148-155 | two strictly sorted lists with the same elements are equal |
| ImagesPage.Visible | app/admin/images/page.tsx:111-120 | the shown images are an ordered part of the loaded ones |
| ImagesPage.VisibleMembership | app/admin/images/page.tsx:111-120 | an image is shown exactly when it is loaded and its file name, title, artist or zone contains the term, ignoring case |
| ImagesPage.EmptySearchKeepsImagesWithAProperty | app/admin/images/page.tsx:111-118 | an empty search keeps exactly the images that have a file name, title, artist or zone |
| ImagesPage.Init | app/admin/images/page.tsx:16-34 | the page starts loading, with an empty upload form and a shown list that agrees with the search |
| ImagesPage.LoadParams | app/admin/images/page.tsx:41 | the zone and artist filters become query parameters exactly when they are set |
| ImagesPage.LoadImages | app/admin/images/page.tsx:36-52 | a success replaces the images (none when the list is missing); a failure keeps them and records the message or a default; the shown list is the search over the loaded one |
| ImagesPage.SetSearch | app/admin/images/page.tsx:111-120 | changing the term re-filters the loaded images with the new term |
| ImagesPage.Delete | app/admin/images/page.tsx:54-64 | the prompt is always asked; a confirmed delete sends that id; success removes it from both lists; a declined prompt or a failure changes nothing, and a failure alerts |
| ImagesPage.DeleteRemovesExactlyThatId | app/admin/images/page.tsx:59 | a successful delete removes exactly the images with that id |
| ImagesPage.DeleteKeepsConsistent | app/admin/images/page.tsx:59-60 | after a delete the shown list is still the search applied to the loaded list |
| ImagesPage.UploadFields | app/admin/images/page.tsx:76-84 | the upload form carries the file, work id, title, artist and zone, plus the visual description exactly when one is given |
| ImagesPage.UploadFieldsReadBack | app/admin/images/page.tsx:76-84 | the whole upload form can be read back from the form data |
| ImagesPage.Upload | app/admin/images/page.tsx:66-105 | a form missing the file, work id, title, artist or zone alerts and sends nothing; otherwise the form is posted; a success clears the form and reloads; a failure alerts and changes nothing |
| CollectionsPage.Description | app/admin/collections/page.tsx:64-71 | the three known collections get their own descriptions; a name the object literal inherits from `Object.prototype`, such as `constructor`, gets that inherited member; any other name gets "Colección del museo" |
| CollectionsPage.DescriptionsTellKnownCollectionsApart | app/admin/collections/page.tsx:64-71 | the known collections have different descriptions; the generic one marks exactly the names that are neither known nor inherited; an inherited member appears exactly for the inherited names |
| CollectionsPage.Combine | app/admin/collections/page.tsx:46-52 | one entry per name of an array reply, in order, with that collection's item count and description; anything else gives none |
| CollectionsPage.CombineExtendsGetCollections | app/admin/collections/page.tsx:46-52 | the page lists the same names, in the same order, as the API client's collection list |
| CollectionsPage.LoadRequests | app/admin/collections/page.tsx:33-41 | the page itself GETs the browser's `API_BASE` followed by `/admin/collections`, then `/admin/analytics`, with only the ngrok header and no body |
| CollectionsPage.DirectFetchIsNotPrefixed | app/admin/collections/page.tsx:33 | the page's direct list request differs from the same endpoint sent through `apiRequest`, and without a `window` setting goes to the default host whatever the environment holds |
| CollectionsPage.LoadCollections | app/admin/collections/page.tsx:27-62 | a success shows the combined list and keeps the analytics; a failure keeps the list and records the message or a default |
| CollectionsPage.Visible | app/admin/collections/page.tsx:135-143 | an empty search shows every collection |
| CollectionsPage.VisibleMembership | app/admin/collections/page.tsx:135-143 | a collection is shown exactly when it is loaded and its name contains the term, ignoring case, in the loaded order |
| CollectionsPage.SummaryAgreesWithGetAnalytics | app/admin/collections/page.tsx:241-250 | the summary's item and image totals equal those of the API client's analytics, and no card's count exceeds the item total |
| CollectionCard.StatusOf | components/admin/CollectionCard.tsx:37-47 | a collection is empty with no items, low with fewer than 10, and active with 10 or more |
| CollectionCard.ColourAndTextAgree | components/admin/CollectionCard.tsx:37-47 | the badge's colour and text always describe the same status |
| CollectionCard.BackupName | components/admin/CollectionCard.tsx:26 | the suggested copy name is the collection's name followed by `_backup` |
| CollectionCard.Init | components/admin/CollectionCard.tsx:26-27 | the duplicate dialog starts closed, with the suggested copy name |
| CollectionCard.HandleDuplicate | components/admin/CollectionCard.tsx:29-35 | a blank name does nothing; otherwise the trimmed name is sent for this collection and the dialog closes and is reset |
| CollectionCard.DuplicateNameIsClean | components/admin/CollectionCard.tsx:29-35 | the copy is sent exactly when the name is not blank, and the name sent has no surrounding white space |
| AdminLayout.ActiveEntries | components/admin/AdminLayout.tsx:39-40 | the highlighted entries keep the menu order |
| AdminLayout.ActiveEntriesMembership | components/admin/AdminLayout.tsx:39-40 | an entry is highlighted exactly when the path is its link or starts with it followed by `/` |
| AdminLayout.SegmentBoundary | components/admin/AdminLayout.tsx:40 | a path that extends a link without a `/` does not activate it |
| AdminLayout.CollectionsXIsNotCollections | components/admin/AdminLayout.tsx:40 | `/admin/collectionsX` does not activate "collections", while a collection's own page does |
| AdminLayout.ActivePrefix | components/admin/AdminLayout.tsx:40 | an active link is a prefix of the path |
| AdminLayout.NotBothActive | components/admin/AdminLayout.tsx:40 | links that differ at a position both reach are never active together |
| AdminLayout.DashboardAlwaysActive | components/admin/AdminLayout.tsx:12-19 | the dashboard entry is highlighted on every admin page |
| AdminLayout.SectionsExclusive | components/admin/AdminLayout.tsx:12-19 | no two sections other than the dashboard are highlighted together |
| AdminLayout.ItemsPageHighlightsTwo | components/admin/AdminLayout.tsx:40 | the items page highlights both the dashboard and "items" |
| DocumentEditor.Init | components/admin/DocumentEditor.tsx:18-22 | the editor starts with the document's text, clean and idle |
| DocumentEditor.Edit | components/admin/DocumentEditor.tsx:24-27 | typing sets the text and sets the changed flag exactly when it differs from the document |
| DocumentEditor.Discard | components/admin/DocumentEditor.tsx:44-47 | discarding restores the document's text and clears the flag |
| DocumentEditor.SaveEnabledIffChangedAndIdle | components/admin/DocumentEditor.tsx:63 | save is enabled exactly when the text differs from the document and no save runs |
| DocumentEditor.EditingBackIsClean | components/admin/DocumentEditor.tsx:24-27 | typing back the original text disables save again |
| DocumentEditor.StartSave | components/admin/DocumentEditor.tsx:29-34 | a save sends the edited text and clears the old error |
| DocumentEditor.FinishSave | components/admin/DocumentEditor.tsx:29-42 | success clears the flag; failure keeps the text and the flag and shows the message |
| DocumentEditor.FailedSaveCanRetry | components/admin/DocumentEditor.tsx:29-41 | after a failed save the editor is as before apart from the error, and save is enabled again |
| DocumentEditor.SavedTextIsCleanAgainstNewDocument | components/admin/DocumentEditor.tsx:34-35 | after a successful save the editor is clean against the saved text |
| ContentPage.EmptyForm | app/admin/content/page.tsx:22-47 | a fresh form has every input empty and no extra metadata |
| ContentPage.Init | app/admin/content/page.tsx:18-47 | both forms start empty, with no notice |
| ContentPage.CreateObra | app/admin/content/page.tsx:54-91 | a work is sent exactly when title, artist, zone and description are filled; success empties the form and announces it; failure keeps the form and shows the message or a default |
| ContentPage.CreateZona | app/admin/content/page.tsx:93-121 | a zone is sent exactly when name and description are filled; success empties its form and announces it; failure keeps it and shows the message or a default |
| ContentPage.OptionalFieldsDoNotBlockObra | app/admin/content/page.tsx:58-61 | only the four required fields decide whether a work is sent |
| ContentPage.OptionalFieldsDoNotBlockZona | app/admin/content/page.tsx:97-100 | only name and description decide whether a zone is sent |
| ContentPage.CreatedFormCannotBeResent | app/admin/content/page.tsx:58-85 | after a successful create the emptied form cannot be sent again |
| CreatePage.EmptyForm | app/admin/create/page.tsx:21-33 | a fresh form has every input of both kinds empty |
| CreatePage.Init | app/admin/create/page.tsx:15-33 | the page starts on works, with an empty form and no message |
| CreatePage.SetField | app/admin/create/page.tsx:35-37 | typing changes only that input |
| CreatePage.ObraPayload | app/admin/create/page.tsx:66-75 | a work sends its seven inputs and a type that defaults to "obra" |
| CreatePage.ZonaPayload | app/admin/create/page.tsx:78-85 | a zone sends its five inputs and the type "zona" |
| CreatePage.PayloadTypeIsNeverEmpty | app/admin/create/page.tsx:74 | the type sent is never empty, a typed type is kept for a work, and a zone's is always "zona" |
| CreatePage.PayloadsIgnoreTheOtherKind | app/admin/create/page.tsx:66-85 | inputs of the other kind never reach a payload |
| CreatePage.ResetForm | app/admin/create/page.tsx:39-55 | a reset empties every input and clears both messages |
| CreatePage.SelectKind | app/admin/create/page.tsx:111-124 | the kind buttons switch the kind and reset the form |
| CreatePage.SwitchingKindClearsInputs | app/admin/create/page.tsx:111-124 | no input survives a switch of kind |
| CreatePage.Submit | app/admin/create/page.tsx:57-97 | as written: the payload of the current kind is sent; success empties the form; failure keeps it and shows the message or a default |
| CreatePage.SuccessMessageIsClearedAtOnce | app/admin/create/page.tsx:89-90 | as written, a successful create ends with no success message |
| CreatePage.SubmitKeepingSuccess | app/admin/create/page.tsx:57-97 | corrected: it sends the same payload and fails like `Submit` |
| CreatePage.CorrectedSubmitAnnouncesCreate | app/admin/create/page.tsx:89-90 | after the corrected create the form is empty and the page says "Obra creada correctamente" or "Zona creada correctamente" |
| ImageUpload.Init | components/admin/ImageUpload.tsx:17-20 | the dialog starts with no file, no preview and empty inputs |
| ImageUpload.Select | components/admin/ImageUpload.tsx:23-32 | choosing a file records it and its preview and keeps the inputs |
| ImageUpload.FirstImage | components/admin/ImageUpload.tsx:37 | a drop picks the first dropped file that is an image, if any |
| ImageUpload.Drop | components/admin/ImageUpload.tsx:34-41 | a drop with no image changes nothing; otherwise it selects the first image |
| ImageUpload.DropSkipsNonImages | components/admin/ImageUpload.tsx:34-41 | files before the first image are ignored |
| ImageUpload.Pick | components/admin/ImageUpload.tsx:116-119 | the file input selects its first file, if any |
| ImageUpload.Submit | components/admin/ImageUpload.tsx:43-53 | nothing is sent without a file; otherwise the file goes first, followed by the zone and the artist exactly when they are filled |
| ImageUpload.SubmitReadsBack | components/admin/ImageUpload.tsx:43-53 | the file, zone and artist read back from the form data |
| ImageUpload.Clear | components/admin/ImageUpload.tsx:55-61 | clearing drops the file and the preview and keeps the inputs |
| ImageUpload.ClearedFormSubmitsNothing | components/admin/ImageUpload.tsx:55-61 | after a clear nothing can be submitted |
| CameraCapture.Init | components/chat/CameraCapture.tsx:17 | the dialog starts with the rear camera, no photo and no message |
| CameraCapture.SwitchCamera | components/chat/CameraCapture.tsx:85-87 | the switch flips between front and rear and keeps the photo and message |
| CameraCapture.SwitchTwiceRestores | components/chat/CameraCapture.tsx:85-87 | switching twice restores the camera |
| CameraCapture.Capture | components/chat/CameraCapture.tsx:66 | a capture records a JPEG named `camera-capture.jpg` and keeps the camera and message |
| CameraCapture.Send | components/chat/CameraCapture.tsx:89-94 | a photo and a non-blank message are sent, the message trimmed, and the dialog closes; otherwise nothing happens |
| CameraCapture.SentMessageIsTrimmedAndNonBlank | components/chat/CameraCapture.tsx:89-94 | the message sent is not blank and is its own trim |
| CameraCapture.Retake | components/chat/CameraCapture.tsx:96-103 | a retake drops the photo and clears the message |
| CameraCapture.RetakeBlocksSend | components/chat/CameraCapture.tsx:96-103 | right after a retake nothing can be sent |
| MessageBubble.FindClose | components/chat/MessageBubble.tsx:19 | the closing marker found is the first one after the opening, on the same line when required |
| MessageBubble.BoldAt | components/chat/MessageBubble.tsx:19 | a bold match reads back as the matched text, starts with `*`, and holds non-empty content on one line that neither starts nor ends with `*` |
| MessageBubble.ItalicAt | components/chat/MessageBubble.tsx:28 | an italic match reads back as the matched text and holds non-empty content without its own marker, `*` or `_` |
| MessageBubble.CodeAt | components/chat/MessageBubble.tsx:37 | a code match reads back as the matched text and holds content without backticks |
| MessageBubble.MatchAt | components/chat/MessageBubble.tsx:16-44 | a match of any pattern reads back as the matched text and is an element of that pattern |
| MessageBubble.Scan | components/chat/MessageBubble.tsx:58-79 | a scan splits the rest of a text into plain pieces and matches that read back as that rest |
| MessageBubble.PassString | components/chat/MessageBubble.tsx:54-79 | one pattern's pass over a text reads back as the text, and stays one plain element when nothing matches |
| MessageBubble.Pass | components/chat/MessageBubble.tsx:49-86 | a pass over elements reads back as the elements did |
| MessageBubble.PassAppend | components/chat/MessageBubble.tsx:49-86 | a pass works element by element |
| MessageBubble.EarlierElementsUntouched | components/chat/MessageBubble.tsx:80-82 | already rendered elements pass through a later pass unchanged |
| MessageBubble.InlinePasses | components/chat/MessageBubble.tsx:88 | bold, italic and code passes in that order read back as the line |
| MessageBubble.Inline | components/chat/MessageBubble.tsx:88 | the rendered line reads back as the line, and plain text is returned as plain text |
| MessageBubble.NoMarkersStaysPlain | components/chat/MessageBubble.tsx:58-88 | a line without `*`, `_` or backticks stays plain |
| MessageBubble.NumberMarker | components/chat/MessageBubble.tsx:121 | a numbered-item marker is digits, a dot and a space |
| MessageBubble.Markdown | components/chat/MessageBubble.tsx:91-94 | one block per line of the content, each the classification of its line |
| MessageBubble.HeadingReadsBack | components/chat/MessageBubble.tsx:98-118 | a heading has level 1 to 3, and its hashes, a space and its text give the line back |
| MessageBubble.NumberedItemReadsBack | components/chat/MessageBubble.tsx:121-127 | a numbered item's marker and text give the line back |
| MessageBubble.BulletItemReadsBack | components/chat/MessageBubble.tsx:129-135 | a bullet item's marker and text give the line back |
| MessageBubble.ParagraphReadsBack | components/chat/MessageBubble.tsx:138-146 | a paragraph gives its non-empty line back, and only an empty trimmed line is a break |
| MessageBubble.LineBreakIffBlank | components/chat/MessageBubble.tsx:137-146 | a line becomes a break exactly when it is blank |
| MessageBubble.StarBulletIsListItem | components/chat/MessageBubble.tsx:129-135 | every line starting with `* ` is a list item, not italic text, whatever follows |
| MessageBubble.HashWithoutSpaceIsParagraph | components/chat/MessageBubble.tsx:98-118 | a line such as `#title`, a `#` followed by neither a space nor another `#`, is shown as a paragraph, not a heading |
| MessageBubble.MarkerOf | components/chat/MessageBubble.tsx:98-135 | a heading marker is one to three hashes and a space at the start of the line; a number marker is the `digits. ` prefix; a bullet marker is `-`, `*` or `+` and a space; only the empty line has no marker and no text |
| MessageBubble.Card | components/chat/MessageBubble.tsx:183-184 | a work card shows `titulo`, else `name`, and `artista`, else `artist` |
| MessageBubble.Render | components/chat/MessageBubble.tsx:150-192 | the visitor's bubble is on the right and shows the text as is; an assistant's renders one block per line; the photo shows exactly when there is a non-empty URL; one card per work, card i showing work i |
| MessageBubble.AssistantLinesCoverContent | components/chat/MessageBubble.tsx:92-94 | an assistant bubble's blocks are the classified lines of its content, and the lines join back to the content |
| Chat.ToWire | app/page.tsx:110 | a message is sent upstream as its role and content |
| Chat.WireAll | app/page.tsx:110 | the log sent upstream has each message's role and content, one per message, in order |
| Chat.WireAllAppend | app/page.tsx:110 | sending a longer log appends to what the shorter one sends |
| Chat.TextMessage | lib/types.ts:2-9 | a text message has no image and no works |
| ChatRoute.LastContent | app/api/chat/route.ts:20 | the question is the last message's content, or empty for an empty log |
| ChatRoute.History | app/api/chat/route.ts:23-26 | the history is every message but the last, in order |
| ChatRoute.BuildForward | app/api/chat/route.ts:31 | the log goes to the backend's `/chat` |
| ChatRoute.ForwardSplitsLog | app/api/chat/route.ts:20-42 | the history followed by the question gives back the whole log |
| ChatRoute.EmptyLogForwardsNothing | app/api/chat/route.ts:20-26 | an empty log forwards an empty question and no history |
| ChatRoute.ReadData | app/api/chat/route.ts:51-58 | a reply declared as JSON is parsed, with no data when parsing throws; any other reply becomes one whose `response` is its text |
| ChatRoute.StreamBody | app/api/chat/route.ts:68 | the stream always ends with a line feed |
| ChatRoute.StreamReadsBack | app/api/chat/route.ts:68 | the reply text, or nothing, comes back from the stream before the line feed |
| ChatRoute.Handle | app/api/chat/route.ts:18-79 | the route falls back exactly when the backend cannot be reached or its JSON reply cannot be read; otherwise it streams the reply text, or the parsed `response`, and a line feed |
| ChatRoute.PlainTextIsEchoed | app/api/chat/route.ts:55-58 | a non-JSON reply from the backend reaches the visitor word for word |
| ChatRoute.BrokenJsonFallsBack | app/api/chat/route.ts:52-53 | a reply declared as JSON whose body does not parse sends the route to its fallback |
| ChatPage.Init | app/page.tsx:18-20 | the chat starts with no messages, an empty input and nothing pending |
| ChatPage.SendText | app/page.tsx:90-112 | a blank text or a pending answer sends nothing; otherwise the visitor's message is logged, the input cleared and the whole log posted |
| ChatPage.GuardedSendIsNoOp | app/page.tsx:91 | a blank text or a pending answer leaves the page as it is |
| ChatPage.ReplyText | app/page.tsx:114-147 | the answer is the streamed text, "Respuesta recibida" for an empty stream, or the apology on any failure; never empty |
| ChatPage.FinishText | app/page.tsx:128-150 | the exchange ends with one more message, the assistant's answer, and nothing pending |
| ChatPage.ExchangeAddsTwoMessages | app/page.tsx:93-135 | a full exchange adds the visitor's text and then the answer, and posts the earlier log plus the new text |
| ChatPage.BackendAnswerIsShown | app/page.tsx:131 | an answer streamed by the route is shown as is, never as the placeholder |
| ChatPage.QuickQuestion | app/page.tsx:200-203 | a quick question is sent like typed text; when refused it stays in the input |
| ChatPage.SendImage | app/page.tsx:153-170 | a photo is logged with its preview and POSTed as a form, without a JSON content type, with the message to the prefix, the browser's `API_BASE` and `/chat-with-image`; there is no guard |
| ChatPage.ImageAnswer | app/page.tsx:172-189 | the answer is the reply's text or a default, with its works or an empty list; a failure gives the apology |
| ChatPage.ImageAnswerWorks | app/page.tsx:172-189 | an answer carries a works list exactly when the call succeeded, and an empty reply shows the default |
| ChatPage.FinishImage | app/page.tsx:172-192 | the photo exchange ends with one assistant message and nothing pending |
| ChatPage.PhotoUrlIsPrefixedTwice | lib/api.ts:114-118 | without a `window` setting the photo URL is the prefix, then the default host, then the path, even when the environment names another host |
| ChatPage.PhotoMessageComesTrimmed | app/page.tsx:279 | a photo message that came from the camera dialog is trimmed and not blank |

## Left out

- HTTP transport and `fetch` are not modelled: every response is an input.
- React rendering, list keys, state batching and the interleaving of
  concurrent handlers are not modelled. Each handler runs alone on the state
  it starts with.
- The language-model fallback of the chat route (app/api/chat/route.ts:79-124)
  is a call into an outside service. `ChatRoute.Handle` returns a `Fallback`
  marker; the model's answer and the 500 reply when it fails are not
  modelled.
- The chat route reads its own request body (app/api/chat/route.ts:16)
  before its `try`; a malformed request body is not modelled, and the
  messages are an input.
- ChatRoute.Data: a `response` that is not a string is not modelled.
- The camera stream, media devices, the canvas, `FileReader` and object URLs
  are browser APIs. Their results are parameters.
- `JSON.parse` and `response.json()` are opaque parameters; JSON text
  itself is not modelled.
- How React shows a description that is an inherited member is not
  modelled: the eleven inherited functions render nothing in its place,
  while `__proto__` yields `Object.prototype`, an object, which React
  refuses as a child. `CollectionsPage.Description` returns the member by
  key.
- Js.ToLower: lower-cases ASCII and Latin-1 letters only; other Unicode case
  mappings are out of scope.
- SortedStrings.Less: compares by code point. JavaScript's default sort
  compares UTF-16 code units, which differ only outside the Basic
  Multilingual Plane.
- Metadata values are strings. Numbers, arrays and nested objects the
  backend may return are not modelled, nor is a `metadata` property that is
  present but `null`.
- Api.Lookup: the detail is the parsed object's entries, whose names are
  unique (`Api.DistinctNames`). For a list that repeats a name it reads the
  first entry, where `JSON.parse` would have kept the last value.
- `URLSearchParams` percent-encoding is not modelled; a query is its list of
  name/value pairs.
- The 5-second timer that clears page notices, and `Date.now()` message ids
  and timestamps, depend on the clock.
- MetadataEditor.StoreApply: is what the backend is assumed to do with a
  command. The backend is not part of this model, so the mirror lemmas hold
  relative to that assumption.
- BulkOperations.Execute: does not relate the success and error counts to
  the selection size, because the backend computes them.
- ImagesPage.LoadImages: re-applies the search to the old list when a load
  fails. This equals the old shown list whenever the page was consistent.
- The items page's delete handler, and the collections page's duplicate,
  delete and export handlers, call backend endpoints whose results are only
  reported. They are not modelled.
- The remaining `lib/api.ts` wrappers are one-line `apiRequest` calls of the
  form `Api.AdminRequest` covers (an admin path, a method and a body); only
  the item helpers are written out. `sendMessage` is not used by the pages
  modelled here.
- The browser's `required` attribute on form inputs is not modelled. The
  handlers' own checks are.
- The chunking of the response body by `TextDecoder` is not modelled;
  `ChatPage.ReplyText` takes the decoded chunks.
- DocumentEditor: the `onUpdate` callback into the parent and the reload of
  the `document` prop are the parent's business. Only the saved text handed
  back is modelled.
- ItemTable: the shortening of ids to eight characters is display only.
- The tools, search, dashboard, upload, item-detail and collection-detail
  pages, the sidebar, the stats cards, the client layout and
  `components/museum-chat.tsx` are not part of this model.

## Findings

| source | as written | input that shows it | evidently intended | confidence | as-written member | corrected member |
|---|---|---|---|---|---|---|
| components/admin/ItemTable.tsx:18-28 | changing the search term keeps the current page | 21 rows, "next" twice to reach page 3 (any page after the first will do), then a term that 1 to 10 rows match: page 3 shows no row and the pager is hidden, so page 1 cannot be reached | a new search starts again at page one | not executed | ItemTable.NarrowingSearchStrandsPage | ItemTable.SetSearchFromFirstPage, ItemTable.SearchFromFirstPageShowsMatches |
| app/admin/create/page.tsx:89-90 | `setSuccess` is followed at once by `resetForm()`, which clears the message | any successful create | the form is emptied and the success message stays | not executed | CreatePage.SuccessMessageIsClearedAtOnce | CreatePage.SubmitKeepingSuccess, CreatePage.CorrectedSubmitAnnouncesCreate |
| app/admin/items/page.tsx:28-105 | `loading` starts true and only `loadAllItems` clears it, which the effect calls only when a collection is listed | a listing request that fails, or a backend with no collection: the skeleton stays, and the error block is never reached | with nothing to load the page leaves the skeleton and shows the error or the empty list | not executed | ItemsPage.NoCollectionKeepsSkeleton | ItemsPage.LoadCollectionsSettling, ItemsPage.SettlingMountEndsLoading |

=== FILE: admin_layout.dfy ===
/** The admin sidebar (components/admin/AdminLayout.tsx): which navigation
    entries are highlighted for the current path. */
module AdminLayout {
  import opened Js

  datatype NavEntry = NavEntry(name: string, href: string)

  const Navigation: seq<NavEntry> := [
    NavEntry("Dashboard", "/admin"),
    NavEntry("Collections", "/admin/collections"),
    NavEntry("Items", "/admin/items"),
    NavEntry("Images", "/admin/images"),
    NavEntry("Bulk Operations", "/admin/bulk"),
    NavEntry("Tools", "/admin/tools")
  ]

  /** An entry is active on its own path and on every path below it. */
  predicate IsActive(path: string, href: string)
  {
    path == href || StartsWith(path, href + "/")
  }

  /** The highlighted entries, in sidebar order. */
  function ActiveEntries(path: string): (r: seq<NavEntry>)
    ensures Subseq(r, Navigation)
  {
    Filter(Navigation, (e: NavEntry) => IsActive(path, e.href))
  }

  lemma ActiveEntriesMembership(path: string, e: NavEntry)
    ensures e in ActiveEntries(path) <==> e in Navigation && IsActive(path, e.href)
  {
    FilterMember(Navigation, (e: NavEntry) => IsActive(path, e.href), e);
  }

  /** Only a whole path segment counts: a path that merely continues the
      entry's text, like "/admin/collectionsX" for "/admin/collections",
      does not activate it. */
  lemma {:induction false} SegmentBoundary(href: string, rest: string)
    requires |rest| > 0 && rest[0] != '/'
    ensures !IsActive(href + rest, href)
  {
    var path := href + rest;
    assert path[|href|] == rest[0];
  }

  lemma CollectionsXIsNotCollections()
    ensures !IsActive("/admin/collectionsX", "/admin/collections")
    ensures IsActive("/admin/collections/mac_info", "/admin/collections")
  {
    SegmentBoundary("/admin/collections", "X");
    assert "/admin/collections/mac_info" == "/admin/collections" + "/" + "mac_info";
  }

  /** An active entry's text is where the path starts. */
  lemma ActivePrefix(path: string, href: string, k: nat)
    requires IsActive(path, href) && k < |href|
    ensures k < |path| && path[k] == href[k]
  {
    if path != href {
      assert (href + "/")[k] == href[k];
    }
  }

  /** Entries that differ at some position both of them reach are never
      active together. */
  lemma NotBothActive(path: string, a: string, b: string, k: nat)
    requires k < |a| && k < |b| && a[k] != b[k]
    ensures !(IsActive(path, a) && IsActive(path, b))
  {
    if IsActive(path, a) && IsActive(path, b) {
      ActivePrefix(path, a, k);
      ActivePrefix(path, b, k);
    }
  }

  /** Dashboard stays active on every admin page below it. */
  lemma DashboardAlwaysActive(path: string)
    requires StartsWith(path, "/admin/")
    ensures Navigation[0] in ActiveEntries(path)
  {
    ActiveEntriesMembership(path, Navigation[0]);
    assert Navigation[0].href + "/" == "/admin/";
  }

  /** No path highlights two sections. */
  lemma SectionsExclusive(path: string, i: nat, j: nat)
    requires 1 <= i < j < |Navigation|
    ensures !(IsActive(path, Navigation[i].href) && IsActive(path, Navigation[j].href))
  {
    var a, b := Navigation[i].href, Navigation[j].href;
    assert |a| > 8 && |b| > 8;
    if a[7] != b[7] {
      NotBothActive(path, a, b, 7);
    } else {
      assert a[8] != b[8];
      NotBothActive(path, a, b, 8);
    }
  }

  /** So on a section page two entries are highlighted at once: Dashboard
      and the section itself. */
  lemma ItemsPageHighlightsTwo()
    ensures Navigation[0] in ActiveEntries("/admin/items") && Navigation[2] in ActiveEntries("/admin/items")
  {
    DashboardAlwaysActive("/admin/items");
    ActiveEntriesMembership("/admin/items", Navigation[2]);
  }
}

=== FILE: api.dfy ===
/** The API client (lib/api.ts): how `apiRequest` builds a request and
    classifies the response, and how the admin helpers normalise what the
    backend returns (collection names, image records, search parameters,
    analytics totals). The network is not modelled: the response a request
    receives is an input. */
module Api {
  import opened Js

  // ---------------------------------------------------------------------------
  //  Endpoints
  // ---------------------------------------------------------------------------

  /** Fallback of `API_BASE`, used for absolute admin and image URLs. */
  const DefaultApi := "https://257c-45-236-45-57.ngrok-free.app"

  /** Fallback of `API_URL`, the prefix `apiRequest` puts on every endpoint.
      It differs from `DefaultApi` by one dash. */
  const DefaultApiUrl := "https://257c45-236-45-57.ngrok-free.app"

  /** The deployment's settings: `process.env.NEXT_PUBLIC_API_BASE` and
      `window.NEXT_PUBLIC_API_BASE`, each "" when unset. */
  datatype Config = Config(env: string, windowBase: string)

  /** Where lib/api.ts is evaluated: on the server there is no `window`. */
  datatype Side = Server | Browser

  /** `API_BASE`: the server reads the environment, the browser reads the
      `window` property; either falls back to `DefaultApi`. */
  function ApiBase(c: Config, side: Side): (r: string)
    ensures r != ""
    ensures side == Server && c.env != "" ==> r == c.env
    ensures side == Browser && c.windowBase != "" ==> r == c.windowBase
    ensures (if side == Server then c.env else c.windowBase) == "" ==> r == DefaultApi
  {
    match side
    case Server => Or(c.env, DefaultApi)
    case Browser => Or(c.windowBase, DefaultApi)
  }

  /** `API_URL`: the environment value on both sides, never the `window`
      property, with `DefaultApiUrl` as the fallback. */
  function ApiUrl(c: Config): (r: string)
    ensures r != ""
    ensures c.env != "" ==> r == c.env
    ensures c.env == "" ==> r == DefaultApiUrl
  {
    Or(c.env, DefaultApiUrl)
  }

  /** The two settings agree only on the server: in the browser `API_URL`
      ignores a `window` value and `API_BASE` ignores the environment. */
  lemma BaseAndUrlDiverge(c: Config)
    ensures c.env != "" ==> ApiBase(c, Server) == ApiUrl(c)
    ensures c.env == "" ==> ApiBase(c, Server) != ApiUrl(c)
    ensures c.env != "" && c.windowBase == "" ==> ApiBase(c, Browser) == DefaultApi && ApiUrl(c) == c.env
    ensures c.env == "" && c.windowBase != "" ==> ApiBase(c, Browser) == c.windowBase && ApiUrl(c) == DefaultApiUrl
  {
    assert DefaultApi[12] != DefaultApiUrl[12];
  }

  function AdminApi(base: string): string
  {
    base + "/admin"
  }

  /** `getImageUrl`: where the backend serves an image file. Here and in
      the image helpers below, `base` is `API_BASE`; the admin pages run in
      the browser, where it is `ApiBase(c, Browser)`. */
  function ImageUrl(base: string, filename: string): (r: string)
    ensures StartsWith(r, base) && |filename| <= |r| && r[|r| - |filename|..] == filename
  {
    base + "/static/images/" + filename
  }

  // ---------------------------------------------------------------------------
  //  apiRequest: the outgoing request
  // ---------------------------------------------------------------------------

  /** A file picked or captured in the browser: its name and MIME type
      (the bytes are not modelled). */
  datatype File = File(name: string, mimeType: string)

  /** A `FormData` value: a string or a file. */
  datatype FormValue = Text(text: string) | Blob(file: File)

  /** A request body: none, a JSON string, or a multipart form whose
      entries keep their order of appending. */
  datatype Body = NoBody | JsonBody(json: string) | FormBody(fields: seq<(string, FormValue)>)

  /** What `fetch` is called with. `fetch` defaults the method to "GET", so
      the helpers that pass no method are modelled with "GET". `verb` is the
      `method` option. */
  datatype Request = Request(verb: string, url: string, headers: map<string, string>, body: Body)

  /** The first text value appended under `name`, or "" when none. */
  function TextEntry(fields: seq<(string, FormValue)>, name: string): string
  {
    if |fields| == 0 then ""
    else if fields[0].0 == name && fields[0].1.Text? then fields[0].1.text
    else TextEntry(fields[1..], name)
  }

  /** The first file appended under `name`, if any. */
  function FileEntry(fields: seq<(string, FormValue)>, name: string): Option<File>
  {
    if |fields| == 0 then None
    else if fields[0].0 == name && fields[0].1.Blob? then Some(fields[0].1.file)
    else FileEntry(fields[1..], name)
  }

  /** The first entry under `name` is the one read. */
  lemma ReadAt(r: seq<(string, FormValue)>, k: nat, name: string)
    requires k < |r| && r[k].0 == name && r[k].1.Text?
    requires forall i :: 0 <= i < k ==> r[i].0 != name
    ensures TextEntry(r, name) == r[k].1.text
  {
    EntriesAfter(r[..k], r[k..], name);
    assert r[..k] + r[k..] == r;
  }

  /** Entries under other names before the first one under `name` do not
      change what reading `name` gives. */
  lemma {:induction false} EntriesAfter(pre: seq<(string, FormValue)>, rest: seq<(string, FormValue)>, name: string)
    requires forall i :: 0 <= i < |pre| ==> pre[i].0 != name
    ensures TextEntry(pre + rest, name) == TextEntry(rest, name)
    ensures FileEntry(pre + rest, name) == FileEntry(rest, name)
  {
    if |pre| > 0 {
      assert (pre + rest)[1..] == pre[1..] + rest;
      EntriesAfter(pre[1..], rest, name);
    } else {
      assert pre + rest == rest;
    }
  }

  const NgrokHeader := "ngrok-skip-browser-warning"
  const ContentType := "Content-Type"

  /** The default headers: a form body gets only the ngrok header (the
      browser adds the multipart content type itself); any other body also
      declares JSON. */
  function DefaultHeaders(body: Body): (r: map<string, string>)
    ensures NgrokHeader in r && r[NgrokHeader] == "true"
    ensures ContentType in r <==> !body.FormBody?
    ensures ContentType in r ==> r[ContentType] == "application/json"
    ensures r.Keys <= {NgrokHeader, ContentType}
  {
    if body.FormBody? then map[NgrokHeader := "true"]
    else map[NgrokHeader := "true", ContentType := "application/json"]
  }

  /** `{ ...defaultHeaders, ...customHeaders }`: caller headers win. */
  function Headers(body: Body, custom: map<string, string>): (r: map<string, string>)
    ensures r.Keys == DefaultHeaders(body).Keys + custom.Keys
    ensures forall k :: k in custom ==> r[k] == custom[k]
    ensures forall k :: k in r && k !in custom ==> r[k] == DefaultHeaders(body)[k]
  {
    DefaultHeaders(body) + custom
  }

  /** The request `apiRequest` hands to `fetch`: the URL is `API_URL`
      followed verbatim by the endpoint, whatever the endpoint is, and the
      method passes through `...rest` unchanged. */
  function BuildRequest(apiUrl: string, endpoint: string, verb: string, body: Body, custom: map<string, string>): (r: Request)
    ensures StartsWith(r.url, apiUrl) && r.url[|apiUrl|..] == endpoint
    ensures r.verb == verb
    ensures r.body == body && r.headers == Headers(body, custom)
  {
    Request(verb, apiUrl + endpoint, Headers(body, custom), body)
  }

  /** An admin helper: `apiRequest` on `${ADMIN_API}` followed by `path`,
      with the given method and body and no caller headers. */
  function AdminRequest(c: Config, side: Side, path: string, verb: string, body: Body): (r: Request)
    ensures r.verb == verb && r.body == body && r.headers == DefaultHeaders(body)
    ensures r.url == ApiUrl(c) + ApiBase(c, side) + "/admin" + path
  {
    var base := ApiBase(c, side);
    assert ApiUrl(c) + (AdminApi(base) + path) == ApiUrl(c) + base + "/admin" + path;
    BuildRequest(ApiUrl(c), AdminApi(base) + path, verb, body, map[])
  }

  /** Every admin helper passes an absolute endpoint (`${ADMIN_API}/...`),
      and `apiRequest` still puts `API_URL` in front of it: the URL fetched
      is never the endpoint itself. In the browser `API_BASE` comes from the
      `window` property, so an environment value X with no `window` value
      gives X followed by the default host. */
  lemma AbsoluteEndpointIsPrefixedAgain(c: Config, side: Side, path: string, verb: string, body: Body)
    ensures var endpoint := AdminApi(ApiBase(c, side)) + path;
      var url := AdminRequest(c, side, path, verb, body).url;
      url != endpoint && url == ApiUrl(c) + ApiBase(c, side) + "/admin" + path
    ensures c.env != "" && c.windowBase == "" ==>
      AdminRequest(c, Browser, path, verb, body).url == c.env + DefaultApi + "/admin" + path
    ensures c.env != "" ==>
      AdminRequest(c, Server, path, verb, body).url == c.env + c.env + "/admin" + path
    ensures c.env == "" && c.windowBase != "" ==>
      AdminRequest(c, Browser, path, verb, body).url == DefaultApiUrl + c.windowBase + "/admin" + path
    ensures c == Config("", "") ==>
      AdminRequest(c, side, path, verb, body).url == DefaultApiUrl + DefaultApi + "/admin" + path
  {
    var endpoint := AdminApi(ApiBase(c, side)) + path;
    var url := AdminRequest(c, side, path, verb, body).url;
    assert |url| > |endpoint|;
  }

  /** The endpoint of one item. */
  function ItemPath(collection: string, id: string): string
  {
    "/collections/" + collection + "/items/" + id
  }

  /** `getItem`: no method, so `fetch` sends a GET. */
  function GetItem(c: Config, side: Side, collection: string, id: string): (r: Request)
    ensures r.verb == "GET" && r.body == NoBody
    ensures r.url == ApiUrl(c) + ApiBase(c, side) + "/admin" + ItemPath(collection, id)
  {
    AdminRequest(c, side, ItemPath(collection, id), "GET", NoBody)
  }

  /** `updateItem`: a PUT of the item's JSON. */
  function UpdateItem(c: Config, side: Side, collection: string, id: string, json: string): (r: Request)
    ensures r.verb == "PUT" && r.body == JsonBody(json)
    ensures ContentType in r.headers && r.headers[ContentType] == "application/json"
    ensures r.url == ApiUrl(c) + ApiBase(c, side) + "/admin" + ItemPath(collection, id)
  {
    AdminRequest(c, side, ItemPath(collection, id), "PUT", JsonBody(json))
  }

  /** `deleteItem`: a DELETE with no body. */
  function DeleteItem(c: Config, side: Side, collection: string, id: string): (r: Request)
    ensures r.verb == "DELETE" && r.body == NoBody
    ensures r.url == ApiUrl(c) + ApiBase(c, side) + "/admin" + ItemPath(collection, id)
  {
    AdminRequest(c, side, ItemPath(collection, id), "DELETE", NoBody)
  }

  /** The three item helpers address the same URL and are told apart by
      their method alone; only the update carries a body. */
  lemma ItemHelpersDifferInMethod(c: Config, side: Side, collection: string, id: string, json: string)
    ensures var g := GetItem(c, side, collection, id);
      var u := UpdateItem(c, side, collection, id, json);
      var d := DeleteItem(c, side, collection, id);
      g.url == u.url == d.url
      && g.verb != u.verb && u.verb != d.verb && g.verb != d.verb
      && g.headers == u.headers == d.headers
      && g.body == d.body != u.body
  {
  }

  /** A JSON body with no caller headers is sent with both default headers;
      a caller may still replace the content type. */
  lemma JsonBodyDeclaresJson(json: string, custom: map<string, string>)
    ensures ContentType !in custom ==> Headers(JsonBody(json), custom)[ContentType] == "application/json"
    ensures ContentType in custom ==> Headers(JsonBody(json), custom)[ContentType] == custom[ContentType]
    ensures ContentType !in custom ==> ContentType !in Headers(FormBody([]), custom)
  {
  }

  // ---------------------------------------------------------------------------
  //  apiRequest: the response
  // ---------------------------------------------------------------------------

  datatype Response = Response(status: nat, statusText: string, text: string)

  /** `response.ok`. */
  predicate Ok(r: Response)
  {
    200 <= r.status <= 299
  }

  /** What a successful `apiRequest` resolves to: `{}` for a 204, otherwise
      the value `response.json()` read from the body. */
  datatype Payload<T> = EmptyObject | Json(value: T)

  /** The message of the error a non-ok response throws. */
  function ErrorMessage(r: Response): (m: string)
    ensures StartsWith(m, NatToString(r.status) + " " + r.statusText + "\n")
    ensures var tail := Or(r.text, "No body"); |tail| <= |m| && m[|m| - |tail|..] == tail
  {
    NatToString(r.status) + " " + r.statusText + "\n" + Or(r.text, "No body")
  }

  /** How `apiRequest` settles for a response. `parse` stands for
      `response.json()`: it fails, with the parser's message, when the body
      is not JSON, and then `apiRequest` rejects with that error. */
  function Receive<T>(r: Response, parse: string -> Outcome<T>): (o: Outcome<Payload<T>>)
    ensures o.Failed? <==> !Ok(r) || (r.status != 204 && parse(r.text).Failed?)
    ensures !Ok(r) ==> o == Failed(ErrorMessage(r))
    ensures Ok(r) && r.status != 204 && parse(r.text).Failed? ==> o == Failed(parse(r.text).message)
    ensures o == Succeeded(EmptyObject) <==> r.status == 204
    ensures Ok(r) && r.status != 204 && parse(r.text).Succeeded? ==> o == Succeeded(Json(parse(r.text).value))
  {
    if !Ok(r) then Failed(ErrorMessage(r))
    else if r.status == 204 then Succeeded(EmptyObject)
    else match parse(r.text)
      case Succeeded(v) => Succeeded(Json(v))
      case Failed(m) => Failed(m)
  }

  /** Only a 204 is spared the JSON read: an empty body under any other ok
      status rejects when the parser refuses it, although the status is
      ok, while the same empty body under 204 resolves to `{}`. */
  lemma OnlyNoContentSkipsJson<T>(statusText: string, status: nat, parse: string -> Outcome<T>)
    requires 200 <= status <= 299 && status != 204 && parse("").Failed?
    ensures Receive(Response(status, statusText, ""), parse) == Failed(parse("").message)
    ensures Receive(Response(204, statusText, ""), parse) == Succeeded(EmptyObject)
  {
  }

  /** The text after the first line feed of a string. */
  function AfterFirstNewline(s: string): string
  {
    if |s| == 0 then "" else if s[0] == '\n' then s[1..] else AfterFirstNewline(s[1..])
  }

  lemma {:induction false} AfterFirstNewlineSkips(a: string, b: string)
    requires '\n' !in a
    ensures AfterFirstNewline(a + "\n" + b) == b
  {
    if |a| > 0 {
      assert (a + "\n" + b)[1..] == a[1..] + "\n" + b;
      AfterFirstNewlineSkips(a[1..], b);
    } else {
      assert a + "\n" + b == "\n" + b;
    }
  }

  /** The error message can be read back: its leading number is the
      status, and (status texts never hold a line feed) everything after
      its first line is the body text, or "No body" for an empty body. */
  lemma ErrorMessageReadsBack(r: Response)
    ensures ParseDigits(LeadingDigits(ErrorMessage(r))) == r.status
    ensures '\n' !in r.statusText ==> AfterFirstNewline(ErrorMessage(r)) == Or(r.text, "No body")
  {
    var n := NatToString(r.status);
    var body := Or(r.text, "No body");
    assert ErrorMessage(r) == n + (" " + r.statusText + "\n" + body);
    LeadingDigitsOfDigits(n, " " + r.statusText + "\n" + body);
    NatToStringRoundTrip(r.status);
    if '\n' !in r.statusText {
      var head := n + " " + r.statusText;
      StatusLineHasNoNewline(n, r.statusText);
      assert ErrorMessage(r) == head + "\n" + body;
      AfterFirstNewlineSkips(head, body);
    }
  }

  lemma StatusLineHasNoNewline(digits: string, statusText: string)
    requires AllDigits(digits) && '\n' !in statusText
    ensures '\n' !in digits + " " + statusText
  {
    var head := digits + " " + statusText;
    forall i | 0 <= i < |head| ensures head[i] != '\n' {
      if i < |digits| { assert head[i] == digits[i]; }
      else if i > |digits| { assert head[i] == statusText[i - |digits| - 1]; }
    }
  }

  // ---------------------------------------------------------------------------
  //  getCollections
  // ---------------------------------------------------------------------------

  /** The body of `GET /admin/collections`: an array of names, or anything
      else. */
  datatype NamesReply = NameArray(names: seq<string>) | NotAnArray

  /** A `description` value: a string, or the member an object literal
      inherits from `Object.prototype` under `key`, which is not one. */
  datatype Description = Plain(text: string) | InheritedMember(key: string)

  datatype CollectionInfo = CollectionInfo(name: string, count: int, description: Description)

  function GetCollections(data: NamesReply): (r: seq<CollectionInfo>)
    ensures data.NotAnArray? ==> r == []
    ensures data.NameArray? ==> |r| == |data.names|
    ensures data.NameArray? ==> forall i :: 0 <= i < |r| ==>
      r[i].name == data.names[i] && r[i].count == 0 && r[i].description == Plain("")
  {
    match data
    case NotAnArray => []
    case NameArray(names) => seq(|names|, i requires 0 <= i < |names| => CollectionInfo(names[i], 0, Plain("")))
  }

  function Names(infos: seq<CollectionInfo>): (r: seq<string>)
    ensures |r| == |infos| && forall i :: 0 <= i < |r| ==> r[i] == infos[i].name
  {
    seq(|infos|, i requires 0 <= i < |infos| => infos[i].name)
  }

  /** The mapping loses no name and invents none. */
  lemma GetCollectionsKeepsNames(names: seq<string>)
    ensures Names(GetCollections(NameArray(names))) == names
  {
  }

  // ---------------------------------------------------------------------------
  //  listImages
  // ---------------------------------------------------------------------------

  /** The query of `listImages`: each filter only when truthy, zona first. */
  function ListImagesParams(zona: Option<string>, artista: Option<string>): (r: seq<(string, string)>)
    ensures |r| <= 2
    ensures forall v :: ("zona_filter", v) in r <==> zona == Some(v) && v != ""
    ensures forall v :: ("artista_filter", v) in r <==> artista == Some(v) && v != ""
    ensures forall i :: 0 <= i < |r| ==> r[i].0 == "zona_filter" || r[i].0 == "artista_filter"
    ensures |r| == 2 ==> r[0].0 == "zona_filter"
  {
    (if zona.Some? && zona.value != "" then [("zona_filter", zona.value)] else [])
    + (if artista.Some? && artista.value != "" then [("artista_filter", artista.value)] else [])
  }

  /** The `metadata` property of an image record as the backend sends it. */
  datatype ImageMetadata = MetaString(raw: string) | MetaObject(entries: map<string, string>) | MetaMissing

  /** An image record: its string properties apart from `metadata`, and
      its `metadata`. */
  datatype ImageRecord = ImageRecord(fields: map<string, string>, metadata: ImageMetadata)

  /** What gets spread over the record: string metadata is parsed (an empty
      string as "{}"), object metadata is spread as is, and missing
      metadata spreads nothing. `parse` stands for `JSON.parse`. */
  function Spread(md: ImageMetadata, parse: string -> map<string, string>): (r: map<string, string>)
    ensures md.MetaString? ==> r == parse(Or(md.raw, "{}"))
    ensures md.MetaObject? ==> r == md.entries
    ensures md.MetaMissing? ==> r == map[]
  {
    match md
    case MetaString(raw) => parse(Or(raw, "{}"))
    case MetaObject(entries) => entries
    case MetaMissing => map[]
  }

  /** The text a template literal gives a possibly missing string property. */
  function Interpolate(m: map<string, string>, k: string): string
  {
    if k in m then m[k] else "undefined"
  }

  /** The computed `url`: the record's own when truthy, otherwise the
      static file URL of its filename. */
  function DefaultUrl(base: string, img: ImageRecord): (r: string)
    ensures Field(img.fields, "url") != "" ==> r == img.fields["url"]
    ensures Field(img.fields, "url") == "" ==> r == ImageUrl(base, Interpolate(img.fields, "filename"))
  {
    Or(Field(img.fields, "url"), ImageUrl(base, Interpolate(img.fields, "filename")))
  }

  /** The record's property names, `metadata` included when present. */
  function RecordKeys(img: ImageRecord): set<string>
  {
    img.fields.Keys + (if img.metadata.MetaMissing? then {} else {"metadata"})
  }

  /** A merged image: its string properties, and the original `metadata`
      property when the spread did not replace it. */
  datatype MergedImage = MergedImage(props: map<string, string>, metadata: Option<ImageMetadata>)

  function MergedKeys(m: MergedImage): set<string>
  {
    m.props.Keys + (if m.metadata.Some? then {"metadata"} else {})
  }

  /** `{ ...img, url, ...metadata }`. The record's own `metadata` property
      survives the merge unless the parsed metadata holds a `metadata` key
      of its own. */
  function MergeImage(base: string, img: ImageRecord, parse: string -> map<string, string>): (r: MergedImage)
    ensures r.props.Keys == img.fields.Keys + {"url"} + Spread(img.metadata, parse).Keys
    ensures MergedKeys(r) == RecordKeys(img) + {"url"} + Spread(img.metadata, parse).Keys
    ensures forall k :: k in Spread(img.metadata, parse) ==> r.props[k] == Spread(img.metadata, parse)[k]
    ensures "url" !in Spread(img.metadata, parse) ==> r.props["url"] == DefaultUrl(base, img)
    ensures forall k :: k in img.fields && k != "url" && k !in Spread(img.metadata, parse) ==>
      r.props[k] == img.fields[k]
    ensures r.metadata.Some? <==> !img.metadata.MetaMissing? && "metadata" !in Spread(img.metadata, parse)
    ensures r.metadata.Some? ==> r.metadata.value == img.metadata
  {
    var spread := Spread(img.metadata, parse);
    var props := img.fields["url" := DefaultUrl(base, img)] + spread;
    assert props.Keys == img.fields.Keys + {"url"} + spread.Keys;
    var keep := !img.metadata.MetaMissing? && "metadata" !in spread;
    MergedImage(props, if keep then Some(img.metadata) else None)
  }

  /** The spread order lets metadata win: a `url` inside the metadata object
      replaces both the record's own url and the computed one, and the
      object itself stays on the record as `metadata`. */
  lemma MetadataOverridesUrl(base: string, fields: map<string, string>, entries: map<string, string>,
                             parse: string -> map<string, string>)
    requires "url" in entries && "metadata" !in entries
    ensures var m := MergeImage(base, ImageRecord(fields, MetaObject(entries)), parse);
      m.props["url"] == entries["url"] && m.metadata == Some(MetaObject(entries))
  {
  }

  /** Without metadata, a record lacking a url gets the static file URL. */
  lemma MissingUrlPointsAtStaticFile(base: string, fields: map<string, string>, parse: string -> map<string, string>)
    requires "filename" in fields && Field(fields, "url") == ""
    ensures MergeImage(base, ImageRecord(fields, MetaMissing), parse).props["url"]
      == base + "/static/images/" + fields["filename"]
  {
  }

  /** The body of `GET /admin/images`: `images` when it is an array. */
  datatype ImagesReply = ImagesReply(images: Option<seq<ImageRecord>>)

  /** `listImages` after the request: each image in an array is merged,
      in order; any other body is returned untouched (modelled as None).
      `base` is `API_BASE` as the browser computes it. */
  function ListImages(base: string, data: ImagesReply, parse: string -> map<string, string>): (r: Option<seq<MergedImage>>)
    ensures r.Some? <==> data.images.Some?
    ensures r.Some? ==> |r.value| == |data.images.value|
    ensures r.Some? ==> forall i :: 0 <= i < |r.value| ==>
      r.value[i] == MergeImage(base, data.images.value[i], parse)
  {
    match data.images
    case None => None
    case Some(images) =>
      Some(seq(|images|, i requires 0 <= i < |images| => MergeImage(base, images[i], parse)))
  }

  // ---------------------------------------------------------------------------
  //  search
  // ---------------------------------------------------------------------------

  /** The query of `search`. A default parameter applies only to an
      undefined argument, so an explicit "" collection is sent as "". */
  function SearchParams(query: string, collection: Option<string>, tipo: Option<string>, nResults: Option<nat>): (r: seq<(string, string)>)
    ensures |r| == 3 || |r| == 4
    ensures r[0] == ("q", query)
    ensures r[1].0 == "collection_name" && r[2].0 == "n_results"
    ensures collection.None? ==> r[1].1 == "mac_info"
    ensures collection.Some? ==> r[1].1 == collection.value
    ensures nResults.None? ==> r[2].1 == "5"
    ensures nResults.Some? ==> r[2].1 == NatToString(nResults.value)
    ensures |r| == 4 <==> tipo.Some? && tipo.value != ""
    ensures |r| == 4 ==> r[3] == ("tipo_filter", tipo.value)
  {
    var c := if collection.Some? then collection.value else "mac_info";
    var n := if nResults.Some? then nResults.value else 5;
    [("q", query), ("collection_name", c), ("n_results", NatToString(n))]
    + (if tipo.Some? && tipo.value != "" then [("tipo_filter", tipo.value)] else [])
  }

  /** The number sent as `n_results` reads back as the number asked for. */
  lemma SearchResultCountReadsBack(query: string, collection: Option<string>, tipo: Option<string>, n: nat)
    ensures ParseDigits(SearchParams(query, collection, tipo, Some(n))[2].1) == n
    ensures ParseDigits(SearchParams(query, collection, tipo, None)[2].1) == 5
  {
    NatToStringRoundTrip(n);
    NatToStringRoundTrip(5);
  }

  // ---------------------------------------------------------------------------
  //  getAnalytics
  // ---------------------------------------------------------------------------

  /** One entry of `collections_detail`: a collection name and its
      `total_items`, which may be missing. */
  datatype DetailEntry = DetailEntry(name: string, totalItems: Option<int>)

  /** `col.total_items || 0`. */
  function TotalOrZero(e: DetailEntry): int
  {
    if e.totalItems.Some? then e.totalItems.value else 0
  }

  /** The `reduce` over `Object.values(collections_detail)`. */
  function SumTotals(detail: seq<DetailEntry>): int
  {
    if |detail| == 0 then 0 else SumTotals(detail[..|detail| - 1]) + TotalOrZero(detail[|detail| - 1])
  }

  lemma {:induction false} SumTotalsAppend(a: seq<DetailEntry>, b: seq<DetailEntry>)
    ensures SumTotals(a + b) == SumTotals(a) + SumTotals(b)
  {
    if |b| > 0 {
      assert (a + b)[..|a + b| - 1] == a + b[..|b| - 1];
      SumTotalsAppend(a, b[..|b| - 1]);
    } else {
      assert a + b == a;
    }
  }

  /** `collections_detail[name].total_items || 0`, missing name included.
      The detail is the object's entries in order; the first entry under a
      name is the one read. */
  function Lookup(detail: seq<DetailEntry>, name: string): (r: int)
    ensures (forall i :: 0 <= i < |detail| ==> detail[i].name != name) ==> r == 0
    ensures forall i :: (0 <= i < |detail| && detail[i].name == name
      && (forall j :: 0 <= j < i ==> detail[j].name != name)) ==> r == TotalOrZero(detail[i])
  {
    if |detail| == 0 then 0
    else if detail[0].name == name then TotalOrZero(detail[0])
    else Lookup(detail[1..], name)
  }

  /** Object keys are unique. */
  predicate DistinctNames(detail: seq<DetailEntry>)
  {
    forall i, j :: 0 <= i < j < |detail| ==> detail[i].name != detail[j].name
  }

  /** With unique names, looking up any listed collection gives its own
      count. */
  lemma LookupFindsEntry(detail: seq<DetailEntry>, i: nat)
    requires DistinctNames(detail) && i < |detail|
    ensures Lookup(detail, detail[i].name) == TotalOrZero(detail[i])
  {
  }

  predicate NonNegative(detail: seq<DetailEntry>)
  {
    forall i :: 0 <= i < |detail| ==> TotalOrZero(detail[i]) >= 0
  }

  /** With non-negative counts, one collection's total never exceeds the
      sum over all of them. */
  lemma {:induction false} LookupAtMostSum(detail: seq<DetailEntry>, name: string)
    requires NonNegative(detail)
    ensures 0 <= Lookup(detail, name) <= SumTotals(detail)
  {
    if |detail| > 0 {
      var rest := detail[1..];
      assert detail == [detail[0]] + rest;
      SumTotalsAppend([detail[0]], rest);
      assert [detail[0]][..0] == [];
      LookupAtMostSum(rest, name);
      assert SumTotals(rest) >= 0 by { SumNonNegative(rest); }
    }
  }

  lemma {:induction false} SumNonNegative(detail: seq<DetailEntry>)
    requires NonNegative(detail)
    ensures SumTotals(detail) >= 0
  {
    if |detail| > 0 {
      SumNonNegative(detail[..|detail| - 1]);
    }
  }

  datatype AnalyticsReply = AnalyticsReply(totalCollections: Option<int>, detail: Option<seq<DetailEntry>>)

  datatype Analytics = Analytics(
    totalCollections: int,
    totalItems: int,
    totalImages: int,
    recentUploads: int,
    detail: seq<DetailEntry>)

  function GetAnalytics(data: AnalyticsReply): (r: Analytics)
    ensures data.totalCollections.None? ==> r.totalCollections == 0
    ensures data.totalCollections.Some? ==> r.totalCollections == data.totalCollections.value
    ensures data.detail.None? ==> r.detail == [] && r.totalItems == 0 && r.totalImages == 0
    ensures data.detail.Some? ==> r.detail == data.detail.value
    ensures r.totalItems == SumTotals(r.detail)
    ensures r.totalImages == Lookup(r.detail, "mac_images")
    ensures r.recentUploads == 0
  {
    var detail := if data.detail.Some? then data.detail.value else [];
    var collections := if data.totalCollections.Some? then data.totalCollections.value else 0;
    Analytics(collections, SumTotals(detail), Lookup(detail, "mac_images"), 0, detail)
  }

  /** With non-negative counts the image total is part of the item total. */
  lemma ImagesWithinItems(data: AnalyticsReply)
    requires data.detail.Some? ==> NonNegative(data.detail.value)
    ensures 0 <= GetAnalytics(data).totalImages <= GetAnalytics(data).totalItems
  {
    var d := GetAnalytics(data).detail;
    LookupAtMostSum(d, "mac_images");
  }
}

=== FILE: bulk.dfy ===
/** The bulk-operations page (app/admin/bulk/page.tsx): a selection of item
    ids, an editable list of key/value rows reduced to a metadata map, and
    `executeBulkOperation`, which validates, asks for confirmation, sends one
    `BulkOperation` command and reloads the items only when the returned
    `success_count` is positive. */
module BulkOperations {
  import opened Js
  import opened Catalog

  datatype Operation = UpdateMetadata | Delete | MoveZone

  function OperationName(op: Operation): string
  {
    match op
    case UpdateMetadata => "update_metadata"
    case Delete => "delete"
    case MoveZone => "move_zone"
  }

  /** One editable "Campo"/"Valor" row of the update_metadata form. */
  datatype Row = Row(key: string, value: string)

  datatype BulkOperation = BulkOperation(
    itemIds: seq<string>,
    operation: Operation,
    operationData: map<string, string>)

  /** The store's aggregate answer, relayed as received. */
  datatype BulkResult = BulkResult(successCount: int, errorCount: int, errors: seq<string>)

  datatype BulkState = BulkState(
    collection: string,
    items: seq<Item>,
    selected: seq<string>,
    loading: bool,
    executing: bool,
    error: Option<string>,
    result: Option<BulkResult>,
    operation: Operation,
    operationData: map<string, string>,
    rows: seq<Row>)

  /** The page's initial state for a chosen collection: no items yet,
      update_metadata selected, empty operation data and one empty row. */
  function Init(collection: string): (s: BulkState)
    ensures s.selected == [] && s.operation == UpdateMetadata
    ensures s.operationData == map[] && s.rows == [Row("", "")]
  {
    BulkState(collection, [], [], false, false, None, None, UpdateMetadata, map[], [Row("", "")])
  }

  const EmptySelectionAlert := "Selecciona al menos un item"
  const NoFieldsAlert := "Agrega al menos un campo de metadata"

  // ---------------------------------------------------------------------------
  //  Selection
  // ---------------------------------------------------------------------------

  /** `toggleItemSelection(id)`: a selected id leaves, an unselected one is
      appended; the other ids keep their order. */
  function Toggle(selected: seq<string>, id: string): (r: seq<string>)
    ensures id in r <==> id !in selected
    ensures forall x :: x != id ==> (x in r <==> x in selected)
    ensures Filter(r, x => x != id) == Filter(selected, x => x != id)
    ensures NoDups(selected) ==> NoDups(r)
  {
    var others := (x: string) => x != id;
    if id in selected then
      var r := Filter(selected, others);
      FilterMember(selected, others, id);
      forall x | x != id ensures x in r <==> x in selected {
        FilterMember(selected, others, x);
      }
      FilterIdempotent(selected, others);
      FilterKeepsNoDups(selected, others);
      r
    else
      var r := selected + [id];
      FilterAppend(selected, [id], others);
      assert Filter([id], others) == [];
      r
  }

  /** Toggling an unselected id twice gives the selection back. */
  lemma ToggleTwiceRestores(selected: seq<string>, id: string)
    requires id !in selected
    ensures Toggle(Toggle(selected, id), id) == selected
  {
    var others := (x: string) => x != id;
    var once := selected + [id];
    FilterAppend(selected, [id], others);
    assert Filter([id], others) == [];
    assert forall i :: 0 <= i < |selected| ==> others(selected[i]);
  }

  /** `selectAllItems()`: the ids of the listed items, in order. */
  function SelectAll(items: seq<Item>): (r: seq<string>)
    ensures |r| == |items|
    ensures forall i :: 0 <= i < |items| ==> r[i] == items[i].id
  {
    seq(|items|, i requires 0 <= i < |items| => items[i].id)
  }

  /** `deselectAllItems()`. */
  function DeselectAll(): (r: seq<string>)
    ensures |r| == 0
  {
    []
  }

  /** With distinct ids, select-all yields a duplicate-free selection, and
      toggling any listed id afterwards removes exactly that id. */
  lemma SelectAllThenToggle(items: seq<Item>, k: nat)
    requires NoDups(SelectAll(items))
    requires k < |items|
    ensures items[k].id !in Toggle(SelectAll(items), items[k].id)
    ensures |Toggle(SelectAll(items), items[k].id)| == |items| - 1
  {
    var all := SelectAll(items);
    assert all[k] == items[k].id;
    ToggleDropsOne(all, k);
  }

  /** In a duplicate-free selection, toggling a selected id removes that
      one entry and nothing else. */
  lemma ToggleDropsOne(sel: seq<string>, k: nat)
    requires NoDups(sel) && k < |sel|
    ensures |Toggle(sel, sel[k])| == |sel| - 1
  {
    var id := sel[k];
    var others := (x: string) => x != id;
    var head, tail := sel[..k], sel[k + 1..];
    assert sel == head + [id] + tail;
    FilterAppend(head + [id], tail, others);
    FilterAppend(head, [id], others);
    forall i | 0 <= i < |head| ensures others(head[i]) {
      assert head[i] == sel[i];
    }
    forall i | 0 <= i < |tail| ensures others(tail[i]) {
      assert tail[i] == sel[k + 1 + i];
    }
    assert Toggle(sel, id) == Filter(sel, others);
  }

  // ---------------------------------------------------------------------------
  //  Metadata rows
  // ---------------------------------------------------------------------------

  /** `addMetadataField()`. */
  function AddRow(rows: seq<Row>): (r: seq<Row>)
    ensures |r| == |rows| + 1 && r[..|rows|] == rows && r[|rows|] == Row("", "")
  {
    rows + [Row("", "")]
  }

  /** `updateMetadataField(index, key, value)`: only row `index` changes; an
      index outside the list changes nothing. */
  function UpdateRow(rows: seq<Row>, index: int, key: string, value: string): (r: seq<Row>)
    ensures |r| == |rows|
    ensures forall j :: 0 <= j < |rows| && j != index ==> r[j] == rows[j]
    ensures 0 <= index < |rows| ==> r[index] == Row(key, value)
  {
    seq(|rows|, j requires 0 <= j < |rows| => if j == index then Row(key, value) else rows[j])
  }

  /** `removeMetadataField(index)`: only row `index` goes; an index outside
      the list changes nothing. */
  function RemoveRow(rows: seq<Row>, index: int): (r: seq<Row>)
    ensures 0 <= index < |rows| ==> r == rows[..index] + rows[index + 1..]
    ensures !(0 <= index < |rows|) ==> r == rows
  {
    if 0 <= index < |rows| then rows[..index] + rows[index + 1..] else rows
  }

  /** Adding a row and removing the last row gives the rows back. */
  lemma AddThenRemoveRow(rows: seq<Row>)
    ensures RemoveRow(AddRow(rows), |rows|) == rows
  {
  }

  /** The index of the first row whose key is empty. */
  function FirstEmptyKey(rows: seq<Row>): (r: Option<nat>)
    ensures r.Some? ==> r.value < |rows| && rows[r.value].key == ""
    ensures r.Some? ==> forall j :: 0 <= j < r.value ==> rows[j].key != ""
    ensures r.None? ==> forall j :: 0 <= j < |rows| ==> rows[j].key != ""
  {
    if |rows| == 0 then None
    else if rows[0].key == "" then Some(0)
    else match FirstEmptyKey(rows[1..])
      case None => None
      case Some(j) => Some(j + 1)
  }

  /** A "Campos comunes" button: fills the first row with an empty key
      (clearing its value), or appends a new row when every key is set. */
  function SuggestRow(rows: seq<Row>, field: string): (r: seq<Row>)
    ensures (exists j :: 0 <= j < |rows| && rows[j].key == "") ==>
      |r| == |rows| &&
      exists j :: 0 <= j < |rows| && rows[j].key == "" && r == rows[j := Row(field, "")]
        && forall i :: 0 <= i < j ==> rows[i].key != ""
    ensures (forall j :: 0 <= j < |rows| ==> rows[j].key != "") ==> r == rows + [Row(field, "")]
  {
    match FirstEmptyKey(rows)
    case Some(j) =>
      var r := UpdateRow(rows, j, field, "");
      assert r == rows[j := Row(field, "")];
      r
    case None => rows + [Row(field, "")]
  }

  /** A row is sent only when both its key and its value are non-empty. */
  predicate Qualifies(row: Row)
  {
    row.key != "" && row.value != ""
  }

  /** The index of the last qualifying row with key `k`. */
  function LastRowFor(rows: seq<Row>, k: string): (r: Option<nat>)
    ensures r.Some? ==> r.value < |rows| && rows[r.value].key == k && Qualifies(rows[r.value])
    ensures r.Some? ==> forall j :: r.value < j < |rows| ==> !(rows[j].key == k && Qualifies(rows[j]))
    ensures r.None? ==> forall j :: 0 <= j < |rows| ==> !(rows[j].key == k && Qualifies(rows[j]))
  {
    if |rows| == 0 then None
    else if rows[|rows| - 1].key == k && Qualifies(rows[|rows| - 1]) then Some(|rows| - 1)
    else LastRowFor(rows[..|rows| - 1], k)
  }

  /** The `forEach` that builds `finalOperationData`: a key is sent exactly
      when some qualifying row carries it, with the value of the last such
      row (a later row overwrites an earlier one). */
  function ReduceRows(rows: seq<Row>): (r: map<string, string>)
    ensures forall k :: k in r <==> LastRowFor(rows, k).Some?
    ensures forall k :: k in r ==> r[k] == rows[LastRowFor(rows, k).value].value
  {
    if |rows| == 0 then map[]
    else
      var prefix := rows[..|rows| - 1];
      var last := rows[|rows| - 1];
      var m := ReduceRows(prefix);
      if Qualifies(last) then m[last.key := last.value] else m
  }

  /** Replacing a non-qualifying row by another one does not move the last
      qualifying row of any key. */
  lemma {:induction false} LastRowForIgnoresNonQualifying(rows: seq<Row>, index: nat, row: Row, k: string)
    requires index < |rows| && !Qualifies(rows[index]) && !Qualifies(row)
    ensures LastRowFor(rows[index := row], k) == LastRowFor(rows, k)
  {
    var rows' := rows[index := row];
    if index < |rows| - 1 {
      assert rows'[..|rows'| - 1] == rows[..|rows| - 1][index := row];
      LastRowForIgnoresNonQualifying(rows[..|rows| - 1], index, row, k);
    } else {
      assert rows'[..|rows'| - 1] == rows[..|rows| - 1];
    }
  }

  /** Rows that do not qualify contribute nothing: replacing one by another
      leaves the reduced map unchanged. */
  lemma ReduceIgnoresNonQualifying(rows: seq<Row>, index: nat, row: Row)
    requires index < |rows| && !Qualifies(rows[index]) && !Qualifies(row)
    ensures ReduceRows(rows[index := row]) == ReduceRows(rows)
  {
    var rows' := rows[index := row];
    forall k ensures LastRowFor(rows', k) == LastRowFor(rows, k) {
      LastRowForIgnoresNonQualifying(rows, index, row, k);
    }
    assert ReduceRows(rows').Keys == ReduceRows(rows).Keys;
  }

  /** Neither "+ Agregar Campo" nor a suggestion button changes the data an
      update_metadata run would send: the rows they create have an empty
      value. */
  lemma RowHelpersSendNothingNew(rows: seq<Row>, field: string)
    ensures ReduceRows(AddRow(rows)) == ReduceRows(rows)
    ensures ReduceRows(SuggestRow(rows, field)) == ReduceRows(rows)
  {
    assert AddRow(rows)[..|rows|] == rows;
    match FirstEmptyKey(rows)
    case Some(j) => ReduceIgnoresNonQualifying(rows, j, Row(field, ""));
    case None =>
      assert SuggestRow(rows, field)[..|rows|] == rows;
  }

  // ---------------------------------------------------------------------------
  //  Operation configuration
  // ---------------------------------------------------------------------------

  /** Choosing an operation keeps whatever `operationData` was entered. */
  function SetOperation(s: BulkState, op: Operation): (r: BulkState)
    ensures r.operation == op && r.operationData == s.operationData
    ensures r.(operation := s.operation) == s
  {
    s.(operation := op)
  }

  /** Typing into "Nueva Zona" replaces the operation data by `{new_zone}`. */
  function SetNewZone(s: BulkState, zone: string): (r: BulkState)
    ensures r.operationData.Keys == {"new_zone"} && r.operationData["new_zone"] == zone
    ensures r.(operationData := s.operationData) == s
  {
    s.(operationData := map["new_zone" := zone])
  }

  function ItemTitle(item: Item): string
  {
    Or(Field(item.metadata, "titulo"), Or(Field(item.metadata, "nombre"), item.id))
  }

  function ItemSubtitle(item: Item): string
  {
    Or(Field(item.metadata, "artista"), Or(Field(item.metadata, "tipo"), "Sin descripción"))
  }

  /** A row's title is the first non-empty of titulo, nombre and the id; its
      subtitle the first non-empty of artista, tipo and a fixed text, so it
      is never empty. */
  lemma TitleFallbacks(item: Item)
    ensures Field(item.metadata, "titulo") != "" ==> ItemTitle(item) == item.metadata["titulo"]
    ensures Field(item.metadata, "titulo") == "" && Field(item.metadata, "nombre") != "" ==>
      ItemTitle(item) == item.metadata["nombre"]
    ensures Field(item.metadata, "titulo") == "" && Field(item.metadata, "nombre") == "" ==>
      ItemTitle(item) == item.id
    ensures ItemSubtitle(item) != ""
    ensures Field(item.metadata, "artista") == "" && Field(item.metadata, "tipo") == "" ==>
      ItemSubtitle(item) == "Sin descripción"
  {
  }

  // ---------------------------------------------------------------------------
  //  Loading and executing
  // ---------------------------------------------------------------------------

  /** `loadItems()`: nothing without a collection; a successful load
      replaces the items (missing `items` reads as none) and empties the
      selection; a failed one records the error and keeps both. */
  function LoadItems(s: BulkState, reply: Outcome<CollectionData>): (r: BulkState)
    ensures s.collection == "" ==> r == s
    ensures s.collection != "" && reply.Succeeded? ==>
      r.selected == [] && r.error == None &&
      r.items == (if reply.value.items.Some? then reply.value.items.value else [])
    ensures s.collection != "" && reply.Failed? ==>
      r.items == s.items && r.selected == s.selected && r.error == Some(reply.message)
    ensures r.operation == s.operation && r.operationData == s.operationData && r.rows == s.rows
    ensures s.collection != "" ==> !r.loading
  {
    if s.collection == "" then s
    else
      match reply
      case Succeeded(data) =>
        s.(loading := false, error := None, items := ItemsOf(data), selected := [])
      case Failed(msg) => s.(loading := false, error := Some(msg))
  }

  function ConfirmMessage(op: Operation, count: nat): string
  {
    if op == Delete then
      "¿Eliminar " + NatToString(count) + " items? Esta acción no se puede deshacer."
    else
      "¿Ejecutar operación \"" + OperationName(op) + "\" en " + NatToString(count) + " items?"
  }

  /** What one run of `executeBulkOperation` did. */
  datatype ExecStep = ExecStep(
    state: BulkState,
    alert: Option<string>,
    prompt: Option<string>,
    sent: Option<BulkOperation>,
    reloaded: bool)

  /** The data the command carries: the reduced rows for update_metadata,
      and for the other operations whatever `operationData` holds. */
  function FinalData(s: BulkState): map<string, string>
  {
    if s.operation == UpdateMetadata then ReduceRows(s.rows) else s.operationData
  }

  predicate PassesValidation(s: BulkState)
  {
    |s.selected| > 0 && (s.operation != UpdateMetadata || |ReduceRows(s.rows)| > 0)
  }

  /** `executeBulkOperation()`, with `confirm()`'s answer, the command's
      reply and the reply of the reload it may trigger as inputs. */
  function Execute(s: BulkState, confirmed: bool, reply: Outcome<BulkResult>,
                   reload: Outcome<CollectionData>): (r: ExecStep)
    ensures |s.selected| == 0 ==>
      r == ExecStep(s, Some(EmptySelectionAlert), None, None, false)
    ensures |s.selected| > 0 && s.operation == UpdateMetadata && |ReduceRows(s.rows)| == 0 ==>
      r == ExecStep(s, Some(NoFieldsAlert), None, None, false)
    ensures r.prompt.Some? <==> PassesValidation(s)
    ensures r.prompt.Some? ==> r.alert == None && r.prompt.value == ConfirmMessage(s.operation, |s.selected|)
    ensures !confirmed ==> r.sent == None && r.state == s
    ensures r.sent.Some? <==> PassesValidation(s) && confirmed
    ensures r.sent.Some? ==>
      && r.sent.value.itemIds == s.selected
      && r.sent.value.operation == s.operation
      && (s.operation != UpdateMetadata ==> r.sent.value.operationData == s.operationData)
      && (s.operation == UpdateMetadata ==> r.sent.value.operationData == ReduceRows(s.rows))
      && !r.state.executing
    ensures r.sent.Some? && reply.Succeeded? ==> r.state.result == Some(reply.value)
    ensures r.sent.Some? && reply.Failed? ==>
      r.state.error == Some(reply.message) && r.state.result == None && r.state.items == s.items
    ensures r.reloaded <==> r.sent.Some? && reply.Succeeded? && reply.value.successCount > 0
    ensures !r.reloaded ==> r.state.selected == s.selected && r.state.items == s.items
    ensures r.reloaded && s.collection != "" && reload.Succeeded? ==> r.state.selected == []
    ensures r.state.rows == s.rows && r.state.operation == s.operation
  {
    if |s.selected| == 0 then
      ExecStep(s, Some(EmptySelectionAlert), None, None, false)
    else if s.operation == UpdateMetadata && |ReduceRows(s.rows)| == 0 then
      ExecStep(s, Some(NoFieldsAlert), None, None, false)
    else
      var prompt := Some(ConfirmMessage(s.operation, |s.selected|));
      if !confirmed then
        ExecStep(s, None, prompt, None, false)
      else
        var cmd := BulkOperation(s.selected, s.operation, FinalData(s));
        var running := s.(executing := true, result := None);
        match reply
        case Failed(msg) =>
          ExecStep(running.(error := Some(msg), executing := false), None, prompt, Some(cmd), false)
        case Succeeded(res) =>
          var withResult := running.(result := Some(res));
          if res.successCount > 0 then
            var reloaded := LoadItems(withResult, reload);
            ExecStep(reloaded.(executing := false), None, prompt, Some(cmd), true)
          else
            ExecStep(withResult.(executing := false), None, prompt, Some(cmd), false)
  }

  /** The delete prompt names the count and says the action cannot be
      undone; the other prompts name the operation and the count. */
  lemma ConfirmMessageNamesCount(op: Operation, count: nat)
    ensures Includes(ConfirmMessage(op, count), NatToString(count))
    ensures op == Delete ==> Includes(ConfirmMessage(op, count), "no se puede deshacer")
    ensures op != Delete ==> Includes(ConfirmMessage(op, count), OperationName(op))
  {
    var n := NatToString(count);
    if op == Delete {
      DeleteMessageParts(n);
    } else {
      OtherMessageParts(OperationName(op), n);
    }
  }

  lemma DeleteMessageParts(n: string)
    ensures Includes("¿Eliminar " + n + " items? Esta acción no se puede deshacer.", n)
    ensures Includes("¿Eliminar " + n + " items? Esta acción no se puede deshacer.", "no se puede deshacer")
  {
    var suffix := " items? Esta acción no se puede deshacer.";
    IncludesAt("¿Eliminar ", n, suffix);
    assert "no se puede deshacer" <= suffix[20..];
    IncludesAfter("¿Eliminar " + n, suffix, "no se puede deshacer");
  }

  lemma OtherMessageParts(name: string, n: string)
    ensures Includes("¿Ejecutar operación \"" + name + "\" en " + n + " items?", n)
    ensures Includes("¿Ejecutar operación \"" + name + "\" en " + n + " items?", name)
  {
    var pre, mid, tail := "¿Ejecutar operación \"", "\" en ", " items?";
    IncludesAt(pre + name + mid, n, tail);
    IncludesAt(pre, name, mid);
    IncludesExtended(pre + name + mid, n, name);
    IncludesExtended(pre + name + mid + n, tail, name);
  }

  /** The leftover-data quirk: a zone typed for move_zone is still sent when
      the operator switches to delete, because switching does not clear it. */
  lemma DeleteSendsLeftoverZone(s: BulkState, zone: string, reply: Outcome<BulkResult>,
                                reload: Outcome<CollectionData>)
    requires |s.selected| > 0
    ensures var s' := SetOperation(SetNewZone(s, zone), Delete);
      Execute(s', true, reply, reload).sent ==
        Some(BulkOperation(s.selected, Delete, map["new_zone" := zone]))
  {
  }

  /** A reply reporting no successes never reloads, even with errors. */
  lemma NoSuccessNoReload(s: BulkState, confirmed: bool, res: BulkResult, reload: Outcome<CollectionData>)
    requires res.successCount <= 0
    ensures !Execute(s, confirmed, Succeeded(res), reload).reloaded
  {
  }

  /** Worked example: deleting three selected items, two of which succeed. */
  lemma ExampleDeleteThree(s: BulkState, reload: Outcome<CollectionData>)
    requires s.selected == ["a", "b", "c"] && s.operation == Delete && s.operationData == map[]
    ensures var r := Execute(s, true, Succeeded(BulkResult(2, 1, ["c: not found"])), reload);
      && r.sent == Some(BulkOperation(["a", "b", "c"], Delete, map[]))
      && r.reloaded
  {
  }
}

=== FILE: camera_capture.dfy ===
/** The camera dialog of the chat (components/chat/CameraCapture.tsx):
    front or back camera, one captured photo, and a message that must not
    be blank before the photo is sent. */
module CameraCapture {
  import opened Js
  import Api

  datatype Facing = UserFacing | Environment

  /** The camera stream itself is not modelled; `captured` is the photo
      taken, if any. */
  datatype CameraState = CameraState(facing: Facing, captured: Option<Api.File>, message: string)

  function Init(): (s: CameraState)
    ensures s.facing == Environment && s.captured == None && s.message == ""
  {
    CameraState(Environment, None, "")
  }

  /** `switchCamera`. */
  function SwitchCamera(s: CameraState): (r: CameraState)
    ensures r.facing != s.facing
    ensures r.captured == s.captured && r.message == s.message
  {
    s.(facing := if s.facing == UserFacing then Environment else UserFacing)
  }

  /** Two switches bring back the camera the dialog was on. */
  lemma SwitchTwiceRestores(s: CameraState)
    ensures SwitchCamera(SwitchCamera(s)) == s
  {
  }

  /** The photo `capturePhoto` produces. */
  function Capture(s: CameraState): (r: CameraState)
    ensures r.captured == Some(Api.File("camera-capture.jpg", "image/jpeg"))
    ensures r.facing == s.facing && r.message == s.message
  {
    s.(captured := Some(Api.File("camera-capture.jpg", "image/jpeg")))
  }

  /** "Enviar" is enabled only when the message is not blank. */
  predicate SendEnabled(s: CameraState)
  {
    !Blank(s.message)
  }

  /** `handleSend`: with a photo and a message that is not blank, the photo
      and the trimmed message go to `onCapture` and the dialog closes;
      otherwise nothing happens. */
  datatype SendResult = Stay | SendAndClose(file: Api.File, message: string)

  function Send(s: CameraState): (r: SendResult)
    ensures r.SendAndClose? <==> s.captured.Some? && SendEnabled(s)
    ensures r.SendAndClose? ==> r.file == s.captured.value && r.message == Trim(s.message)
  {
    if s.captured.Some? && !Blank(s.message) then SendAndClose(s.captured.value, Trim(s.message))
    else Stay
  }

  /** What is sent is never blank and has no surrounding spaces, so sending
      it again would pass the same guard with the same text. */
  lemma SentMessageIsTrimmedAndNonBlank(s: CameraState)
    requires Send(s).SendAndClose?
    ensures var m := Send(s).message;
      m != "" && !Blank(m) && Trim(m) == m
  {
    TrimIdempotent(s.message);
  }

  /** `handleRetake`: the photo and the message are discarded; without a
      photo nothing happens. */
  function Retake(s: CameraState): (r: CameraState)
    ensures s.captured.None? ==> r == s
    ensures s.captured.Some? ==> r.captured == None && r.message == "" && r.facing == s.facing
  {
    if s.captured.Some? then s.(captured := None, message := "") else s
  }

  /** After a retake nothing can be sent until a new photo and message. */
  lemma RetakeBlocksSend(s: CameraState)
    ensures Send(Retake(s)) == Stay || s.captured.None?
  {
    BlankIffAllSpace("");
  }
}

=== FILE: catalog.dfy ===
/** The shape both item pages (app/admin/items/page.tsx and
    app/admin/bulk/page.tsx) give a stored collection item, and the body of
    `GET /admin/collections/{name}` they read items from. */
module Catalog {
  import opened Js

  /** A stored item: its id, its string-valued metadata and its document
      text. */
  datatype Item = Item(id: string, metadata: map<string, string>, document: string)

  /** The body of `GET /collections/{name}`: `items` may be missing. */
  datatype CollectionData = CollectionData(items: Option<seq<Item>>)

  /** `data.items` when present, otherwise no items. */
  function ItemsOf(data: CollectionData): (r: seq<Item>)
    ensures data.items.Some? ==> r == data.items.value
    ensures data.items.None? ==> r == []
  {
    if data.items.Some? then data.items.value else []
  }
}

=== FILE: chat.dfy ===
/** The chat log's message record (lib/types.ts) and the role/content
    pair that travels to the chat endpoint. */
module Chat {
  import opened Js

  datatype Role = User | Assistant

  /** A relevant work as the backend returns it: a string-valued record
      read through `titulo || name` and `artista || artist`. */
  type Work = map<string, string>

  /** One message of the log. The id and the creation time come from the
      clock and are not modelled. */
  datatype Message = Message(
    role: Role,
    content: string,
    imageUrl: Option<string>,
    relevantWorks: Option<seq<Work>>)

  /** `{ role, content }`: a message reduced to what is sent upstream. */
  datatype Wire = Wire(role: Role, content: string)

  function ToWire(m: Message): (w: Wire)
    ensures w.role == m.role && w.content == m.content
  {
    Wire(m.role, m.content)
  }

  /** `messages.map(m => ({ role: m.role, content: m.content }))`. */
  function WireAll(ms: seq<Message>): (r: seq<Wire>)
    ensures |r| == |ms|
    ensures forall i :: 0 <= i < |ms| ==> r[i].role == ms[i].role && r[i].content == ms[i].content
  {
    seq(|ms|, i requires 0 <= i < |ms| => ToWire(ms[i]))
  }

  lemma WireAllAppend(ms: seq<Message>, m: Message)
    ensures WireAll(ms + [m]) == WireAll(ms) + [ToWire(m)]
  {
    var a, b := WireAll(ms + [m]), WireAll(ms) + [ToWire(m)];
    assert |a| == |b|;
    forall i | 0 <= i < |a| ensures a[i] == b[i] {
      if i < |ms| {
        assert (ms + [m])[i] == ms[i];
      }
    }
  }

  /** A plain text message with no image and no works. */
  function TextMessage(role: Role, content: string): (m: Message)
    ensures m.role == role && m.content == content
    ensures m.imageUrl == None && m.relevantWorks == None
  {
    Message(role, content, None, None)
  }
}

=== FILE: chat_page.dfy ===
/** The visitor chat on the landing page (app/page.tsx): how the message
    log evolves when the visitor sends text or a photo. Each send is split
    at its `await`: the synchronous start (guard, user message, request)
    and the completion (one assistant message, loading cleared). */
module ChatPage {
  import opened Js
  import opened Chat
  import Api
  import ChatRoute
  import CameraCapture

  datatype PageState = PageState(messages: seq<Message>, input: string, loading: bool)

  function Init(): (s: PageState)
    ensures s.messages == [] && s.input == "" && !s.loading
  {
    PageState([], "", false)
  }

  const EmptyReply := "Respuesta recibida"
  const TextApology := "Lo siento, hubo un error al procesar tu mensaje. Intenta de nuevo."
  const ImageFallback := "He analizado tu imagen."
  const ImageApology := "Lo siento, hubo un error al analizar la imagen. Intenta de nuevo."

  // ---------------------------------------------------------------------------
  //  Text
  // ---------------------------------------------------------------------------

  /** The start of a send: the new state and the log posted to `/api/chat`,
      if anything is posted. */
  datatype TextStart = TextStart(state: PageState, posted: Option<seq<Wire>>)

  /** `sendTextMessage(text)` up to its `await`. */
  function SendText(s: PageState, text: string): (r: TextStart)
    ensures Blank(text) || s.loading <==> r.posted.None?
    ensures r.posted.None? ==> r.state == s
    ensures r.posted.Some? ==>
      && r.state.messages == s.messages + [TextMessage(User, text)]
      && r.state.input == "" && r.state.loading
      && r.posted.value == WireAll(r.state.messages)
  {
    if Blank(text) || s.loading then TextStart(s, None)
    else
      var ms := s.messages + [TextMessage(User, text)];
      TextStart(PageState(ms, "", true), Some(WireAll(ms)))
  }

  /** What the `/api/chat` call settles to: an ok response with the chunks
      read from its body, or a response that is not ok. A thrown error is
      the `Failed` outcome around it. */
  datatype ChatResponse = OkStream(chunks: seq<string>) | NotOk(status: nat)

  function Concat(chunks: seq<string>): string
  {
    if |chunks| == 0 then "" else chunks[0] + Concat(chunks[1..])
  }

  /** The content of the assistant's answer. */
  function ReplyText(outcome: Outcome<ChatResponse>): (c: string)
    ensures c != ""
    ensures outcome.Succeeded? && outcome.value.OkStream? && Concat(outcome.value.chunks) != "" ==>
      c == Concat(outcome.value.chunks)
    ensures outcome.Succeeded? && outcome.value.OkStream? && Concat(outcome.value.chunks) == "" ==>
      c == EmptyReply
    ensures !(outcome.Succeeded? && outcome.value.OkStream?) ==> c == TextApology
  {
    match outcome
    case Succeeded(OkStream(chunks)) => Or(Concat(chunks), EmptyReply)
    case _ => TextApology
  }

  /** The completion of a text send: one assistant message, loading off. */
  function FinishText(s: PageState, outcome: Outcome<ChatResponse>): (r: PageState)
    ensures |r.messages| == |s.messages| + 1 && r.messages[..|s.messages|] == s.messages
    ensures r.messages[|s.messages|] == TextMessage(Assistant, ReplyText(outcome))
    ensures r.input == s.input && !r.loading
  {
    PageState(s.messages + [TextMessage(Assistant, ReplyText(outcome))], s.input, false)
  }

  /** A blank text, or any text while an answer is pending, changes
      nothing and posts nothing. */
  lemma GuardedSendIsNoOp(s: PageState, text: string)
    requires Blank(text) || s.loading
    ensures SendText(s, text) == TextStart(s, None)
  {
  }

  /** A full exchange adds exactly two messages to the log, the visitor's
      untrimmed text and then the answer, and posts every earlier message
      plus the new one, in order. */
  lemma ExchangeAddsTwoMessages(s: PageState, text: string, outcome: Outcome<ChatResponse>)
    requires !Blank(text) && !s.loading
    ensures var start := SendText(s, text);
      var end := FinishText(start.state, outcome);
      && end.messages == s.messages + [TextMessage(User, text), TextMessage(Assistant, ReplyText(outcome))]
      && start.posted == Some(WireAll(s.messages) + [Wire(User, text)])
      && end.input == "" && !end.loading
  {
    ExchangeLog(s, text, outcome);
    ExchangePost(s, text);
  }

  lemma ExchangeLog(s: PageState, text: string, outcome: Outcome<ChatResponse>)
    requires !Blank(text) && !s.loading
    ensures var end := FinishText(SendText(s, text).state, outcome);
      && end.messages == s.messages + [TextMessage(User, text), TextMessage(Assistant, ReplyText(outcome))]
      && end.input == "" && !end.loading
  {
    var user, reply := TextMessage(User, text), TextMessage(Assistant, ReplyText(outcome));
    var ms := s.messages + [user];
    SendTextAccepted(s, text);
    AppendTwo(s.messages, user, reply);
    assert FinishText(PageState(ms, "", true), outcome) == PageState(ms + [reply], "", false);
  }

  /** The state a send that passes the guard starts from. */
  lemma SendTextAccepted(s: PageState, text: string)
    requires !Blank(text) && !s.loading
    ensures SendText(s, text).state == PageState(s.messages + [TextMessage(User, text)], "", true)
  {
  }

  lemma AppendTwo(ms: seq<Message>, a: Message, b: Message)
    ensures ms + [a] + [b] == ms + [a, b]
  {
  }

  lemma ExchangePost(s: PageState, text: string)
    requires !Blank(text) && !s.loading
    ensures SendText(s, text).posted == Some(WireAll(s.messages) + [Wire(User, text)])
  {
    var user := TextMessage(User, text);
    assert SendText(s, text).posted == Some(WireAll(s.messages + [user]));
    WireAllAppend(s.messages, user);
  }

  /** The chat endpoint always streams at least a line feed, so an answer
      that came from the backend is never replaced by "Respuesta recibida". */
  lemma BackendAnswerIsShown(d: ChatRoute.Data)
    ensures var body := ChatRoute.StreamBody(d);
      ReplyText(Succeeded(OkStream([body]))) == body
  {
    var body := ChatRoute.StreamBody(d);
    assert Concat([body]) == body + Concat([]);
  }

  /** A quick question puts the question in the input and sends it; when
      the send is refused (an answer is pending) the question stays in the
      input in place of whatever was typed. */
  function QuickQuestion(s: PageState, q: string): (r: TextStart)
    ensures SendText(s, q).posted.None? ==> r.state == s.(input := q) && r.posted.None?
    ensures SendText(s, q).posted.Some? ==> r == SendText(s, q)
  {
    var start := SendText(s.(input := q), q);
    if start.posted.Some? then start else TextStart(s.(input := q), None)
  }

  // ---------------------------------------------------------------------------
  //  Photos
  // ---------------------------------------------------------------------------

  datatype ImageStart = ImageStart(state: PageState, request: Api.Request)

  /** `sendImageMessage(file, message)` up to its `await`: there is no
      guard; the visitor's message shows the photo through `objectUrl`, and
      the photo and the message are posted to `/chat-with-image`. The page
      runs in the browser, so `API_BASE` is the browser's. */
  function SendImage(s: PageState, file: Api.File, message: string, objectUrl: string, c: Api.Config): (r: ImageStart)
    ensures r.state.messages == s.messages + [Message(User, message, Some(objectUrl), None)]
    ensures r.state.loading && r.state.input == s.input
    ensures r.request.verb == "POST"
    ensures r.request.body == Api.FormBody([("file", Api.Blob(file)), ("message", Api.Text(message))])
    ensures Api.ContentType !in r.request.headers
    ensures r.request.url == Api.ApiUrl(c) + Api.ApiBase(c, Api.Browser) + "/chat-with-image"
  {
    var body := Api.FormBody([("file", Api.Blob(file)), ("message", Api.Text(message))]);
    var request := Api.BuildRequest(Api.ApiUrl(c), Api.ApiBase(c, Api.Browser) + "/chat-with-image", "POST", body, map[]);
    var ms := s.messages + [Message(User, message, Some(objectUrl), None)];
    ImageStart(PageState(ms, s.input, true), request)
  }

  /** The backend's answer to a photo: `response` and `relevant_works`,
      each possibly missing. */
  datatype ImageReply = ImageReply(response: string, relevantWorks: Option<seq<Work>>)

  function ImageAnswer(outcome: Outcome<ImageReply>): (m: Message)
    ensures m.role == Assistant && m.imageUrl == None && m.content != ""
    ensures outcome.Succeeded? ==> m.content == Or(outcome.value.response, ImageFallback)
    ensures outcome.Succeeded? && outcome.value.relevantWorks.Some? ==> m.relevantWorks == outcome.value.relevantWorks
    ensures outcome.Succeeded? && outcome.value.relevantWorks.None? ==> m.relevantWorks == Some([])
    ensures outcome.Failed? ==> m == TextMessage(Assistant, ImageApology)
  {
    match outcome
    case Succeeded(d) =>
      var works := if d.relevantWorks.Some? then d.relevantWorks.value else [];
      Message(Assistant, Or(d.response, ImageFallback), None, Some(works))
    case Failed(_) => TextMessage(Assistant, ImageApology)
  }

  function FinishImage(s: PageState, outcome: Outcome<ImageReply>): (r: PageState)
    ensures r.messages == s.messages + [ImageAnswer(outcome)]
    ensures r.input == s.input && !r.loading
  {
    PageState(s.messages + [ImageAnswer(outcome)], s.input, false)
  }

  /** A successful photo answer always lists works (possibly none), so the
      bubble can read them; a failed one carries none at all. */
  lemma ImageAnswerWorks(outcome: Outcome<ImageReply>)
    ensures ImageAnswer(outcome).relevantWorks.Some? <==> outcome.Succeeded?
    ensures outcome.Succeeded? && outcome.value.response == "" ==> ImageAnswer(outcome).content == ImageFallback
  {
  }

  /** The photo URL goes through the same `API_URL` prefixing as every
      other call, although `API_BASE` is already absolute. Without a
      `window` setting the second host is always the default one, even
      when the environment names another. */
  lemma PhotoUrlIsPrefixedTwice(s: PageState, file: Api.File, message: string, objectUrl: string, c: Api.Config)
    ensures var url := SendImage(s, file, message, objectUrl, c).request.url;
      c.windowBase == "" ==> url == Api.ApiUrl(c) + Api.DefaultApi + "/chat-with-image"
    ensures var url := SendImage(s, file, message, objectUrl, c).request.url;
      c.env != "" && c.windowBase == "" ==> url == c.env + Api.DefaultApi + "/chat-with-image"
    ensures var url := SendImage(s, file, message, objectUrl, c).request.url;
      c == Api.Config("", "") ==> url == Api.DefaultApiUrl + Api.DefaultApi + "/chat-with-image"
  {
  }

  /** A photo reaches the log only through the camera dialog, so the
      visitor's photo message is the trimmed, non-blank text typed there. */
  lemma PhotoMessageComesTrimmed(s: PageState, cam: CameraCapture.CameraState, objectUrl: string, c: Api.Config)
    requires CameraCapture.Send(cam).SendAndClose?
    ensures var sent := CameraCapture.Send(cam);
      var last := SendImage(s, sent.file, sent.message, objectUrl, c).state.messages[|s.messages|];
      last.role == User && last.content == Trim(cam.message) && !Blank(last.content)
  {
    CameraCapture.SentMessageIsTrimmedAndNonBlank(cam);
  }
}

=== FILE: chat_route.dfy ===
/** The chat endpoint (app/api/chat/route.ts): it forwards the visitor's
    last message and the history before it to the museum backend, and
    streams the backend's answer back as one line of text. */
module ChatRoute {
  import opened Js
  import opened Chat

  const BackendBase := "https://257c-45-236-45-57.ngrok-free.app"

  /** The request sent to the backend's `/chat`. */
  datatype Forward = Forward(url: string, message: string, history: seq<Wire>)

  /** `messages[messages.length - 1]?.content ?? ""`. */
  function LastContent(ms: seq<Wire>): (r: string)
    ensures |ms| == 0 ==> r == ""
    ensures |ms| > 0 ==> r == ms[|ms| - 1].content
  {
    if |ms| == 0 then "" else ms[|ms| - 1].content
  }

  /** `messages.slice(0, -1)`, each reduced to role and content. */
  function History(ms: seq<Wire>): (r: seq<Wire>)
    ensures |r| == if |ms| == 0 then 0 else |ms| - 1
    ensures forall i :: 0 <= i < |r| ==> r[i] == ms[i]
  {
    if |ms| == 0 then [] else ms[..|ms| - 1]
  }

  function BuildForward(ms: seq<Wire>): (f: Forward)
    ensures f.url == BackendBase + "/chat"
  {
    Forward(BackendBase + "/chat", LastContent(ms), History(ms))
  }

  /** Nothing of the log is lost on the way: the history followed by the
      forwarded message is the whole log again. */
  lemma ForwardSplitsLog(ms: seq<Wire>)
    requires |ms| > 0
    ensures var f := BuildForward(ms);
      f.history + [Wire(ms[|ms| - 1].role, f.message)] == ms
  {
    assert ms == ms[..|ms| - 1] + [ms[|ms| - 1]];
  }

  /** An empty log forwards an empty message with no history. */
  lemma EmptyLogForwardsNothing()
    ensures BuildForward([]).message == "" && BuildForward([]).history == []
  {
  }

  /** The backend's answer: its Content-Type header, if any, and its body. */
  datatype BackendReply = BackendReply(contentType: Option<string>, body: string)

  /** `data`, of which only `response` is read; it may be missing. */
  datatype Data = Data(response: Option<string>)

  /** Whether the Content-Type header names JSON; a missing header is "". */
  predicate DeclaresJson(reply: BackendReply)
  {
    Includes(if reply.contentType.Some? then reply.contentType.value else "", "application/json")
  }

  /** A JSON answer is parsed; anything else is wrapped as
      `{ response: text }`. `parseJson` stands for `response.json()` and
      gives None when the body is not JSON, or is JSON `null`, whose
      `response` cannot be read: in both cases the route throws. */
  function ReadData(reply: BackendReply, parseJson: string -> Option<Data>): (d: Option<Data>)
    ensures DeclaresJson(reply) ==> d == parseJson(reply.body)
    ensures !DeclaresJson(reply) ==> d == Some(Data(Some(reply.body)))
  {
    if DeclaresJson(reply) then parseJson(reply.body) else Some(Data(Some(reply.body)))
  }

  /** `(data.response ?? "") + "\n"`. */
  function StreamBody(d: Data): (r: string)
    ensures |r| >= 1 && r[|r| - 1] == '\n'
  {
    (if d.response.Some? then d.response.value else "") + "\n"
  }

  /** The stream is the response, or nothing when it is missing, followed
      by exactly one added line feed; an empty response still streams "\n". */
  lemma StreamReadsBack(d: Data)
    ensures var r := StreamBody(d);
      r[..|r| - 1] == (if d.response.Some? then d.response.value else "")
    ensures d.response == Some("") ==> StreamBody(d) == "\n"
  {
  }

  /** What the endpoint answers with: a stream, or the language-model
      fallback taken when anything inside its `try` throws. */
  datatype RouteResult = Streamed(body: string) | Fallback

  function Handle(ms: seq<Wire>, reply: Outcome<BackendReply>, parseJson: string -> Option<Data>): (r: RouteResult)
    ensures r == Fallback <==> reply.Failed? || (DeclaresJson(reply.value) && parseJson(reply.value.body).None?)
    ensures reply.Succeeded? && !DeclaresJson(reply.value) ==> r == Streamed(reply.value.body + "\n")
    ensures reply.Succeeded? && DeclaresJson(reply.value) && parseJson(reply.value.body).Some? ==>
      r == Streamed(StreamBody(parseJson(reply.value.body).value))
  {
    match reply
    case Failed(_) => Fallback
    case Succeeded(b) =>
      match ReadData(b, parseJson)
      case None => Fallback
      case Some(d) => Streamed(StreamBody(d))
  }

  /** A plain-text answer (an HTML error page, say) is passed on as it
      is, plus a line feed. */
  lemma PlainTextIsEchoed(ms: seq<Wire>, body: string, parseJson: string -> Option<Data>)
    ensures Handle(ms, Succeeded(BackendReply(None, body)), parseJson) == Streamed(body + "\n")
    ensures Handle(ms, Succeeded(BackendReply(Some("text/html"), body)), parseJson) == Streamed(body + "\n")
  {
    assert !Includes("", "application/json");
    assert !Includes("text/html", "application/json");
  }

  /** A reply that claims to be JSON but does not parse is not streamed:
      the route falls back even though the backend answered. `params` is
      whatever follows the media type, such as "; charset=utf-8". */
  lemma BrokenJsonFallsBack(ms: seq<Wire>, params: string, body: string, parseJson: string -> Option<Data>)
    requires parseJson(body).None?
    ensures Handle(ms, Succeeded(BackendReply(Some("application/json" + params), body)), parseJson) == Fallback
  {
    IncludesAt("", "application/json", params);
    assert "" + "application/json" + params == "application/json" + params;
  }
}

=== FILE: collection_card.dfy ===
/** A collection card (components/admin/CollectionCard.tsx): a status
    badge derived from the item count, and the duplicate dialog with its
    proposed name. */
module CollectionCard {
  import opened Js

  datatype Status = Empty | Low | Active

  function StatusOf(count: int): (r: Status)
    ensures r == Empty <==> count == 0
    ensures r == Low <==> count != 0 && count < 10
    ensures r == Active <==> count >= 10
  {
    if count == 0 then Empty else if count < 10 then Low else Active
  }

  /** `getStatusColor`: the badge variant. */
  function StatusColor(count: int): string
  {
    if count == 0 then "secondary" else if count < 10 then "outline" else "default"
  }

  /** `getStatusText`. */
  function StatusText(count: int): string
  {
    if count == 0 then "Empty" else if count < 10 then "Low" else "Active"
  }

  /** The badge's colour and text always name the same status. */
  lemma ColourAndTextAgree(count: int)
    ensures StatusColor(count) == "secondary" <==> StatusText(count) == "Empty"
    ensures StatusColor(count) == "outline" <==> StatusText(count) == "Low"
    ensures StatusColor(count) == "default" <==> StatusText(count) == "Active"
    ensures StatusText(count) == "Empty" <==> StatusOf(count) == Empty
    ensures StatusText(count) == "Low" <==> StatusOf(count) == Low
    ensures StatusText(count) == "Active" <==> StatusOf(count) == Active
  {
  }

  datatype CardState = CardState(duplicateName: string, dialogOpen: bool)

  function BackupName(collection: string): (r: string)
    ensures StartsWith(r, collection) && r[|collection|..] == "_backup"
  {
    collection + "_backup"
  }

  function Init(collection: string): (s: CardState)
    ensures s.duplicateName == BackupName(collection) && !s.dialogOpen
  {
    CardState(BackupName(collection), false)
  }

  /** The dialog's "Duplicar" button is enabled unless the name is blank. */
  predicate DuplicateEnabled(s: CardState)
  {
    Trim(s.duplicateName) != ""
  }

  /** `onDuplicate(source, newName)`. */
  datatype Duplicate = Duplicate(source: string, newName: string)

  /** `handleDuplicate`: with a name that is not blank, asks for the copy
      under the trimmed name, closes the dialog and proposes the backup
      name again; with a blank name does nothing. */
  function HandleDuplicate(s: CardState, collection: string): (r: (CardState, Option<Duplicate>))
    ensures r.1.Some? <==> !Blank(s.duplicateName)
    ensures r.1.Some? ==> r.1.value.source == collection && r.1.value.newName == Trim(s.duplicateName)
    ensures r.1.Some? ==> r.0 == Init(collection)
    ensures r.1.None? ==> r.0 == s
  {
    var name := Trim(s.duplicateName);
    if name != "" then (Init(collection), Some(Duplicate(collection, name))) else (s, None)
  }

  /** The requested name never starts or ends with white space, and is
      part of what was typed; the button is enabled exactly when pressing
      it fires the request. */
  lemma DuplicateNameIsClean(s: CardState, collection: string)
    ensures DuplicateEnabled(s) <==> HandleDuplicate(s, collection).1.Some?
    ensures var d := HandleDuplicate(s, collection).1;
      d.Some? ==> (d.value.newName != "" && !IsSpace(d.value.newName[0]) && !IsSpace(d.value.newName[|d.value.newName| - 1])
        && Includes(s.duplicateName, d.value.newName))
  {
  }
}

=== FILE: collections_page.dfy ===
/** The collections page (app/admin/collections/page.tsx): the list of
    collection names combined with the analytics counts, a fixed
    description per known collection, a name search, and the summary
    totals. */
module CollectionsPage {
  import opened Js
  import Api

  const Known: set<string> := {"mac_info", "mac_images", "mac_backup"}

  /** The properties every object literal inherits from `Object.prototype`.
      Each holds a function or, for `__proto__`, an object: all truthy. */
  const Inherited: set<string> := {
    "constructor", "toString", "toLocaleString", "valueOf", "hasOwnProperty",
    "isPrototypeOf", "propertyIsEnumerable", "__proto__",
    "__defineGetter__", "__defineSetter__", "__lookupGetter__", "__lookupSetter__"}

  const Generic := "Colección del museo"

  /** No known collection name is an inherited key: the known ones start
      with "m" and the inherited ones do not. */
  lemma KnownAreNotInherited()
    ensures forall n :: n in Known ==> n !in Inherited
  {
    assert forall n :: n in Inherited ==> |n| > 0 && n[0] != 'm';
    assert forall n :: n in Known ==> |n| > 0 && n[0] == 'm';
  }

  /** `getCollectionDescription`: `descriptions[name] || "Colección del
      museo"` on an object literal, so an inherited key yields the
      inherited member rather than the generic text. */
  function Description(name: string): (r: Api.Description)
    ensures r.Plain? ==> r.text != ""
    ensures name == "mac_info" ==> r == Api.Plain("Información principal de obras y zonas del museo")
    ensures name == "mac_images" ==> r == Api.Plain("Imágenes y recursos visuales de las obras")
    ensures name == "mac_backup" ==> r == Api.Plain("Respaldo de datos del museo")
    ensures name in Inherited ==> r == Api.InheritedMember(name)
    ensures name !in Known && name !in Inherited ==> r == Api.Plain(Generic)
  {
    KnownAreNotInherited();
    if name == "mac_info" then Api.Plain("Información principal de obras y zonas del museo")
    else if name == "mac_images" then Api.Plain("Imágenes y recursos visuales de las obras")
    else if name == "mac_backup" then Api.Plain("Respaldo de datos del museo")
    else if name in Inherited then Api.InheritedMember(name)
    else Api.Plain(Generic)
  }

  /** The three known collections have three different descriptions; the
      generic one is used exactly for the names that are neither known nor
      inherited; and an inherited name gets its inherited member. */
  lemma DescriptionsTellKnownCollectionsApart(a: string, b: string)
    ensures a in Known && b in Known ==> (Description(a) == Description(b) <==> a == b)
    ensures Description(a) == Api.Plain(Generic) <==> a !in Known && a !in Inherited
    ensures Description(a).InheritedMember? <==> a in Inherited
  {
  }

  /** The records the page builds: one per name, in order, when the names
      body is an array; none otherwise. Counts come from the analytics
      `collections_detail`, missing ones as 0. */
  function Combine(names: Api.NamesReply, analytics: Api.AnalyticsReply): (r: seq<Api.CollectionInfo>)
    ensures names.NotAnArray? ==> r == []
    ensures names.NameArray? ==> |r| == |names.names|
    ensures names.NameArray? ==> forall i :: 0 <= i < |r| ==>
      && r[i].name == names.names[i]
      && r[i].count == Api.Lookup(DetailOrEmpty(analytics), names.names[i])
      && r[i].description == Description(names.names[i])
  {
    match names
    case NotAnArray => []
    case NameArray(ns) =>
      seq(|ns|, i requires 0 <= i < |ns| =>
        Api.CollectionInfo(ns[i], Api.Lookup(DetailOrEmpty(analytics), ns[i]), Description(ns[i])))
  }

  /** `collections_detail || {}`. */
  function DetailOrEmpty(analytics: Api.AnalyticsReply): seq<Api.DetailEntry>
  {
    if analytics.detail.Some? then analytics.detail.value else []
  }

  /** Combining keeps the names of `getCollections` and differs from it
      only in the counts and descriptions it fills in. */
  lemma CombineExtendsGetCollections(names: Api.NamesReply, analytics: Api.AnalyticsReply)
    ensures Api.Names(Combine(names, analytics)) == Api.Names(Api.GetCollections(names))
  {
  }

  datatype PageState = PageState(
    collections: seq<Api.CollectionInfo>,
    analytics: Option<Api.AnalyticsReply>,
    loading: bool,
    error: Option<string>,
    search: string)

  /** The two requests `loadCollections` sends, in order. They call `fetch`
      directly rather than `apiRequest`: GETs to the browser's `API_BASE`
      followed by `/admin/collections` and `/admin/analytics`, carrying
      only the ngrok header. */
  function LoadRequests(c: Api.Config): (r: seq<Api.Request>)
    ensures |r| == 2
    ensures r[0].url == Api.AdminApi(Api.ApiBase(c, Api.Browser)) + "/collections"
    ensures r[1].url == Api.AdminApi(Api.ApiBase(c, Api.Browser)) + "/analytics"
    ensures forall i :: 0 <= i < |r| ==>
      r[i].verb == "GET" && r[i].body == Api.NoBody && r[i].headers == map[Api.NgrokHeader := "true"]
  {
    var admin := Api.AdminApi(Api.ApiBase(c, Api.Browser));
    var headers := map[Api.NgrokHeader := "true"];
    [Api.Request("GET", admin + "/collections", headers, Api.NoBody),
     Api.Request("GET", admin + "/analytics", headers, Api.NoBody)]
  }

  /** The page's own list request reaches the URL it names, where the same
      endpoint through `apiRequest` would be prefixed again; without a
      `window` setting it goes to the default host whatever the
      environment says. */
  lemma DirectFetchIsNotPrefixed(c: Api.Config)
    ensures LoadRequests(c)[0].url != Api.AdminRequest(c, Api.Browser, "/collections", "GET", Api.NoBody).url
    ensures c.windowBase == "" ==> LoadRequests(c)[0].url == Api.AdminApi(Api.DefaultApi) + "/collections"
  {
    var direct := LoadRequests(c)[0].url;
    assert |Api.AdminRequest(c, Api.Browser, "/collections", "GET", Api.NoBody).url| > |direct|;
  }

  /** `loadCollections` once both requests settled (a failure of either is
      one failure). */
  function LoadCollections(s: PageState, reply: Outcome<(Api.NamesReply, Api.AnalyticsReply)>): (r: PageState)
    ensures !r.loading && r.search == s.search
    ensures reply.Succeeded? ==>
      r.collections == Combine(reply.value.0, reply.value.1) && r.analytics == Some(reply.value.1) && r.error == None
    ensures reply.Failed? ==>
      r.collections == s.collections && r.error == Some(Or(reply.message, "Error al cargar las colecciones"))
  {
    match reply
    case Succeeded((names, analytics)) =>
      s.(collections := Combine(names, analytics), analytics := Some(analytics), error := None, loading := false)
    case Failed(msg) =>
      s.(error := Some(Or(msg, "Error al cargar las colecciones")), loading := false)
  }

  /** The search effect: every collection for an empty search, otherwise
      those whose name contains the search, ignoring case. */
  function Visible(collections: seq<Api.CollectionInfo>, search: string): (r: seq<Api.CollectionInfo>)
    ensures search == "" ==> r == collections
  {
    if search != "" then Filter(collections, (c: Api.CollectionInfo) => MatchesQuery(c.name, search))
    else collections
  }

  /** A collection is shown exactly when its name contains the search
      (the empty search is contained in every name). */
  lemma VisibleMembership(collections: seq<Api.CollectionInfo>, search: string, c: Api.CollectionInfo)
    ensures c in Visible(collections, search) <==> c in collections && MatchesQuery(c.name, search)
    ensures Visible(collections, search) == Filter(collections, (c: Api.CollectionInfo) => MatchesQuery(c.name, search))
    ensures Subseq(Visible(collections, search), collections)
  {
    FilterMember(collections, (c: Api.CollectionInfo) => MatchesQuery(c.name, search), c);
    EmptyQueryMatchesEverything(c.name);
    if search == "" {
      forall i | 0 <= i < |collections| ensures MatchesQuery(collections[i].name, search) {
        EmptyQueryMatchesEverything(collections[i].name);
      }
    }
  }

  /** The summary card: the total of `total_items` over the detail, and
      the total of mac_images. */
  function SummaryItems(analytics: Api.AnalyticsReply): int
  {
    Api.SumTotals(DetailOrEmpty(analytics))
  }

  function SummaryImages(analytics: Api.AnalyticsReply): int
  {
    Api.Lookup(DetailOrEmpty(analytics), "mac_images")
  }

  /** The page's own summary agrees with `getAnalytics`, and with
      non-negative counts every collection's count is part of the total. */
  lemma SummaryAgreesWithGetAnalytics(analytics: Api.AnalyticsReply, names: Api.NamesReply, i: nat)
    requires Api.NonNegative(DetailOrEmpty(analytics))
    requires names.NameArray? && i < |names.names|
    ensures SummaryItems(analytics) == Api.GetAnalytics(analytics).totalItems
    ensures SummaryImages(analytics) == Api.GetAnalytics(analytics).totalImages
    ensures 0 <= Combine(names, analytics)[i].count <= SummaryItems(analytics)
  {
    Api.LookupAtMostSum(DetailOrEmpty(analytics), names.names[i]);
  }
}

=== FILE: content_page.dfy ===
/** The content page (app/admin/content/page.tsx): two forms, one that
    creates a work ("obra") and one that creates a zone ("zona"), each
    checked for its required fields before it is sent and emptied after a
    successful create. */
module ContentPage {
  import opened Js

  /** A form: its text inputs and its `metadata_adicional` object. */
  datatype Form = Form(fields: map<string, string>, extra: map<string, string>)

  const ObraKeys: seq<string> := [
    "titulo", "artista", "zona", "tecnica", "año", "dimensiones", "materiales", "estilo",
    "periodo_historico", "significado_cultural", "estado_conservacion", "ubicacion_fisica",
    "precio_estimado", "descripcion"]

  const ZonaKeys: seq<string> := ["nombre", "descripcion", "periodo", "tematica", "caracteristicas"]

  /** A form with every input empty and no extra metadata. */
  function EmptyForm(keys: seq<string>): (f: Form)
    ensures f.fields.Keys == set k | k in keys && f.extra == map[]
    ensures forall k :: k in f.fields ==> f.fields[k] == ""
  {
    Form(map k | k in keys :: "", map[])
  }

  datatype NoticeKind = Success | Error
  datatype Notice = Notice(kind: NoticeKind, text: string)

  datatype PageState = PageState(obra: Form, zona: Form, loading: bool, notice: Option<Notice>)

  function Init(): (s: PageState)
    ensures s.obra == EmptyForm(ObraKeys) && s.zona == EmptyForm(ZonaKeys) && !s.loading && s.notice == None
  {
    PageState(EmptyForm(ObraKeys), EmptyForm(ZonaKeys), false, None)
  }

  /** A create: the new state and the form sent, if one was sent. */
  datatype Step = Step(state: PageState, sent: Option<Form>)

  const ObraRequired := "Los campos título, artista, zona y descripción son requeridos"
  const ZonaRequired := "Los campos nombre y descripción son requeridos"

  predicate ObraComplete(f: Form)
  {
    Field(f.fields, "titulo") != "" && Field(f.fields, "artista") != ""
    && Field(f.fields, "zona") != "" && Field(f.fields, "descripcion") != ""
  }

  predicate ZonaComplete(f: Form)
  {
    Field(f.fields, "nombre") != "" && Field(f.fields, "descripcion") != ""
  }

  /** `handleCreateObra`, with the outcome of `createObra`. */
  function CreateObra(s: PageState, outcome: Outcome<()>): (r: Step)
    ensures r.sent.Some? <==> ObraComplete(s.obra)
    ensures r.sent.Some? ==> r.sent.value == s.obra
    ensures !ObraComplete(s.obra) ==> r.state == s.(notice := Some(Notice(Error, ObraRequired)))
    ensures r.state.zona == s.zona && (ObraComplete(s.obra) ==> !r.state.loading)
    ensures ObraComplete(s.obra) && outcome.Succeeded? ==>
      r.state.obra == EmptyForm(ObraKeys) && r.state.notice == Some(Notice(Success, "Obra creada exitosamente"))
    ensures ObraComplete(s.obra) && outcome.Failed? ==>
      r.state.obra == s.obra && r.state.notice == Some(Notice(Error, Or(outcome.message, "Error al crear la obra")))
  {
    if !ObraComplete(s.obra) then Step(s.(notice := Some(Notice(Error, ObraRequired))), None)
    else
      match outcome
      case Succeeded(_) =>
        Step(s.(obra := EmptyForm(ObraKeys), loading := false, notice := Some(Notice(Success, "Obra creada exitosamente"))), Some(s.obra))
      case Failed(msg) =>
        Step(s.(loading := false, notice := Some(Notice(Error, Or(msg, "Error al crear la obra")))), Some(s.obra))
  }

  /** `handleCreateZona`, with the outcome of `createZona`. */
  function CreateZona(s: PageState, outcome: Outcome<()>): (r: Step)
    ensures r.sent.Some? <==> ZonaComplete(s.zona)
    ensures r.sent.Some? ==> r.sent.value == s.zona
    ensures !ZonaComplete(s.zona) ==> r.state == s.(notice := Some(Notice(Error, ZonaRequired)))
    ensures r.state.obra == s.obra && (ZonaComplete(s.zona) ==> !r.state.loading)
    ensures ZonaComplete(s.zona) && outcome.Succeeded? ==>
      r.state.zona == EmptyForm(ZonaKeys) && r.state.notice == Some(Notice(Success, "Zona creada exitosamente"))
    ensures ZonaComplete(s.zona) && outcome.Failed? ==>
      r.state.zona == s.zona && r.state.notice == Some(Notice(Error, Or(outcome.message, "Error al crear la zona")))
  {
    if !ZonaComplete(s.zona) then Step(s.(notice := Some(Notice(Error, ZonaRequired))), None)
    else
      match outcome
      case Succeeded(_) =>
        Step(s.(zona := EmptyForm(ZonaKeys), loading := false, notice := Some(Notice(Success, "Zona creada exitosamente"))), Some(s.zona))
      case Failed(msg) =>
        Step(s.(loading := false, notice := Some(Notice(Error, Or(msg, "Error al crear la zona")))), Some(s.zona))
  }

  /** Only the four named fields are required: a work is sent whatever
      the optional inputs hold, and never when one named field is empty. */
  lemma OptionalFieldsDoNotBlockObra(s: PageState, k: string, v: string, outcome: Outcome<()>)
    requires k !in {"titulo", "artista", "zona", "descripcion"}
    ensures CreateObra(s.(obra := s.obra.(fields := s.obra.fields[k := v])), outcome).sent.Some?
        <==> CreateObra(s, outcome).sent.Some?
    ensures CreateObra(s.(obra := s.obra.(fields := s.obra.fields["titulo" := ""])), outcome).sent.None?
  {
  }

  /** A zone needs only its name and description. */
  lemma OptionalFieldsDoNotBlockZona(s: PageState, k: string, v: string, outcome: Outcome<()>)
    requires k !in {"nombre", "descripcion"}
    ensures CreateZona(s.(zona := s.zona.(fields := s.zona.fields[k := v])), outcome).sent.Some?
        <==> CreateZona(s, outcome).sent.Some?
  {
  }

  /** After a successful create the same form cannot be sent again: the
      emptied form fails the check. */
  lemma CreatedFormCannotBeResent(s: PageState, o: Outcome<()>)
    requires ObraComplete(s.obra)
    ensures CreateObra(CreateObra(s, Succeeded(())).state, o).sent.None?
  {
    var b := EmptyForm(ObraKeys);
    assert "titulo" in ObraKeys;
    assert b.fields["titulo"] == "";
  }
}

=== FILE: create_page.dfy ===
/** The create page (app/admin/create/page.tsx): one form shared by works
    and zones, a payload builder for each, and a reset that runs after a
    successful create and on every switch between the two kinds. */
module CreatePage {
  import opened Js

  datatype Kind = Obra | Zona

  const FormKeys: seq<string> := [
    "titulo", "artista", "año", "tecnica", "descripcion", "ubicacion", "zona", "tipo",
    "nombre", "capacidad", "horario"]

  function EmptyForm(): (f: map<string, string>)
    ensures f.Keys == set k | k in FormKeys
    ensures forall k :: k in f ==> f[k] == ""
  {
    map k | k in FormKeys :: ""
  }

  datatype PageState = PageState(
    kind: Kind,
    form: map<string, string>,
    loading: bool,
    success: Option<string>,
    error: Option<string>)

  function Init(): (s: PageState)
    ensures s.kind == Obra && s.form == EmptyForm() && s.success == None && s.error == None
  {
    PageState(Obra, EmptyForm(), false, None, None)
  }

  /** `handleInputChange(field, value)`. */
  function SetField(s: PageState, k: string, v: string): (r: PageState)
    ensures r.form == s.form[k := v] && r.kind == s.kind
  {
    s.(form := s.form[k := v])
  }

  /** The work payload, keys in the order they are written. */
  function ObraPayload(form: map<string, string>): (p: seq<(string, string)>)
    ensures |p| == 8
    ensures forall i :: 0 <= i < 7 ==> p[i].1 == Field(form, p[i].0)
    ensures p[7] == ("tipo", Or(Field(form, "tipo"), "obra"))
  {
    [("titulo", Field(form, "titulo")), ("artista", Field(form, "artista")), ("año", Field(form, "año")),
     ("tecnica", Field(form, "tecnica")), ("descripcion", Field(form, "descripcion")),
     ("ubicacion", Field(form, "ubicacion")), ("zona", Field(form, "zona")),
     ("tipo", Or(Field(form, "tipo"), "obra"))]
  }

  /** The zone payload: five inputs copied and the type fixed to "zona". */
  function ZonaPayload(form: map<string, string>): (p: seq<(string, string)>)
    ensures |p| == 6
    ensures forall i :: 0 <= i < 5 ==> p[i].1 == Field(form, p[i].0)
    ensures p[5] == ("tipo", "zona")
  {
    [("nombre", Field(form, "nombre")), ("descripcion", Field(form, "descripcion")),
     ("ubicacion", Field(form, "ubicacion")), ("capacidad", Field(form, "capacidad")),
     ("horario", Field(form, "horario")), ("tipo", "zona")]
  }

  function Payload(kind: Kind, form: map<string, string>): seq<(string, string)>
  {
    if kind == Obra then ObraPayload(form) else ZonaPayload(form)
  }

  /** A work's type is never empty, and a zone's is always "zona" whatever
      the type input holds. */
  lemma PayloadTypeIsNeverEmpty(form: map<string, string>)
    ensures ObraPayload(form)[7].1 != "" && ZonaPayload(form)[5].1 == "zona"
    ensures Field(form, "tipo") != "" ==> ObraPayload(form)[7].1 == form["tipo"]
  {
  }

  /** Each payload reads only its own kind's inputs: the zone-only inputs
      do not reach a work, and the work-only inputs do not reach a zone. */
  lemma PayloadsIgnoreTheOtherKind(form: map<string, string>, k: string, v: string)
    ensures k in {"nombre", "capacidad", "horario"} ==> ObraPayload(form[k := v]) == ObraPayload(form)
    ensures k in {"titulo", "artista", "año", "tecnica", "zona", "tipo"} ==> ZonaPayload(form[k := v]) == ZonaPayload(form)
  {
  }

  /** `resetForm`: every input empty, both messages cleared. */
  function ResetForm(s: PageState): (r: PageState)
    ensures r.form == EmptyForm() && r.success == None && r.error == None
    ensures r.kind == s.kind && r.loading == s.loading
  {
    s.(form := EmptyForm(), success := None, error := None)
  }

  /** The two kind buttons: switch, then reset. */
  function SelectKind(s: PageState, kind: Kind): (r: PageState)
    ensures r == ResetForm(s).(kind := kind)
  {
    ResetForm(s.(kind := kind))
  }

  /** Switching kinds never carries an input over. */
  lemma SwitchingKindClearsInputs(s: PageState, kind: Kind, k: string)
    requires k in FormKeys
    ensures SelectKind(s, kind).form[k] == ""
  {
  }

  /** A submit: the new state and the payload sent. */
  datatype Step = Step(state: PageState, sent: seq<(string, string)>)

  function KindLabel(kind: Kind): string
  {
    if kind == Obra then "Obra" else "Zona"
  }

  function KindName(kind: Kind): string
  {
    if kind == Obra then "obra" else "zona"
  }

  /** `handleSubmit` as written: on success the message is set and
      `resetForm` runs right after it, clearing it again. */
  function Submit(s: PageState, outcome: Outcome<()>): (r: Step)
    ensures r.sent == Payload(s.kind, s.form)
    ensures !r.state.loading && r.state.kind == s.kind
    ensures outcome.Succeeded? ==> r.state.form == EmptyForm() && r.state.error == None
    ensures outcome.Failed? ==>
      r.state.form == s.form && r.state.success == None
      && r.state.error == Some(Or(outcome.message, "Error al crear la " + KindName(s.kind)))
  {
    var started := s.(loading := true, error := None, success := None);
    match outcome
    case Succeeded(_) =>
      var done := ResetForm(started.(success := Some(KindLabel(s.kind) + " creada correctamente")));
      Step(done.(loading := false), Payload(s.kind, s.form))
    case Failed(msg) =>
      Step(started.(error := Some(Or(msg, "Error al crear la " + KindName(s.kind))), loading := false), Payload(s.kind, s.form))
  }

  /** The success message is never shown: a successful submit ends with
      no message at all. */
  lemma SuccessMessageIsClearedAtOnce(s: PageState)
    ensures Submit(s, Succeeded(())).state.success == None
    ensures Submit(s, Succeeded(())).state.error == None
  {
  }

  /** `handleSubmit` as intended: the form is emptied and the success
      message stays. */
  function SubmitKeepingSuccess(s: PageState, outcome: Outcome<()>): (r: Step)
    ensures r.sent == Payload(s.kind, s.form)
    ensures !r.state.loading && r.state.kind == s.kind
    ensures outcome.Failed? ==> r.state == Submit(s, outcome).state
  {
    match outcome
    case Succeeded(_) =>
      var done := ResetForm(s).(success := Some(KindLabel(s.kind) + " creada correctamente"), loading := false);
      Step(done, Payload(s.kind, s.form))
    case Failed(_) => Submit(s, outcome)
  }

  /** After the corrected submit the form is empty and the page says what
      was created. */
  lemma CorrectedSubmitAnnouncesCreate(s: PageState)
    ensures var r := SubmitKeepingSuccess(s, Succeeded(())).state;
      r.form == EmptyForm() && r.error == None
      && r.success == Some(if s.kind == Obra then "Obra creada correctamente" else "Zona creada correctamente")
  {
    var r := SubmitKeepingSuccess(s, Succeeded(())).state;
    assert r == ResetForm(s).(success := Some(KindLabel(s.kind) + " creada correctamente"), loading := false);
    CreatedMessage(s.kind);
  }

  lemma CreatedMessage(kind: Kind)
    ensures KindLabel(kind) + " creada correctamente"
      == if kind == Obra then "Obra creada correctamente" else "Zona creada correctamente"
  {
    assert "Obra" + " creada correctamente" == "Obra creada correctamente";
    assert "Zona" + " creada correctamente" == "Zona creada correctamente";
  }
}

=== FILE: document_editor.dfy ===
/** The item document editor (components/admin/DocumentEditor.tsx): a
    text area over the item's document with a dirty flag, a discard
    button and a save button. */
module DocumentEditor {
  import opened Js

  /** `original` is the `document` prop the editor compares against. */
  datatype EditorState = EditorState(
    original: string,
    edited: string,
    saving: bool,
    error: Option<string>,
    dirty: bool)

  /** The flag tells exactly whether the text differs from the document. */
  predicate Consistent(s: EditorState)
  {
    s.dirty <==> s.edited != s.original
  }

  function Init(document: string): (s: EditorState)
    ensures s.edited == document && !s.dirty && !s.saving && s.error == None
    ensures Consistent(s)
  {
    EditorState(document, document, false, None, false)
  }

  /** `handleDocumentChange`. */
  function Edit(s: EditorState, value: string): (r: EditorState)
    ensures r.edited == value && Consistent(r)
    ensures r.original == s.original && r.saving == s.saving && r.error == s.error
  {
    s.(edited := value, dirty := value != s.original)
  }

  /** "Descartar", shown only while the flag is set. */
  function Discard(s: EditorState): (r: EditorState)
    ensures r.edited == s.original && !r.dirty && Consistent(r)
    ensures r.saving == s.saving && r.error == s.error
  {
    s.(edited := s.original, dirty := false)
  }

  /** "Guardar" is enabled only with unsaved changes and no save running. */
  predicate SaveEnabled(s: EditorState)
  {
    s.dirty && !s.saving
  }

  lemma SaveEnabledIffChangedAndIdle(s: EditorState)
    requires Consistent(s)
    ensures SaveEnabled(s) <==> s.edited != s.original && !s.saving
  {
  }

  /** Editing back to the document's own text turns the flag off again, so
      the save button is disabled with nothing to save. */
  lemma EditingBackIsClean(s: EditorState, value: string)
    ensures !SaveEnabled(Edit(Edit(s, value), s.original))
    ensures Edit(Edit(s, value), s.original).edited == s.original
  {
  }

  /** The start of `saveDocument`: the text sent and the state while the
      request runs. */
  datatype SaveStart = SaveStart(state: EditorState, sent: string)

  function StartSave(s: EditorState): (r: SaveStart)
    ensures r.sent == s.edited && r.state.saving && r.state.error == None
    ensures r.state.edited == s.edited && r.state.dirty == s.dirty && r.state.original == s.original
  {
    SaveStart(s.(saving := true, error := None), s.edited)
  }

  /** The end of `saveDocument`: success clears the flag; failure keeps the
      edits and the flag and shows the error's message. */
  function FinishSave(s: EditorState, outcome: Outcome<()>): (r: EditorState)
    ensures !r.saving && r.edited == s.edited && r.original == s.original
    ensures outcome.Succeeded? ==> !r.dirty && r.error == s.error
    ensures outcome.Failed? ==> r.dirty == s.dirty && r.error == Some(outcome.message)
  {
    match outcome
    case Succeeded(_) => s.(dirty := false, saving := false)
    case Failed(msg) => s.(error := Some(msg), saving := false)
  }

  /** A failed save leaves the editor as it was before the click, apart
      from the error, so the save can be retried. */
  lemma FailedSaveCanRetry(s: EditorState, msg: string)
    requires SaveEnabled(s) && Consistent(s)
    ensures var r := FinishSave(StartSave(s).state, Failed(msg));
      r == s.(error := Some(msg)) && SaveEnabled(r) && Consistent(r)
  {
  }

  /** After a successful save the flag is off and stays consistent once the
      parent hands the saved text back as the new document. */
  lemma SavedTextIsCleanAgainstNewDocument(s: EditorState)
    ensures var r := FinishSave(StartSave(s).state, Succeeded(()));
      !r.dirty && !SaveEnabled(r) && Consistent(r.(original := StartSave(s).sent))
  {
  }
}

=== FILE: image_upload.dfy ===
/** The image upload widget (components/admin/ImageUpload.tsx): a file
    chosen by drag-and-drop or from the file dialog, an optional zone and
    artist, and the multipart form handed to the parent on submit. */
module ImageUpload {
  import opened Js
  import Api

  /** The chosen file, its data-URL preview, and the two optional inputs. */
  datatype UploadState = UploadState(
    selected: Option<Api.File>,
    preview: Option<string>,
    zona: string,
    artista: string)

  function Init(): (s: UploadState)
    ensures s.selected == None && s.preview == None && s.zona == "" && s.artista == ""
  {
    UploadState(None, None, "", "")
  }

  /** `handleFileSelect`, with the preview the file reader produces. */
  function Select(s: UploadState, file: Api.File, dataUrl: string): (r: UploadState)
    ensures r.selected == Some(file) && r.preview == Some(dataUrl)
    ensures r.zona == s.zona && r.artista == s.artista
  {
    s.(selected := Some(file), preview := Some(dataUrl))
  }

  predicate IsImage(f: Api.File)
  {
    StartsWith(f.mimeType, "image/")
  }

  /** `files.find(file => file.type.startsWith("image/"))`, as an index. */
  function FirstImage(files: seq<Api.File>): (r: Option<nat>)
    ensures r.Some? ==> r.value < |files| && IsImage(files[r.value])
    ensures r.Some? ==> forall j :: 0 <= j < r.value ==> !IsImage(files[j])
    ensures r.None? ==> forall j :: 0 <= j < |files| ==> !IsImage(files[j])
  {
    if |files| == 0 then None
    else if IsImage(files[0]) then Some(0)
    else
      var rest := FirstImage(files[1..]);
      if rest.Some? then Some(rest.value + 1) else None
  }

  /** `handleDrop`: the first image among the dropped files is chosen; a
      drop with no image changes nothing. */
  function Drop(s: UploadState, files: seq<Api.File>, dataUrl: string): (r: UploadState)
    ensures FirstImage(files).None? ==> r == s
    ensures FirstImage(files).Some? ==> r == Select(s, files[FirstImage(files).value], dataUrl)
  {
    match FirstImage(files)
    case Some(i) => Select(s, files[i], dataUrl)
    case None => s
  }

  /** A dropped file that is not an image is never chosen, however many
      non-images come before the first image. */
  lemma DropSkipsNonImages(s: UploadState, others: seq<Api.File>, image: Api.File, rest: seq<Api.File>, dataUrl: string)
    requires forall j :: 0 <= j < |others| ==> !IsImage(others[j])
    requires IsImage(image)
    ensures Drop(s, others + [image] + rest, dataUrl).selected == Some(image)
  {
    var files := others + [image] + rest;
    assert files[|others|] == image;
    assert forall j :: 0 <= j < |others| ==> files[j] == others[j];
  }

  /** The hidden file input: its first file is taken, with no type check
      of its own (the dialog's `accept` filter only narrows what is
      offered). */
  function Pick(s: UploadState, files: seq<Api.File>, dataUrl: string): (r: UploadState)
    ensures |files| == 0 ==> r == s
    ensures |files| > 0 ==> r == Select(s, files[0], dataUrl)
  {
    if |files| > 0 then Select(s, files[0], dataUrl) else s
  }

  /** The submit button is enabled with a file chosen and no upload running. */
  predicate SubmitEnabled(s: UploadState, loading: bool)
  {
    s.selected.Some? && !loading
  }

  /** `handleSubmit`: the form handed to `onUpload`, or nothing without a
      file. */
  function Submit(s: UploadState): (r: Option<seq<(string, Api.FormValue)>>)
    ensures r.None? <==> s.selected.None?
    ensures r.Some? ==> |r.value| >= 1 && r.value[0] == ("file", Api.Blob(s.selected.value))
    ensures r.Some? ==> |r.value| == 1 + (if s.zona != "" then 1 else 0) + (if s.artista != "" then 1 else 0)
  {
    match s.selected
    case None => None
    case Some(f) =>
      Some([("file", Api.Blob(f))]
        + (if s.zona != "" then [("zona", Api.Text(s.zona))] else [])
        + (if s.artista != "" then [("artista", Api.Text(s.artista))] else []))
  }

  /** The receiving end reads the file and both inputs back from the form;
      an omitted input reads back as the empty text it was. */
  lemma SubmitReadsBack(s: UploadState)
    requires s.selected.Some?
    ensures var form := Submit(s).value;
      && Api.FileEntry(form, "file") == s.selected
      && Api.TextEntry(form, "zona") == s.zona
      && Api.TextEntry(form, "artista") == s.artista
  {
    var form := Submit(s).value;
    var head := [("file", Api.Blob(s.selected.value))];
    var z := if s.zona != "" then [("zona", Api.Text(s.zona))] else [];
    var a := if s.artista != "" then [("artista", Api.Text(s.artista))] else [];
    assert form == head + (z + a);
    Api.EntriesAfter(head, z + a, "zona");
    Api.EntriesAfter(head, z + a, "artista");
    assert Api.TextEntry(z + a, "zona") == s.zona by {
      if s.zona != "" {
        assert (z + a)[0] == ("zona", Api.Text(s.zona));
      } else {
        assert z + a == a;
      }
    }
    assert Api.TextEntry(z + a, "artista") == s.artista by {
      Api.EntriesAfter(z, a, "artista");
    }
  }

  /** `clearSelection`: the file and the preview go, the inputs stay. */
  function Clear(s: UploadState): (r: UploadState)
    ensures r.selected == None && r.preview == None
    ensures r.zona == s.zona && r.artista == s.artista
  {
    s.(selected := None, preview := None)
  }

  /** After clearing, submitting does nothing until a file is chosen again. */
  lemma ClearedFormSubmitsNothing(s: UploadState, loading: bool)
    ensures Submit(Clear(s)) == None && !SubmitEnabled(Clear(s), loading)
  {
  }
}

=== FILE: images_page.dfy ===
/** The images page (app/admin/images/page.tsx): images listed with
    optional zona/artista filters, narrowed by a free-text search, deleted
    after confirmation, and uploaded through a form whose required fields
    are checked before anything is sent. */
module ImagesPage {
  import opened Js
  import Api

  /** An image as `listImages` returns it: its string properties. */
  type Image = map<string, string>

  /** `image.k?.toLowerCase().includes(q)`: a missing property never matches. */
  predicate PropertyMatches(img: Image, k: string, search: string)
  {
    k in img && MatchesQuery(img[k], search)
  }

  predicate ImageMatches(img: Image, search: string)
  {
    || PropertyMatches(img, "filename", search)
    || PropertyMatches(img, "titulo", search)
    || PropertyMatches(img, "artista", search)
    || PropertyMatches(img, "zona", search)
  }

  /** The list the search effect computes. */
  function Visible(images: seq<Image>, search: string): (r: seq<Image>)
    ensures Subseq(r, images)
  {
    Filter(images, (img: Image) => ImageMatches(img, search))
  }

  lemma VisibleMembership(images: seq<Image>, search: string, img: Image)
    ensures img in Visible(images, search) <==> img in images && ImageMatches(img, search)
  {
    FilterMember(images, (img: Image) => ImageMatches(img, search), img);
  }

  /** Even the empty search hides an image that has none of the four
      searched properties; every other image is shown. */
  lemma EmptySearchKeepsImagesWithAProperty(images: seq<Image>, img: Image)
    ensures img in Visible(images, "") <==>
      img in images && ("filename" in img || "titulo" in img || "artista" in img || "zona" in img)
  {
    VisibleMembership(images, "", img);
    if "filename" in img { EmptyQueryMatchesEverything(img["filename"]); }
    if "titulo" in img { EmptyQueryMatchesEverything(img["titulo"]); }
    if "artista" in img { EmptyQueryMatchesEverything(img["artista"]); }
    if "zona" in img { EmptyQueryMatchesEverything(img["zona"]); }
  }

  // ---------------------------------------------------------------------------
  //  State
  // ---------------------------------------------------------------------------

  datatype UploadForm = UploadForm(
    file: Option<Api.File>,
    obraId: string,
    titulo: string,
    artista: string,
    zona: string,
    descripcionVisual: string)

  const EmptyForm := UploadForm(None, "", "", "", "", "")

  datatype PageState = PageState(
    images: seq<Image>,
    filtered: seq<Image>,
    loading: bool,
    error: Option<string>,
    search: string,
    zonaFilter: string,
    artistaFilter: string,
    uploading: bool,
    form: UploadForm)

  /** What the page shows agrees with what the search effect computes. */
  predicate Consistent(s: PageState)
  {
    s.filtered == Visible(s.images, s.search)
  }

  function Init(): (s: PageState)
    ensures Consistent(s) && s.loading && s.form == EmptyForm
  {
    PageState([], [], true, None, "", "", "", false, EmptyForm)
  }

  /** Typing in the search box; the effect then recomputes the list. */
  function SetSearch(s: PageState, search: string): (r: PageState)
    ensures Consistent(r) && r.search == search && r.images == s.images
  {
    s.(search := search, filtered := Visible(s.images, search))
  }

  // ---------------------------------------------------------------------------
  //  Loading
  // ---------------------------------------------------------------------------

  /** The query `loadImages` sends: an empty filter box is passed as an
      absent argument, so it adds no parameter. */
  function LoadParams(s: PageState): (r: seq<(string, string)>)
    ensures forall v :: ("zona_filter", v) in r <==> v == s.zonaFilter && v != ""
    ensures forall v :: ("artista_filter", v) in r <==> v == s.artistaFilter && v != ""
  {
    Api.ListImagesParams(OrAbsent(s.zonaFilter), OrAbsent(s.artistaFilter))
  }

  /** `loadImages` once `listImages` settled with its `images` (None when
      the body had none). */
  function LoadImages(s: PageState, reply: Outcome<Option<seq<Image>>>): (r: PageState)
    ensures Consistent(r) && !r.loading
    ensures reply.Succeeded? ==> r.error == None
    ensures reply.Succeeded? && reply.value.Some? ==> r.images == reply.value.value
    ensures reply.Succeeded? && reply.value.None? ==> r.images == []
    ensures reply.Failed? ==> r.images == s.images && r.error == Some(Or(reply.message, "Error al cargar las imágenes"))
    ensures r.form == s.form && r.search == s.search
  {
    match reply
    case Succeeded(images) =>
      var imgs := if images.Some? then images.value else [];
      s.(images := imgs, filtered := Visible(imgs, s.search), error := None, loading := false)
    case Failed(msg) =>
      s.(filtered := Visible(s.images, s.search), error := Some(Or(msg, "Error al cargar las imágenes")), loading := false)
  }

  // ---------------------------------------------------------------------------
  //  Delete
  // ---------------------------------------------------------------------------

  const DeletePrompt := "¿Estás seguro de que quieres eliminar esta imagen?"

  /** One handler run: the new state, the confirmation asked, the alert
      raised and the image whose DELETE request was sent. */
  datatype Step = Step(state: PageState, prompt: Option<string>, alert: Option<string>, deleted: Option<string>)

  /** `img.id !== imageId`; an image without an id is never removed. */
  predicate KeepsImage(img: Image, id: string)
  {
    !("id" in img && img["id"] == id)
  }

  function Without(images: seq<Image>, id: string): (r: seq<Image>)
    ensures Subseq(r, images)
  {
    Filter(images, (img: Image) => KeepsImage(img, id))
  }

  /** `handleDelete`: nothing without confirmation; after a successful
      request the images with that id leave both lists; a failed request
      changes nothing but raises an alert. */
  function Delete(s: PageState, id: string, confirmed: bool, reply: Outcome<()>): (r: Step)
    ensures r.prompt == Some(DeletePrompt)
    ensures r.deleted.Some? <==> confirmed
    ensures r.deleted.Some? ==> r.deleted.value == id
    ensures !confirmed || reply.Failed? ==> r.state == s
    ensures confirmed && reply.Failed? ==> r.alert == Some("Error al eliminar: " + reply.message)
    ensures confirmed && reply.Succeeded? ==>
      r.state.images == Without(s.images, id) && r.state.filtered == Without(s.filtered, id) && r.alert == None
    ensures r.state.(images := s.images, filtered := s.filtered) == s
  {
    if !confirmed then Step(s, Some(DeletePrompt), None, None)
    else
      match reply
      case Failed(msg) => Step(s, Some(DeletePrompt), Some("Error al eliminar: " + msg), Some(id))
      case Succeeded(_) =>
        Step(s.(images := Without(s.images, id), filtered := Without(s.filtered, id)),
             Some(DeletePrompt), None, Some(id))
  }

  /** Deleting removes exactly the images carrying that id and keeps every
      other image, in order. */
  lemma DeleteRemovesExactlyThatId(s: PageState, id: string, img: Image)
    ensures var r := Delete(s, id, true, Succeeded(())).state;
      img in r.images <==> img in s.images && !("id" in img && img["id"] == id)
  {
    FilterMember(s.images, (img: Image) => KeepsImage(img, id), img);
  }

  /** The handler edits the shown list directly instead of recomputing it;
      the result is the same list the search effect would compute, so the
      page stays consistent. */
  lemma DeleteKeepsConsistent(s: PageState, id: string, confirmed: bool, reply: Outcome<()>)
    requires Consistent(s)
    ensures Consistent(Delete(s, id, confirmed, reply).state)
  {
    FilterCommute(s.images, (img: Image) => ImageMatches(img, s.search), (img: Image) => KeepsImage(img, id));
  }

  // ---------------------------------------------------------------------------
  //  Upload
  // ---------------------------------------------------------------------------

  const MissingFieldsAlert := "Todos los campos son requeridos excepto la descripción visual"

  predicate FormComplete(f: UploadForm)
  {
    f.file.Some? && f.obraId != "" && f.titulo != "" && f.artista != "" && f.zona != ""
  }

  /** The `FormData` of an upload: the file and the four required fields
      in this order, then the visual description only when non-empty. */
  function UploadFields(f: UploadForm): (r: seq<(string, Api.FormValue)>)
    requires f.file.Some?
    ensures |r| == 5 || |r| == 6
    ensures r[..5] == [("file", Api.Blob(f.file.value)), ("obra_id", Api.Text(f.obraId)),
      ("titulo", Api.Text(f.titulo)), ("artista", Api.Text(f.artista)), ("zona", Api.Text(f.zona))]
    ensures |r| == 6 <==> f.descripcionVisual != ""
    ensures |r| == 6 ==> r[5] == ("descripcion_visual", Api.Text(f.descripcionVisual))
  {
    [("file", Api.Blob(f.file.value)), ("obra_id", Api.Text(f.obraId)), ("titulo", Api.Text(f.titulo)),
     ("artista", Api.Text(f.artista)), ("zona", Api.Text(f.zona))]
    + (if f.descripcionVisual != "" then [("descripcion_visual", Api.Text(f.descripcionVisual))] else [])
  }

  /** What the receiving end reads back from the form. */
  function ReadUpload(fields: seq<(string, Api.FormValue)>): UploadForm
  {
    UploadForm(Api.FileEntry(fields, "file"), Api.TextEntry(fields, "obra_id"), Api.TextEntry(fields, "titulo"),
      Api.TextEntry(fields, "artista"), Api.TextEntry(fields, "zona"), Api.TextEntry(fields, "descripcion_visual"))
  }

  /** The form loses nothing: reading it back gives the page's form,
      the omitted description reading back as the empty text it was. */
  lemma UploadFieldsReadBack(f: UploadForm)
    requires f.file.Some?
    ensures ReadUpload(UploadFields(f)) == f
  {
    var r := UploadFields(f);
    Api.ReadAt(r, 1, "obra_id");
    Api.ReadAt(r, 2, "titulo");
    Api.ReadAt(r, 3, "artista");
    Api.ReadAt(r, 4, "zona");
    Api.EntriesAfter(r[..5], r[5..], "descripcion_visual");
    assert r[..5] + r[5..] == r;
  }

  datatype UploadStep = UploadStep(state: PageState, alert: Option<string>, sent: Option<seq<(string, Api.FormValue)>>)

  /** `handleUpload`: an incomplete form raises an alert and sends
      nothing; a complete one is sent, and on success the form is reset and
      the images are reloaded (`reload` is that reload's reply); on failure
      the form is kept and an alert is raised. */
  function Upload(s: PageState, reply: Outcome<()>, reload: Outcome<Option<seq<Image>>>): (r: UploadStep)
    ensures r.sent.Some? <==> FormComplete(s.form)
    ensures !FormComplete(s.form) ==> r.state == s && r.alert == Some(MissingFieldsAlert)
    ensures r.sent.Some? ==> r.sent.value == UploadFields(s.form)
    ensures FormComplete(s.form) && reply.Succeeded? ==>
      r.state.form == EmptyForm && r.state == LoadImages(s.(form := EmptyForm, uploading := false), reload) && r.alert == None
    ensures FormComplete(s.form) && reply.Failed? ==>
      r.state == s && r.alert == Some("Error al subir imagen: " + reply.message)
    ensures !r.state.uploading || r.state == s
  {
    if !FormComplete(s.form) then UploadStep(s, Some(MissingFieldsAlert), None)
    else
      var sent := Some(UploadFields(s.form));
      match reply
      case Failed(msg) => UploadStep(s, Some("Error al subir imagen: " + msg), sent)
      case Succeeded(_) => UploadStep(LoadImages(s.(form := EmptyForm, uploading := false), reload), None, sent)
  }
}

=== FILE: item_table.dfy ===
/** The item table (components/admin/ItemTable.tsx): a case-insensitive
    search over every property of an item, ten rows per page, and
    Previous/Next buttons that keep the page number in range. */
module ItemTable {
  import opened Js

  /** A collection item as the table receives it: its id and its other
      properties, each a string or null/undefined (None). */
  datatype TableItem = TableItem(id: string, fields: map<string, Option<string>>)

  /** `Object.values(item).some(value => value?.toString().toLowerCase().includes(q))`:
      the id or some present property contains the query; a null or
      undefined property never matches. */
  predicate RowMatches(item: TableItem, search: string)
  {
    || MatchesQuery(item.id, search)
    || exists k :: k in item.fields && item.fields[k].Some? && MatchesQuery(item.fields[k].value, search)
  }

  function Filtered(items: seq<TableItem>, search: string): (r: seq<TableItem>)
    ensures Subseq(r, items) && |r| <= |items|
  {
    Filter(items, (item: TableItem) => RowMatches(item, search))
  }

  /** The filtered list holds exactly the items that match, in order. */
  lemma FilteredKeepsExactlyMatches(items: seq<TableItem>, search: string, item: TableItem)
    ensures item in Filtered(items, search) <==> item in items && RowMatches(item, search)
  {
    FilterMember(items, (item: TableItem) => RowMatches(item, search), item);
  }

  /** An empty search keeps every item, because every item has a string id. */
  lemma EmptySearchKeepsAll(items: seq<TableItem>)
    ensures Filtered(items, "") == items
  {
    forall i | 0 <= i < |items| ensures RowMatches(items[i], "") {
      EmptyQueryMatchesEverything(items[i].id);
    }
  }

  // ---------------------------------------------------------------------------
  //  Cells
  // ---------------------------------------------------------------------------

  function Present(item: TableItem, k: string): string
  {
    if k in item.fields && item.fields[k].Some? then item.fields[k].value else ""
  }

  /** A cell such as `item.titulo || item.name || "-"`. */
  function Cell(item: TableItem, first: string, second: string): (r: string)
    ensures r != ""
    ensures Present(item, first) != "" ==> r == Present(item, first)
    ensures Present(item, first) == "" && Present(item, second) != "" ==> r == Present(item, second)
    ensures Present(item, first) == "" && Present(item, second) == "" ==> r == "-"
  {
    Or(Or(Present(item, first), Present(item, second)), "-")
  }

  // ---------------------------------------------------------------------------
  //  Pagination
  // ---------------------------------------------------------------------------

  const ItemsPerPage := 10

  /** `Math.ceil(n / 10)`: the fewest pages of ten that hold n rows. */
  function TotalPages(n: nat): (r: nat)
    ensures r * ItemsPerPage >= n
    ensures r == 0 || (r - 1) * ItemsPerPage < n
  {
    (n + ItemsPerPage - 1) / ItemsPerPage
  }

  /** `Array.prototype.slice(start, end)`: negative bounds count from the
      end, and every bound is clamped into the sequence. */
  function Slice<T>(s: seq<T>, start: int, end: int): (r: seq<T>)
    ensures 0 <= start <= end ==> r == s[Min(start, |s|)..Min(end, |s|)]
  {
    var from := if start < 0 then Max(|s| + start, 0) else Min(start, |s|);
    var to := if end < 0 then Max(|s| + end, 0) else Min(end, |s|);
    if from < to then s[from..to] else []
  }

  function Min(a: int, b: int): int { if a <= b then a else b }
  function Max(a: int, b: int): int { if a >= b then a else b }

  /** The rows page `page` shows. */
  function PageRows<T>(filtered: seq<T>, page: int): (r: seq<T>)
    ensures |r| <= ItemsPerPage
    ensures page >= 1 ==>
      r == filtered[Min((page - 1) * ItemsPerPage, |filtered|)..Min(page * ItemsPerPage, |filtered|)]
  {
    var start := (page - 1) * ItemsPerPage;
    Slice(filtered, start, start + ItemsPerPage)
  }

  /** Pages 1..k laid end to end. */
  function PagesUpTo<T>(filtered: seq<T>, k: nat): seq<T>
  {
    if k == 0 then [] else PagesUpTo(filtered, k - 1) + PageRows(filtered, k)
  }

  lemma {:induction false} PagesUpToIsPrefix<T>(filtered: seq<T>, k: nat)
    ensures PagesUpTo(filtered, k) == filtered[..Min(k * ItemsPerPage, |filtered|)]
  {
    if k > 0 {
      PagesUpToIsPrefix(filtered, k - 1);
      var a := Min((k - 1) * ItemsPerPage, |filtered|);
      var b := Min(k * ItemsPerPage, |filtered|);
      assert filtered[..a] + filtered[a..b] == filtered[..b];
    }
  }

  /** The pages split the filtered list: together, in order, they are
      exactly the filtered list. */
  lemma PagesCoverFiltered<T>(filtered: seq<T>)
    ensures PagesUpTo(filtered, TotalPages(|filtered|)) == filtered
  {
    PagesUpToIsPrefix(filtered, TotalPages(|filtered|));
  }

  /** The "Anterior" button. */
  function Previous(page: int): (r: int)
    ensures r >= 1 && r <= Max(page, 1)
    ensures page > 1 ==> r == page - 1
  {
    Max(1, page - 1)
  }

  /** The "Siguiente" button. */
  function Next(page: int, totalPages: nat): (r: int)
    ensures r <= totalPages && r <= page + 1
    ensures page < totalPages ==> r == page + 1
  {
    Min(totalPages, page + 1)
  }

  /** The buttons never leave the page range, and each is a no-op exactly
      when it is drawn disabled (on the first, respectively last, page). */
  lemma ButtonsStayInRange(page: int, totalPages: nat)
    requires 1 <= page <= totalPages
    ensures 1 <= Previous(page) <= totalPages && 1 <= Next(page, totalPages) <= totalPages
    ensures Previous(page) == page <==> page == 1
    ensures Next(page, totalPages) == page <==> page == totalPages
  {
  }

  /** The pagination bar is drawn when there is more than one page. */
  predicate ShowPagination(n: nat)
  {
    TotalPages(n) > 1
  }

  lemma PaginationIffMoreThanOnePage(n: nat)
    ensures ShowPagination(n) <==> n > ItemsPerPage
  {
  }

  // ---------------------------------------------------------------------------
  //  Search and page together
  // ---------------------------------------------------------------------------

  datatype TableState = TableState(search: string, page: int)

  function Init(): (s: TableState)
    ensures s.page == 1 && s.search == ""
  {
    TableState("", 1)
  }

  /** Typing in the search box, as written: the page number is kept. */
  function SetSearch(s: TableState, search: string): (r: TableState)
    ensures r.search == search && r.page == s.page
  {
    s.(search := search)
  }

  function Shown(items: seq<TableItem>, s: TableState): seq<TableItem>
  {
    PageRows(Filtered(items, s.search), s.page)
  }

  /** A search that narrows the list to one page while a later page is
      open leaves the table empty although items match, and hides the
      buttons that could go back. Page 3, for one, is reachable from page 1
      with two clicks on "Siguiente" whenever at least 21 items match. */
  lemma NarrowingSearchStrandsPage(items: seq<TableItem>, s: TableState, search: string)
    requires s.page >= 2 && 1 <= |Filtered(items, search)| <= ItemsPerPage
    ensures Filtered(items, SetSearch(s, search).search) != []
    ensures Shown(items, SetSearch(s, search)) == []
    ensures !ShowPagination(|Filtered(items, SetSearch(s, search).search)|)
    ensures forall n: nat :: n > 2 * ItemsPerPage ==> Next(Next(1, TotalPages(n)), TotalPages(n)) == 3
  {
    assert (s.page - 1) * ItemsPerPage >= ItemsPerPage;
  }

  /** Typing in the search box, corrected: back to the first page. */
  function SetSearchFromFirstPage(s: TableState, search: string): (r: TableState)
    ensures r.search == search && r.page == 1
  {
    TableState(search, 1)
  }

  /** After the corrected search the table shows the first matches, so it
      is empty only when nothing matches. */
  lemma SearchFromFirstPageShowsMatches(items: seq<TableItem>, s: TableState, search: string)
    ensures var f := Filtered(items, search);
      Shown(items, SetSearchFromFirstPage(s, search)) == f[..Min(ItemsPerPage, |f|)]
    ensures Shown(items, SetSearchFromFirstPage(s, search)) == [] <==> Filtered(items, search) == []
  {
  }
}

=== FILE: items_page.dfy ===
/** The items page (app/admin/items/page.tsx): items loaded from one
    collection or from all of them, each tagged with its collection, then
    narrowed by a free-text search and a type filter; the type filter
    offers the sorted distinct types of the loaded items. */
module ItemsPage {
  import opened Js
  import opened Catalog
  import SortedStrings
  import Api

  /** An item of the list, tagged with the collection it came from. */
  datatype Tagged = Tagged(item: Item, collection: string)

  // ---------------------------------------------------------------------------
  //  Loading
  // ---------------------------------------------------------------------------

  /** `loadCollections`: the names when the body is an array, else none. */
  function CollectionNames(data: Api.NamesReply): (r: seq<string>)
    ensures data.NameArray? ==> r == data.names
    ensures data.NotAnArray? ==> r == []
  {
    match data
    case NameArray(names) => names
    case NotAnArray => []
  }

  function Tag(items: seq<Item>, collection: string): (r: seq<Tagged>)
    ensures |r| == |items|
    ensures forall i :: 0 <= i < |r| ==> r[i] == Tagged(items[i], collection)
  {
    seq(|items|, i requires 0 <= i < |items| => Tagged(items[i], collection))
  }

  /** What one collection adds to the "all" list: its items tagged with
      its name, or nothing when its request fails. */
  function Contribution(name: string, fetch: string -> Outcome<CollectionData>): (r: seq<Tagged>)
    ensures fetch(name).Failed? ==> r == []
    ensures fetch(name).Succeeded? ==> r == Tag(ItemsOf(fetch(name).value), name)
  {
    match fetch(name)
    case Succeeded(data) => Tag(ItemsOf(data), name)
    case Failed(_) => []
  }

  /** The "all" branch of `loadAllItems`: collections are read in order and
      each item is tagged with its collection; a collection whose request
      fails is skipped. `fetch` stands for the request of one collection. */
  function LoadEach(names: seq<string>, fetch: string -> Outcome<CollectionData>): (r: seq<Tagged>)
    ensures forall i :: 0 <= i < |r| ==> r[i].collection in names
    ensures forall i :: 0 <= i < |r| ==>
      fetch(r[i].collection).Succeeded? && r[i].item in ItemsOf(fetch(r[i].collection).value)
  {
    if |names| == 0 then [] else Contribution(names[0], fetch) + LoadEach(names[1..], fetch)
  }

  lemma {:induction false} LoadEachAppend(a: seq<string>, b: seq<string>, fetch: string -> Outcome<CollectionData>)
    ensures LoadEach(a + b, fetch) == LoadEach(a, fetch) + LoadEach(b, fetch)
  {
    if |a| > 0 {
      assert (a + b)[1..] == a[1..] + b;
      assert (a + b)[0] == a[0];
      LoadEachAppend(a[1..], b, fetch);
      var c := Contribution(a[0], fetch);
      calc {
        LoadEach(a + b, fetch);
        c + LoadEach(a[1..] + b, fetch);
        c + (LoadEach(a[1..], fetch) + LoadEach(b, fetch));
        (c + LoadEach(a[1..], fetch)) + LoadEach(b, fetch);
      }
    } else {
      assert a + b == b;
    }
  }

  /** A failing collection costs only its own items: the others load
      exactly as if it were not in the list, and a successful one
      contributes all its items, tagged with its name, at its place. */
  lemma {:induction false} FailingCollectionIsSkipped(a: seq<string>, name: string, b: seq<string>,
                                   fetch: string -> Outcome<CollectionData>)
    ensures LoadEach(a + [name] + b, fetch) == LoadEach(a, fetch) + Contribution(name, fetch) + LoadEach(b, fetch)
    ensures fetch(name).Failed? ==>
      LoadEach(a + [name] + b, fetch) == LoadEach(a, fetch) + LoadEach(b, fetch)
  {
    var la, lb, c := LoadEach(a, fetch), LoadEach(b, fetch), Contribution(name, fetch);
    var an := a + [name];
    LoadEachAppend(a, [name], fetch);
    LoadEachSingle(name, fetch);
    assert LoadEach(an, fetch) == la + c;
    LoadEachAppend(an, b, fetch);
    assert LoadEach(an + b, fetch) == la + c + lb;
    if fetch(name).Failed? {
      assert c == [];
      assert la + c == la;
    }
  }

  lemma LoadEachSingle(name: string, fetch: string -> Outcome<CollectionData>)
    ensures LoadEach([name], fetch) == Contribution(name, fetch)
  {
    assert [name][1..] == [];
    assert LoadEach([name], fetch) == Contribution(name, fetch) + LoadEach([], fetch);
  }

  datatype PageState = PageState(
    collections: seq<string>,
    selected: string,
    allItems: seq<Tagged>,
    loading: bool,
    error: Option<string>,
    search: string,
    typeFilter: string)

  function Init(): (s: PageState)
    ensures s.selected == "all" && s.typeFilter == "all" && s.search == "" && s.loading
    ensures s.collections == [] && s.allItems == [] && s.error == None
  {
    PageState([], "all", [], true, None, "", "all")
  }

  /** One run of `loadAllItems`. In "all" mode every failure is caught per
      collection, so the run always succeeds; for a single collection a
      failure keeps the previous items and records the error. */
  function LoadAllItems(s: PageState, fetch: string -> Outcome<CollectionData>): (r: PageState)
    ensures !r.loading
    ensures s.selected == "all" ==> r.allItems == LoadEach(s.collections, fetch) && r.error == None
    ensures s.selected != "all" && fetch(s.selected).Succeeded? ==>
      r.allItems == Tag(ItemsOf(fetch(s.selected).value), s.selected) && r.error == None
    ensures s.selected != "all" && fetch(s.selected).Failed? ==>
      r.allItems == s.allItems && r.error == Some(fetch(s.selected).message)
    ensures forall i :: 0 <= i < |r.allItems| && r.allItems != s.allItems ==>
      r.allItems[i].collection in s.collections || r.allItems[i].collection == s.selected
  {
    if s.selected == "all" then
      s.(allItems := LoadEach(s.collections, fetch), error := None, loading := false)
    else
      match fetch(s.selected)
      case Succeeded(data) => s.(allItems := Tag(ItemsOf(data), s.selected), error := None, loading := false)
      case Failed(msg) => s.(error := Some(msg), loading := false)
  }

  /** `loadCollections` as written: a reply sets the listed names, and a
      failed request or body records its message. Neither touches
      `loading`. */
  function LoadCollections(s: PageState, listing: Outcome<Api.NamesReply>): (r: PageState)
    ensures listing.Succeeded? ==> r.collections == CollectionNames(listing.value) && r.error == s.error
    ensures listing.Failed? ==> r.collections == s.collections && r.error == Some(listing.message)
    ensures r.loading == s.loading && r.allItems == s.allItems && r.selected == s.selected
  {
    match listing
    case Succeeded(data) => s.(collections := CollectionNames(data))
    case Failed(msg) => s.(error := Some(msg))
  }

  /** The effect on `[collections, selectedCollection]`: items are loaded
      only while some collection is listed. */
  function LoadTrigger(s: PageState, fetch: string -> Outcome<CollectionData>): (r: PageState)
    ensures |s.collections| > 0 ==> !r.loading && r.selected == s.selected
    ensures |s.collections| == 0 ==> r == s
  {
    if |s.collections| > 0 then LoadAllItems(s, fetch) else s
  }

  /** The page while `loading` holds is the skeleton of the early return;
      the error block further down is not reached. */
  predicate ShowsError(s: PageState)
  {
    !s.loading && s.error.Some?
  }

  /** Mounting as written: the listing, then the effect it triggers. */
  function Mount(listing: Outcome<Api.NamesReply>, fetch: string -> Outcome<CollectionData>): PageState
  {
    LoadTrigger(LoadCollections(Init(), listing), fetch)
  }

  /** As written, a failed listing or an empty one leaves the page on the
      skeleton: `loading` starts true, only `loadAllItems` clears it, and
      the effect never calls it. A failure's message is recorded but never
      shown, and a later run of the effect (choosing a collection) changes
      nothing. */
  lemma NoCollectionKeepsSkeleton(listing: Outcome<Api.NamesReply>, fetch: string -> Outcome<CollectionData>,
                                  choice: string)
    requires listing.Failed? || CollectionNames(listing.value) == []
    ensures Mount(listing, fetch).loading && !ShowsError(Mount(listing, fetch))
    ensures listing.Failed? ==> Mount(listing, fetch).error == Some(listing.message)
    ensures LoadTrigger(Mount(listing, fetch).(selected := choice), fetch).loading
  {
    var s := LoadCollections(Init(), listing);
    assert s.collections == [];
  }

  /** `loadCollections` as evidently intended: when there is nothing to
      load, the skeleton is dropped so that the error or the empty list
      shows. */
  function LoadCollectionsSettling(s: PageState, listing: Outcome<Api.NamesReply>): (r: PageState)
    ensures r.collections == LoadCollections(s, listing).collections
    ensures r.error == LoadCollections(s, listing).error
    ensures r.loading <==> s.loading && |r.collections| > 0
  {
    var t := LoadCollections(s, listing);
    if |t.collections| > 0 then t else t.(loading := false)
  }

  function MountSettling(listing: Outcome<Api.NamesReply>, fetch: string -> Outcome<CollectionData>): PageState
  {
    LoadTrigger(LoadCollectionsSettling(Init(), listing), fetch)
  }

  /** With the corrected listing the page always leaves the skeleton, a
      failure's message is shown, and a non-empty listing loads exactly as
      written. */
  lemma SettlingMountEndsLoading(listing: Outcome<Api.NamesReply>, fetch: string -> Outcome<CollectionData>)
    ensures !MountSettling(listing, fetch).loading
    ensures listing.Failed? ==> ShowsError(MountSettling(listing, fetch))
    ensures listing.Succeeded? && CollectionNames(listing.value) != [] ==>
      MountSettling(listing, fetch) == Mount(listing, fetch)
  {
  }

  // ---------------------------------------------------------------------------
  //  Filters
  // ---------------------------------------------------------------------------

  /** The search test: the query occurs, ignoring case, in the id, in some
      metadata value or in the document. */
  predicate SearchMatches(item: Item, search: string)
  {
    || MatchesQuery(item.id, search)
    || (exists k :: k in item.metadata && MatchesQuery(item.metadata[k], search))
    || MatchesQuery(item.document, search)
  }

  /** `tipo || type || "sin_tipo"`. */
  function EffectiveType(item: Item): (r: string)
    ensures r != ""
    ensures Field(item.metadata, "tipo") != "" ==> r == item.metadata["tipo"]
    ensures Field(item.metadata, "tipo") == "" && Field(item.metadata, "type") != "" ==> r == item.metadata["type"]
    ensures Field(item.metadata, "tipo") == "" && Field(item.metadata, "type") == "" ==> r == "sin_tipo"
  {
    Or(Field(item.metadata, "tipo"), Or(Field(item.metadata, "type"), "sin_tipo"))
  }

  predicate TypeMatches(item: Item, typeFilter: string)
  {
    typeFilter == "all" || EffectiveType(item) == typeFilter
  }

  predicate Keeps(t: Tagged, search: string, typeFilter: string)
  {
    SearchMatches(t.item, search) && TypeMatches(t.item, typeFilter)
  }

  /** The search step of the effect that recomputes `filteredItems`,
      skipped for an empty search. */
  function Searched(items: seq<Tagged>, search: string): seq<Tagged>
  {
    if search != "" then Filter(items, (t: Tagged) => SearchMatches(t.item, search)) else items
  }

  /** The type step, skipped for "all". */
  function Typed(items: seq<Tagged>, typeFilter: string): seq<Tagged>
  {
    if typeFilter != "all" then Filter(items, (t: Tagged) => EffectiveType(t.item) == typeFilter) else items
  }

  function Shown(s: PageState): seq<Tagged>
  {
    Typed(Searched(s.allItems, s.search), s.typeFilter)
  }

  /** Skipping the search for an empty query loses nothing: the empty
      query matches every item. */
  lemma SearchedIsFilter(items: seq<Tagged>, search: string)
    ensures Searched(items, search) == Filter(items, (t: Tagged) => SearchMatches(t.item, search))
  {
    if search == "" {
      forall i | 0 <= i < |items| ensures SearchMatches(items[i].item, search) {
        EmptyQueryMatchesEverything(items[i].item.id);
      }
    }
  }

  lemma TypedIsFilter(items: seq<Tagged>, typeFilter: string)
    ensures Typed(items, typeFilter) == Filter(items, (t: Tagged) => TypeMatches(t.item, typeFilter))
  {
    if typeFilter != "all" {
      FilterSame(items, (t: Tagged) => EffectiveType(t.item) == typeFilter, (t: Tagged) => TypeMatches(t.item, typeFilter));
    }
  }

  /** The two filters in sequence are one filter by both tests: the list
      shown is exactly the loaded items passing both, in their order. */
  lemma ShownIsOneFilter(s: PageState)
    ensures Shown(s) == Filter(s.allItems, (t: Tagged) => Keeps(t, s.search, s.typeFilter))
  {
    SearchedIsFilter(s.allItems, s.search);
    TypedIsFilter(Searched(s.allItems, s.search), s.typeFilter);
    FilterComposed(s.allItems, (t: Tagged) => SearchMatches(t.item, s.search),
      (t: Tagged) => TypeMatches(t.item, s.typeFilter), (t: Tagged) => Keeps(t, s.search, s.typeFilter));
  }

  /** An item is shown exactly when it is loaded and passes both filters,
      and the shown list keeps the loaded order. */
  lemma ShownMembership(s: PageState, t: Tagged)
    ensures t in Shown(s) <==> t in s.allItems && Keeps(t, s.search, s.typeFilter)
    ensures Subseq(Shown(s), s.allItems)
  {
    ShownIsOneFilter(s);
    FilterMember(s.allItems, (t: Tagged) => Keeps(t, s.search, s.typeFilter), t);
  }

  /** With an empty search and the "all" type everything loaded is shown. */
  lemma NoFilterShowsAll(s: PageState)
    requires s.search == "" && s.typeFilter == "all"
    ensures Shown(s) == s.allItems
  {
  }

  // ---------------------------------------------------------------------------
  //  Type list, titles
  // ---------------------------------------------------------------------------

  function EffectiveTypes(items: seq<Tagged>): (r: seq<string>)
    ensures |r| == |items| && forall i :: 0 <= i < |r| ==> r[i] == EffectiveType(items[i].item)
  {
    seq(|items|, i requires 0 <= i < |items| => EffectiveType(items[i].item))
  }

  /** `getAvailableTypes`: the effective types of the loaded items, each
      once, ascending. */
  function AvailableTypes(items: seq<Tagged>): (r: seq<string>)
    ensures SortedStrings.Sorted(r)
    ensures forall t :: t in r <==> exists i :: 0 <= i < |items| && EffectiveType(items[i].item) == t
  {
    var types := EffectiveTypes(items);
    var r := SortedStrings.SortedDistinct(types);
    assert forall t :: t in types <==> exists i :: 0 <= i < |items| && EffectiveType(items[i].item) == t by {
      forall t ensures t in types ==> exists i :: 0 <= i < |items| && EffectiveType(items[i].item) == t {
        if t in types {
          var i :| 0 <= i < |types| && types[i] == t;
        }
      }
    }
    r
  }

  /** The list is the only sorted, duplicate-free listing of the loaded
      types, and choosing any of its entries as the filter shows at least
      one item. */
  lemma AvailableTypesCanonical(items: seq<Tagged>, listing: seq<string>, k: nat)
    requires SortedStrings.Sorted(listing)
    requires forall t :: t in listing <==> exists i :: 0 <= i < |items| && EffectiveType(items[i].item) == t
    requires k < |AvailableTypes(items)|
    ensures listing == AvailableTypes(items)
    ensures exists i :: 0 <= i < |items| && TypeMatches(items[i].item, AvailableTypes(items)[k])
  {
    SortedStrings.SortedIsUnique(listing, AvailableTypes(items));
    assert AvailableTypes(items)[k] in AvailableTypes(items);
  }

  /** `getItemTitle`: titulo, nombre, name, then the id. */
  function ItemTitle(item: Item): string
  {
    Or(Field(item.metadata, "titulo"), Or(Field(item.metadata, "nombre"), Or(Field(item.metadata, "name"), item.id)))
  }

  /** `getItemSubtitle`: artista, artist, descripcion, then a fixed text. */
  function ItemSubtitle(item: Item): string
  {
    Or(Field(item.metadata, "artista"), Or(Field(item.metadata, "artist"), Or(Field(item.metadata, "descripcion"), "Sin descripción")))
  }

  /** Each fallback is taken exactly when every earlier choice is empty
      or missing; the subtitle is never empty. */
  lemma TitleFallbacks(item: Item)
    ensures Field(item.metadata, "titulo") != "" ==> ItemTitle(item) == item.metadata["titulo"]
    ensures Field(item.metadata, "titulo") == "" && Field(item.metadata, "nombre") != "" ==>
      ItemTitle(item) == item.metadata["nombre"]
    ensures Field(item.metadata, "titulo") == "" && Field(item.metadata, "nombre") == "" && Field(item.metadata, "name") != "" ==>
      ItemTitle(item) == item.metadata["name"]
    ensures Field(item.metadata, "titulo") == "" && Field(item.metadata, "nombre") == "" && Field(item.metadata, "name") == "" ==>
      ItemTitle(item) == item.id
    ensures ItemSubtitle(item) != ""
    ensures Field(item.metadata, "artista") != "" ==> ItemSubtitle(item) == item.metadata["artista"]
    ensures Field(item.metadata, "artista") == "" && Field(item.metadata, "artist") != "" ==>
      ItemSubtitle(item) == item.metadata["artist"]
    ensures Field(item.metadata, "artista") == "" && Field(item.metadata, "artist") == "" && Field(item.metadata, "descripcion") != "" ==>
      ItemSubtitle(item) == item.metadata["descripcion"]
    ensures Field(item.metadata, "artista") == "" && Field(item.metadata, "artist") == "" && Field(item.metadata, "descripcion") == "" ==>
      ItemSubtitle(item) == "Sin descripción"
  {
  }
}

=== FILE: js.dfy ===
/** JavaScript value semantics that the console's handlers rely on: the
    truthiness of strings in `||` fallbacks and `!x` guards, `trim`,
    `toLowerCase`, `includes`, `startsWith`, `split("\n")`, decimal
    rendering of numbers and `Array.prototype.filter`. Every other module
    imports this one. */
module Js {

  datatype Option<+T> = None | Some(value: T)

  /** The settled value of an awaited request: its value, or the error it
      threw, of which only `err.message` is ever read. */
  datatype Outcome<+T> = Succeeded(value: T) | Failed(message: string)

  /** `a || b` on strings: the empty string is the only falsy string. */
  function Or(a: string, b: string): string
  {
    if a != "" then a else b
  }

  /** `record.k` read from a string-valued record in a truthiness position:
      a missing key is `undefined`, which is as falsy as "". */
  function Field(m: map<string, string>, k: string): string
  {
    if k in m then m[k] else ""
  }

  /** `x || undefined`: an empty string is passed on as an absent argument. */
  function OrAbsent(s: string): Option<string>
  {
    if s != "" then Some(s) else None
  }

  lemma {:induction false} OrFallsThroughOnlyOnEmpty(a: string, b: string)
    ensures Or(a, b) == a || (a == "" && Or(a, b) == b)
    ensures Or(a, b) == "" <==> a == "" && b == ""
  {
  }

  // ---------------------------------------------------------------------------
  //  trim
  // ---------------------------------------------------------------------------

  /** The characters `String.prototype.trim` strips: ECMAScript WhiteSpace
      and LineTerminator code points. The same set is `\s` in a regular
      expression. */
  predicate IsSpace(c: char)
  {
    || c == ' ' || c == '\t' || c == '\n' || c == '\r'
    || c == '\U{000B}' || c == '\U{000C}' || c == '\U{00A0}' || c == '\U{1680}'
    || ('\U{2000}' <= c <= '\U{200A}')
    || c == '\U{2028}' || c == '\U{2029}' || c == '\U{202F}' || c == '\U{205F}'
    || c == '\U{3000}' || c == '\U{FEFF}'
  }

  function TrimStart(s: string): (r: string)
    ensures |r| <= |s| && r == s[|s| - |r|..]
    ensures forall i :: 0 <= i < |s| - |r| ==> IsSpace(s[i])
    ensures r == [] || !IsSpace(r[0])
  {
    if |s| > 0 && IsSpace(s[0]) then TrimStart(s[1..]) else s
  }

  function TrimEnd(s: string): (r: string)
    ensures |r| <= |s| && r == s[..|r|]
    ensures forall i :: |r| <= i < |s| ==> IsSpace(s[i])
    ensures r == [] || !IsSpace(r[|r| - 1])
  {
    if |s| > 0 && IsSpace(s[|s| - 1]) then TrimEnd(s[..|s| - 1]) else s
  }

  /** `r` occurs in `s` at `k`, and everything before and after it is
      space. */
  predicate SpaceAround(s: string, r: string, k: nat)
  {
    && k + |r| <= |s| && r == s[k..k + |r|]
    && (forall i :: 0 <= i < k ==> IsSpace(s[i]))
    && (forall i :: k + |r| <= i < |s| ==> IsSpace(s[i]))
  }

  /** `s.trim()`: the longest infix of `s` that neither starts nor ends with
      a space; everything cut off is space. */
  function Trim(s: string): (r: string)
    ensures Includes(s, r)
    ensures exists k: nat :: SpaceAround(s, r, k)
    ensures r == [] || (!IsSpace(r[0]) && !IsSpace(r[|r| - 1]))
  {
    var t := TrimStart(s);
    var r := TrimEnd(t);
    assert r <= t;
    var k: nat := |s| - |t|;
    IncludesFrom(s, k, r);
    TrimCutsOnlySpace(s, t, r);
    assert SpaceAround(s, r, k);
    r
  }

  /** Cutting spaces off the front (leaving `t`) and then off the back
      (leaving `r`) leaves `r` at `|s| - |t|` with space around it. */
  lemma TrimCutsOnlySpace(s: string, t: string, r: string)
    requires |t| <= |s| && t == s[|s| - |t|..] && forall i :: 0 <= i < |s| - |t| ==> IsSpace(s[i])
    requires |r| <= |t| && r == t[..|r|] && forall i :: |r| <= i < |t| ==> IsSpace(t[i])
    ensures SpaceAround(s, r, |s| - |t|)
  {
    var k := |s| - |t|;
    SliceOfSuffix(s, t, k, |r|);
    forall i | k + |r| <= i < |s| ensures IsSpace(s[i]) {
      assert s[i] == t[i - k];
    }
  }

  /** `sub` occurs in `s` when it is a prefix of the suffix at `i`. */
  lemma IncludesFrom(s: string, i: nat, sub: string)
    requires i <= |s| && sub <= s[i..]
    ensures Includes(s, sub)
  {
  }

  lemma SliceOfSuffix(s: string, t: string, k: nat, n: nat)
    requires k <= |s| && t == s[k..] && n <= |t|
    ensures s[k..k + n] == t[..n]
  {
  }

  /** A string that neither starts nor ends with a space is its own trim;
      in particular trimming twice is trimming once. */
  lemma TrimKeepsUnspaced(s: string)
    requires s == [] || (!IsSpace(s[0]) && !IsSpace(s[|s| - 1]))
    ensures Trim(s) == s
  {
    assert TrimStart(s) == s;
    assert TrimEnd(s) == s;
  }

  lemma TrimIdempotent(s: string)
    ensures Trim(Trim(s)) == Trim(s)
  {
    TrimKeepsUnspaced(Trim(s));
  }

  /** `!s.trim()`: the string is empty once trimmed. */
  predicate Blank(s: string)
  {
    Trim(s) == ""
  }

  /** A string is blank exactly when every one of its characters is a space. */
  lemma {:induction false} BlankIffAllSpace(s: string)
    ensures Blank(s) <==> forall i :: 0 <= i < |s| ==> IsSpace(s[i])
  {
    var t := TrimStart(s);
    if !forall i :: 0 <= i < |s| ==> IsSpace(s[i]) {
      var j :| 0 <= j < |s| && !IsSpace(s[j]);
      assert |s| - |t| <= j;
      assert t != [];
      assert TrimEnd(t) != [];
    }
  }

  // ---------------------------------------------------------------------------
  //  toLowerCase, includes, startsWith
  // ---------------------------------------------------------------------------

  /** Lower-casing of the ASCII capitals and of the Latin-1 capitals
      U+00C0..U+00DE (except the multiplication sign U+00D7), which is
      where Spanish accented capitals live. */
  function LowerChar(c: char): char
  {
    if 'A' <= c <= 'Z' || ('\U{00C0}' <= c <= '\U{00DE}' && c != '\U{00D7}')
    then (c as int + 32) as char
    else c
  }

  function ToLower(s: string): (r: string)
    ensures |r| == |s|
    ensures forall i :: 0 <= i < |s| ==> r[i] == LowerChar(s[i])
  {
    seq(|s|, i requires 0 <= i < |s| => LowerChar(s[i]))
  }

  /** `s.includes(sub)`: `sub` occurs in `s` at some position. */
  predicate Includes(s: string, sub: string)
  {
    exists i :: 0 <= i <= |s| && sub <= s[i..]
  }

  /** `s.toLowerCase().includes(q.toLowerCase())`, the case-insensitive
      search every listing page uses. */
  predicate MatchesQuery(s: string, q: string)
  {
    Includes(ToLower(s), ToLower(q))
  }

  /** The empty query is found in every string. */
  lemma EmptyQueryMatchesEverything(s: string)
    ensures MatchesQuery(s, "")
  {
    assert ToLower("") <= ToLower(s)[0..];
  }

  /** A query is always found in itself, whatever its case. */
  lemma QueryMatchesItself(q: string)
    ensures MatchesQuery(q, q)
  {
    assert ToLower(q) <= ToLower(q)[0..];
  }

  /** A string occurs in any concatenation that has it in the middle. */
  lemma IncludesAt(pre: string, sub: string, post: string)
    ensures Includes(pre + sub + post, sub)
  {
    assert sub <= (pre + sub + post)[|pre|..];
  }

  /** Appending to a string keeps what it contains. */
  lemma IncludesExtended(s: string, more: string, sub: string)
    requires Includes(s, sub)
    ensures Includes(s + more, sub)
  {
    var i :| 0 <= i <= |s| && sub <= s[i..];
    assert (s + more)[i..] == s[i..] + more;
  }

  /** Prepending to a string keeps what it contains. */
  lemma IncludesAfter(pre: string, s: string, sub: string)
    requires Includes(s, sub)
    ensures Includes(pre + s, sub)
  {
    var i :| 0 <= i <= |s| && sub <= s[i..];
    assert (pre + s)[|pre| + i..] == s[i..];
  }

  /** `s.startsWith(p)`. */
  predicate StartsWith(s: string, p: string)
  {
    p <= s
  }

  // ---------------------------------------------------------------------------
  //  split / join on one separator character
  // ---------------------------------------------------------------------------

  /** `parts.join(sep)`. */
  function Join(parts: seq<string>, sep: char): string
    requires |parts| >= 1
  {
    if |parts| == 1 then parts[0] else parts[0] + [sep] + Join(parts[1..], sep)
  }

  function Count(s: string, c: char): nat
  {
    if |s| == 0 then 0 else (if s[0] == c then 1 else 0) + Count(s[1..], c)
  }

  /** `s.split(sep)`: one piece per separator plus one, no piece contains
      the separator, and joining the pieces back gives `s`. */
  function Split(s: string, sep: char): (r: seq<string>)
    ensures |r| == Count(s, sep) + 1
    ensures forall i :: 0 <= i < |r| ==> sep !in r[i]
    ensures Join(r, sep) == s
  {
    if |s| == 0 then [""]
    else
      var rest := Split(s[1..], sep);
      if s[0] == sep then
        assert [""] + rest == [""] + rest[..];
        assert ([""] + rest)[1..] == rest;
        [""] + rest
      else
        var r := [[s[0]] + rest[0]] + rest[1..];
        assert r[1..] == rest[1..];
        assert s == [s[0]] + s[1..];
        r
  }

  // ---------------------------------------------------------------------------
  //  Number rendering (`n.toString()`, template literals)
  // ---------------------------------------------------------------------------

  function DigitChar(d: nat): (c: char)
    requires d < 10
    ensures '0' <= c <= '9'
  {
    "0123456789"[d]
  }

  function DigitValue(c: char): nat
    requires '0' <= c <= '9'
  {
    c as int - '0' as int
  }

  predicate AllDigits(s: string)
  {
    forall i :: 0 <= i < |s| ==> '0' <= s[i] <= '9'
  }

  /** Decimal rendering of a non-negative integer, without leading zeros. */
  function NatToString(n: nat): (r: string)
    ensures |r| >= 1 && AllDigits(r)
    ensures |r| > 1 ==> r[0] != '0'
  {
    if n < 10 then [DigitChar(n)] else NatToString(n / 10) + [DigitChar(n % 10)]
  }

  function ParseDigits(s: string): nat
    requires AllDigits(s)
  {
    if |s| == 0 then 0 else 10 * ParseDigits(s[..|s| - 1]) + DigitValue(s[|s| - 1])
  }

  /** The run of ASCII digits a string starts with (`/^\d+/`). */
  function LeadingDigits(s: string): (r: string)
    ensures r <= s && AllDigits(r)
    ensures |r| < |s| ==> !('0' <= s[|r|] <= '9')
  {
    if |s| > 0 && '0' <= s[0] <= '9' then [s[0]] + LeadingDigits(s[1..]) else []
  }

  lemma {:induction false} LeadingDigitsOfDigits(d: string, rest: string)
    requires AllDigits(d)
    requires |rest| > 0 && !('0' <= rest[0] <= '9')
    ensures LeadingDigits(d + rest) == d
  {
    if |d| > 0 {
      assert (d + rest)[1..] == d[1..] + rest;
      LeadingDigitsOfDigits(d[1..], rest);
    } else {
      assert d + rest == rest;
    }
  }

  /** The rendering reads back as the number it renders. */
  lemma {:induction false} NatToStringRoundTrip(n: nat)
    ensures ParseDigits(NatToString(n)) == n
  {
    if n >= 10 {
      NatToStringRoundTrip(n / 10);
      var r := NatToString(n);
      assert r[..|r| - 1] == NatToString(n / 10);
    }
  }

  // ---------------------------------------------------------------------------
  //  Array.prototype.filter
  // ---------------------------------------------------------------------------

  /** `a` is an order-preserving subsequence of `b`. */
  predicate Subseq<T(==)>(a: seq<T>, b: seq<T>)
    decreases |b|
  {
    || |a| == 0
    || (|b| > 0 && ((a[0] == b[0] && Subseq(a[1..], b[1..])) || Subseq(a, b[1..])))
  }

  /** `s.filter(p)`: the elements satisfying `p`, in their original order. */
  function Filter<T(==)>(s: seq<T>, p: T -> bool): (r: seq<T>)
    ensures |r| <= |s|
    ensures Subseq(r, s)
    ensures forall i :: 0 <= i < |r| ==> r[i] in s
    ensures forall i :: 0 <= i < |s| && p(s[i]) ==> s[i] in r
    ensures (forall i :: 0 <= i < |s| ==> p(s[i])) ==> r == s
  {
    if |s| == 0 then []
    else if p(s[0]) then [s[0]] + Filter(s[1..], p)
    else Filter(s[1..], p)
  }

  /** An element is kept by a filter exactly when it occurs and satisfies
      the predicate. */
  lemma {:induction false} FilterMember<T>(s: seq<T>, p: T -> bool, x: T)
    ensures x in Filter(s, p) <==> x in s && p(x)
  {
    if |s| > 0 {
      FilterMember(s[1..], p, x);
      assert x in s <==> x == s[0] || x in s[1..];
    }
  }

  /** Filtering a filtered sequence again with the same predicate keeps it. */
  lemma {:induction false} FilterIdempotent<T>(s: seq<T>, p: T -> bool)
    ensures Filter(Filter(s, p), p) == Filter(s, p)
  {
    if |s| > 0 {
      FilterIdempotent(s[1..], p);
    }
  }

  predicate NoDups<T(==)>(s: seq<T>)
  {
    forall i, j :: 0 <= i < j < |s| ==> s[i] != s[j]
  }

  /** A filter of a duplicate-free sequence is duplicate-free. */
  lemma {:induction false} FilterKeepsNoDups<T>(s: seq<T>, p: T -> bool)
    ensures NoDups(s) ==> NoDups(Filter(s, p))
  {
    if |s| > 0 && NoDups(s) {
      assert NoDups(s[1..]) by {
        forall i, j | 0 <= i < j < |s[1..]| ensures s[1..][i] != s[1..][j] {
          assert s[1..][i] == s[i + 1] && s[1..][j] == s[j + 1];
        }
      }
      FilterKeepsNoDups(s[1..], p);
      if p(s[0]) {
        FilterMember(s[1..], p, s[0]);
        var r := Filter(s, p);
        assert r == [s[0]] + Filter(s[1..], p);
        forall i, j | 0 <= i < j < |r| ensures r[i] != r[j] {
          if i == 0 {
            assert r[j] == Filter(s[1..], p)[j - 1];
            assert r[j] in Filter(s[1..], p);
          } else {
            assert r[i] == Filter(s[1..], p)[i - 1] && r[j] == Filter(s[1..], p)[j - 1];
          }
        }
      }
    }
  }

  /** Filtering distributes over concatenation. */
  lemma {:induction false} FilterAppend<T>(a: seq<T>, b: seq<T>, p: T -> bool)
    ensures Filter(a + b, p) == Filter(a, p) + Filter(b, p)
  {
    if |a| > 0 {
      assert (a + b)[1..] == a[1..] + b;
      FilterAppend(a[1..], b, p);
    } else {
      assert a + b == b;
    }
  }

  /** Filters by predicates that agree on the sequence are equal. */
  lemma {:induction false} FilterSame<T>(s: seq<T>, p: T -> bool, q: T -> bool)
    requires forall i :: 0 <= i < |s| ==> p(s[i]) == q(s[i])
    ensures Filter(s, p) == Filter(s, q)
  {
    if |s| > 0 {
      FilterSame(s[1..], p, q);
    }
  }

  /** Filtering by `p` and then by `q` is filtering by their conjunction. */
  lemma {:induction false} FilterComposed<T>(s: seq<T>, p: T -> bool, q: T -> bool, pq: T -> bool)
    requires forall i :: 0 <= i < |s| ==> pq(s[i]) == (p(s[i]) && q(s[i]))
    ensures Filter(Filter(s, p), q) == Filter(s, pq)
  {
    if |s| > 0 {
      FilterComposed(s[1..], p, q, pq);
    }
  }

  /** Two filters may run in either order. */
  lemma FilterCommute<T>(s: seq<T>, p: T -> bool, q: T -> bool)
    ensures Filter(Filter(s, p), q) == Filter(Filter(s, q), p)
  {
    FilterComposed(s, p, q, x => p(x) && q(x));
    FilterComposed(s, q, p, x => p(x) && q(x));
  }
}

=== FILE: message_bubble.dfy ===
/** How a chat message is drawn (components/chat/MessageBubble.tsx).
    Assistant text is split into lines, each trimmed line is classified as
    a heading, a numbered or bulleted list item, a paragraph or a line
    break, and list items and paragraphs go through three inline passes
    (bold, italic, code). User text is shown as typed. */
module MessageBubble {
  import opened Js
  import opened Chat

  // ---------------------------------------------------------------------------
  //  Inline elements
  // ---------------------------------------------------------------------------

  /** The three inline passes, in the order they run. */
  datatype Pattern = BoldPattern | ItalicPattern | CodePattern

  /** A piece of inline output: unmatched text, or the element a pass made
      from a match. An italic element remembers whether it was written with
      `*` or `_`; both draw the same `<em>`. */
  datatype Node =
    | Text(text: string)
    | Strong(content: string)
    | Em(content: string, mark: char)
    | CodeSpan(content: string)

  /** What `.` refuses to match in a regular expression. */
  predicate LineTerminator(c: char)
  {
    c == '\n' || c == '\r' || c == '\U{2028}' || c == '\U{2029}'
  }

  /** The markdown a node was read from. */
  function Unparse(n: Node): string
  {
    match n
    case Text(t) => t
    case Strong(c) => "**" + c + "**"
    case Em(c, m) => [m] + c + [m]
    case CodeSpan(c) => "`" + c + "`"
  }

  function UnparseAll(ns: seq<Node>): string
  {
    if |ns| == 0 then "" else Unparse(ns[0]) + UnparseAll(ns[1..])
  }

  lemma {:induction false} UnparseAllAppend(a: seq<Node>, b: seq<Node>)
    ensures UnparseAll(a + b) == UnparseAll(a) + UnparseAll(b)
  {
    if |a| > 0 {
      var tail := a[1..] + b;
      assert (a + b)[0] == a[0] && (a + b)[1..] == tail;
      assert UnparseAll(a + b) == Unparse(a[0]) + UnparseAll(tail);
      UnparseAllAppend(a[1..], b);
      assert UnparseAll(a) == Unparse(a[0]) + UnparseAll(a[1..]);
    } else {
      assert a + b == b;
    }
  }

  /** The first position at or after `j` where `d` occurs. With `lineOnly`
      the search gives up at a line terminator, as a lazy `.*?` does. */
  function FindClose(s: string, j: nat, d: string, lineOnly: bool): (r: Option<nat>)
    requires j <= |s| && |d| > 0
    ensures r.Some? ==> j <= r.value && r.value + |d| <= |s| && s[r.value..r.value + |d|] == d
    ensures r.Some? ==> forall m :: j <= m < r.value ==> !(d <= s[m..])
    ensures r.Some? && lineOnly ==> forall m :: j <= m < r.value ==> !LineTerminator(s[m])
    decreases |s| - j
  {
    if d <= s[j..] then Some(j)
    else if j == |s| || (lineOnly && LineTerminator(s[j])) then None
    else FindClose(s, j + 1, d, lineOnly)
  }

  /** `s[i..e]` is `d`, then `c`, then `d` again, when `d` stands both at
      `i` and at `k`. */
  lemma Enclosed(s: string, i: nat, k: nat, d: string)
    requires i + |d| <= k && k + |d| <= |s|
    requires s[i..i + |d|] == d && s[k..k + |d|] == d
    ensures s[i..k + |d|] == d + s[i + |d|..k] + d
  {
  }

  /** A one-character delimiter found by `FindClose` does not occur in
      the text it skipped. */
  lemma SkippedHasNoMark(s: string, j: nat, k: nat, mark: char)
    requires j <= k <= |s|
    requires forall m :: j <= m < k ==> !([mark] <= s[m..])
    ensures mark !in s[j..k]
  {
    forall m | 0 <= m < k - j ensures s[j..k][m] != mark {
      assert [mark] <= s[j + m..] <==> s[j + m] == mark;
    }
  }

  /** A star just before a closing `**` would have closed the match one
      position earlier. */
  lemma NoDoubleStarBefore(s: string, m: nat)
    requires m + 1 < |s| && s[m + 1] == '*' && !("**" <= s[m..])
    ensures s[m] != '*'
  {
    assert s[m..][..2] == [s[m], s[m + 1]];
  }

  /** `\*\*((?!\*)(.*?))\*\*` at position `i`. */
  function BoldAt(s: string, i: nat): (r: Option<(Node, nat)>)
    requires i <= |s|
    ensures r.Some? ==> i < r.value.1 <= |s| && Unparse(r.value.0) == s[i..r.value.1] && r.value.0.Strong?
    ensures r.Some? ==>
      (var c := r.value.0.content;
       (c != "" && c[0] != '*' && c[|c| - 1] != '*' && forall m :: 0 <= m < |c| ==> !LineTerminator(c[m])))
    ensures r.Some? ==> s[i] == '*'
  {
    if "**" <= s[i..] && !(i + 2 < |s| && s[i + 2] == '*') then
      match FindClose(s, i + 2, "**", true)
      case Some(k) =>
        BoldFound(s, i, k);
        var end: nat := k + 2;
        Some((Strong(s[i + 2..k]), end))
      case None => None
    else None
  }

  /** What a bold match found by `FindClose` consists of: the two
      delimiters around a non-empty, single-line text that neither starts
      nor ends with a star. */
  lemma BoldFound(s: string, i: nat, k: nat)
    requires i + 2 <= k && k + 2 <= |s| && "**" <= s[i..] && s[k..k + 2] == "**"
    requires !(i + 2 < |s| && s[i + 2] == '*')
    requires forall m :: i + 2 <= m < k ==> !("**" <= s[m..])
    requires forall m :: i + 2 <= m < k ==> !LineTerminator(s[m])
    ensures s[i] == '*' && Unparse(Strong(s[i + 2..k])) == s[i..k + 2]
    ensures var c := s[i + 2..k];
      c != "" && c[0] != '*' && c[|c| - 1] != '*' && forall m :: 0 <= m < |c| ==> !LineTerminator(c[m])
  {
    assert s[i..i + 2] == s[i..][..2] == "**";
    Enclosed(s, i, k, "**");
    BoldContent(s, i, k);
  }

  lemma BoldContent(s: string, i: nat, k: nat)
    requires i + 2 <= k && k + 2 <= |s| && s[k..k + 2] == "**"
    requires !(i + 2 < |s| && s[i + 2] == '*')
    requires forall m :: i + 2 <= m < k ==> !("**" <= s[m..])
    requires forall m :: i + 2 <= m < k ==> !LineTerminator(s[m])
    ensures var c := s[i + 2..k];
      c != "" && c[0] != '*' && c[|c| - 1] != '*' && forall m :: 0 <= m < |c| ==> !LineTerminator(c[m])
  {
    assert s[k] == s[k..k + 2][0] == '*';
    assert k > i + 2;
    NoDoubleStarBefore(s, k - 1);
    var c := s[i + 2..k];
    assert c[0] == s[i + 2] && c[|c| - 1] == s[k - 1];
    forall m | 0 <= m < |c| ensures !LineTerminator(c[m]) {
      assert c[m] == s[i + 2 + m];
    }
  }

  /** A one-character delimiter at `i` closed by `FindClose` at `k`
      encloses text that does not contain it. */
  lemma MarkFound(s: string, i: nat, k: nat, mark: char)
    requires i + 1 <= k && k + 1 <= |s| && [mark] <= s[i..] && s[k..k + 1] == [mark]
    requires forall m :: i + 1 <= m < k ==> !([mark] <= s[m..])
    ensures s[i] == mark && s[k] == mark
    ensures s[i..k + 1] == [mark] + s[i + 1..k] + [mark]
    ensures mark !in s[i + 1..k]
  {
    assert s[i..i + 1] == s[i..][..1] == [mark];
    assert s[k] == s[k..k + 1][0];
    Enclosed(s, i, k, [mark]);
    SkippedHasNoMark(s, i + 1, k, mark);
  }

  /** `\*(?!\*)([^*]+)\*` or `_([^_]+)_` at position `i`. */
  function ItalicAt(s: string, i: nat): (r: Option<(Node, nat)>)
    requires i <= |s|
    ensures r.Some? ==> i < r.value.1 <= |s| && Unparse(r.value.0) == s[i..r.value.1] && r.value.0.Em?
    ensures r.Some? ==> r.value.0.content != "" && r.value.0.mark !in r.value.0.content
    ensures r.Some? ==> s[i] == r.value.0.mark && s[i] in {'*', '_'}
  {
    if "*" <= s[i..] && i + 1 < |s| && s[i + 1] != '*' then
      match FindClose(s, i + 1, "*", false)
      case Some(k) =>
        MarkFound(s, i, k, '*');
        var end: nat := k + 1;
        Some((Em(s[i + 1..k], '*'), end))
      case None => None
    else if "_" <= s[i..] then
      match FindClose(s, i + 1, "_", false)
      case Some(k) =>
        if k > i + 1 then
          MarkFound(s, i, k, '_');
          var end: nat := k + 1;
          Some((Em(s[i + 1..k], '_'), end))
        else None
      case None => None
    else None
  }

  /** `` `(.*?)` `` at position `i`. */
  function CodeAt(s: string, i: nat): (r: Option<(Node, nat)>)
    requires i <= |s|
    ensures r.Some? ==> i < r.value.1 <= |s| && Unparse(r.value.0) == s[i..r.value.1] && r.value.0.CodeSpan?
    ensures r.Some? ==> '`' !in r.value.0.content
    ensures r.Some? ==> s[i] == '`'
  {
    if "`" <= s[i..] then
      match FindClose(s, i + 1, "`", true)
      case Some(k) =>
        MarkFound(s, i, k, '`');
        var end: nat := k + 1;
        Some((CodeSpan(s[i + 1..k]), end))
      case None => None
    else None
  }

  /** The match of pattern `p` that starts exactly at position `i`, with
      the position just after it. */
  function MatchAt(p: Pattern, s: string, i: nat): (r: Option<(Node, nat)>)
    requires i <= |s|
    ensures r.Some? ==> i < r.value.1 <= |s| && Unparse(r.value.0) == s[i..r.value.1]
    ensures r.Some? ==> MadeBy(p, r.value.0) && !r.value.0.Text?
    ensures r.Some? ==> s[i] in {'*', '_', '`'}
  {
    match p
    case BoldPattern => BoldAt(s, i)
    case ItalicPattern => ItalicAt(s, i)
    case CodePattern => CodeAt(s, i)
  }

  /** The nodes a pass of `p` makes from a node: unmatched text and the
      pass's own elements, nothing else. */
  predicate MadeBy(p: Pattern, n: Node)
  {
    match n
    case Text(t) => t != ""
    case Strong(_) => p == BoldPattern
    case Em(_, _) => p == ItalicPattern
    case CodeSpan(_) => p == CodePattern
  }

  /** The `exec` loop over one string from `lastIndex = last`, trying each
      start position `i` in turn: the leftmost match wins, the unmatched
      text before it becomes one text node, and the search resumes after
      the match. */
  function Scan(p: Pattern, s: string, last: nat, i: nat): (r: seq<Node>)
    requires last <= i <= |s|
    ensures UnparseAll(r) == s[last..]
    ensures forall k :: 0 <= k < |r| ==> MadeBy(p, r[k])
    decreases |s| - i
  {
    if i == |s| then
      if last < |s| then
        assert UnparseAll([Text(s[last..])]) == s[last..] + UnparseAll([]);
        [Text(s[last..])]
      else []
    else
      var m := MatchAt(p, s, i);
      if m.Some? then
        var n, e := m.value.0, m.value.1;
        var before := if last < i then [Text(s[last..i])] else [];
        var rest := Scan(p, s, e, e);
        ScanStep(p, s, last, i, e, before, n, rest);
        before + [n] + rest
      else Scan(p, s, last, i + 1)
  }

  /** Text before a match, the match, and the pieces after it read back as
      the whole suffix. */
  lemma ScanStep(p: Pattern, s: string, last: nat, i: nat, e: nat, before: seq<Node>, n: Node, rest: seq<Node>)
    requires last <= i < e <= |s|
    requires before == if last < i then [Text(s[last..i])] else []
    requires Unparse(n) == s[i..e] && MadeBy(p, n)
    requires UnparseAll(rest) == s[e..] && forall k :: 0 <= k < |rest| ==> MadeBy(p, rest[k])
    ensures UnparseAll(before + [n] + rest) == s[last..]
    ensures forall k :: 0 <= k < |before + [n] + rest| ==> MadeBy(p, (before + [n] + rest)[k])
  {
    ScanStepReadsBack(s, last, i, e, before, n, rest);
    var xs := before + [n] + rest;
    forall k | 0 <= k < |xs| ensures MadeBy(p, xs[k]) {
      if k < |before| {
        assert xs[k] == Text(s[last..i]);
      } else if k == |before| {
        assert xs[k] == n;
      } else {
        assert xs[k] == rest[k - |before| - 1];
      }
    }
  }

  lemma ScanStepReadsBack(s: string, last: nat, i: nat, e: nat, before: seq<Node>, n: Node, rest: seq<Node>)
    requires last <= i < e <= |s|
    requires before == if last < i then [Text(s[last..i])] else []
    requires Unparse(n) == s[i..e] && UnparseAll(rest) == s[e..]
    ensures UnparseAll(before + [n] + rest) == s[last..]
  {
    assert UnparseAll(before) == s[last..i] by {
      if last < i {
        assert UnparseAll(before) == s[last..i] + UnparseAll([]);
      }
    }
    UnparseAllThree(before, n, rest);
    SliceJoin(s, last, i, e);
  }

  /** `UnparseAll` over a sequence with one node singled out. */
  lemma UnparseAllThree(a: seq<Node>, n: Node, b: seq<Node>)
    ensures UnparseAll(a + [n] + b) == UnparseAll(a) + Unparse(n) + UnparseAll(b)
  {
    assert UnparseAll([n]) == Unparse(n) + UnparseAll([]);
    UnparseAllAppend(a, [n]);
    UnparseAllAppend(a + [n], b);
  }

  /** A suffix cut at two points reads back as its three pieces. */
  lemma SliceJoin(s: string, a: nat, b: nat, c: nat)
    requires a <= b <= c <= |s|
    ensures s[a..] == s[a..b] + s[b..c] + s[c..]
  {
    var x, y, z := s[a..b], s[b..c], s[c..];
    assert |x + y + z| == |s| - a;
    forall k | 0 <= k < |s| - a ensures (x + y + z)[k] == s[a..][k] {
      if k < b - a { assert (x + y + z)[k] == x[k]; }
      else if k < c - a { assert (x + y + z)[k] == y[k - (b - a)]; }
      else { assert (x + y + z)[k] == z[k - (c - a)]; }
    }
  }

  /** No match of `p` starts anywhere in `s`. */
  predicate NoMatch(p: Pattern, s: string)
  {
    forall i :: 0 <= i < |s| ==> MatchAt(p, s, i).None?
  }

  lemma {:induction false} ScanWithoutMatch(p: Pattern, s: string, last: nat, i: nat)
    requires last <= i <= |s|
    ensures NoMatch(p, s) ==> Scan(p, s, last, i) == if last < |s| then [Text(s[last..])] else []
    decreases |s| - i
  {
    if i < |s| && NoMatch(p, s) {
      assert MatchAt(p, s, i).None?;
      ScanWithoutMatch(p, s, last, i + 1);
    }
  }

  /** One pass over one string: its pieces, or the string itself when the
      pass finds nothing to split it into (only the empty string). */
  function PassString(p: Pattern, s: string): (r: seq<Node>)
    ensures |r| >= 1 && UnparseAll(r) == s
    ensures NoMatch(p, s) ==> r == [Text(s)]
    ensures s != "" ==> forall k :: 0 <= k < |r| ==> MadeBy(p, r[k])
  {
    var parts := Scan(p, s, 0, 0);
    ScanWithoutMatch(p, s, 0, 0);
    if |parts| > 0 then parts
    else
      assert UnparseAll([Text(s)]) == s;
      [Text(s)]
  }

  /** One pass over the result so far: text nodes are split, elements made
      by an earlier pass are copied as they are. */
  function Pass(p: Pattern, ns: seq<Node>): (r: seq<Node>)
    ensures UnparseAll(r) == UnparseAll(ns)
  {
    if |ns| == 0 then []
    else
      var head := if ns[0].Text? then PassString(p, ns[0].text) else [ns[0]];
      var rest := Pass(p, ns[1..]);
      assert UnparseAll([ns[0]]) == Unparse(ns[0]);
      UnparseAllAppend(head, rest);
      head + rest
  }

  lemma {:induction false} PassAppend(p: Pattern, a: seq<Node>, b: seq<Node>)
    ensures Pass(p, a + b) == Pass(p, a) + Pass(p, b)
  {
    if |a| > 0 {
      assert (a + b)[1..] == a[1..] + b;
      PassAppend(p, a[1..], b);
    } else {
      assert a + b == b;
    }
  }

  /** An element made by an earlier pass is never scanned again: it comes
      out of a later pass where it was, and the text around it is
      processed as if the element were not there. */
  lemma EarlierElementsUntouched(p: Pattern, a: seq<Node>, n: Node, b: seq<Node>)
    requires !n.Text?
    ensures Pass(p, a + [n] + b) == Pass(p, a) + [n] + Pass(p, b)
  {
    var an := a + [n];
    PassAppend(p, an, b);
    PassAppend(p, a, [n]);
    PassOfElement(p, n);
  }

  lemma PassOfElement(p: Pattern, n: Node)
    requires !n.Text?
    ensures Pass(p, [n]) == [n]
  {
    assert [n][1..] == [];
  }

  /** `processInlineMarkdown`'s result: a lone string comes back as that
      plain string, anything else as the list of parts. */
  datatype Rendered = Plain(text: string) | Parts(parts: seq<Node>)

  function UnparseRendered(r: Rendered): string
  {
    match r
    case Plain(t) => t
    case Parts(ns) => UnparseAll(ns)
  }

  /** The three passes in their fixed order. */
  function InlinePasses(text: string): (r: seq<Node>)
    ensures UnparseAll(r) == text
  {
    assert UnparseAll([Text(text)]) == text;
    Pass(CodePattern, Pass(ItalicPattern, Pass(BoldPattern, [Text(text)])))
  }

  function Inline(text: string): (r: Rendered)
    ensures UnparseRendered(r) == text
    ensures r.Plain? ==> r.text == text
    ensures r.Parts? ==> |r.parts| != 1 || !r.parts[0].Text?
  {
    var ns := InlinePasses(text);
    if |ns| == 1 && ns[0].Text? then
      assert UnparseAll(ns) == ns[0].text + UnparseAll([]);
      Plain(ns[0].text)
    else Parts(ns)
  }

  /** A string without any of the three markers comes back plain. */
  lemma {:induction false} NoMarkersStaysPlain(text: string)
    requires '*' !in text && '_' !in text && '`' !in text
    ensures Inline(text) == Plain(text)
  {
    forall p: Pattern ensures NoMatch(p, text) {
      forall i | 0 <= i < |text| ensures MatchAt(p, text, i).None? {
        assert text[i] in text;
      }
    }
    assert Pass(BoldPattern, [Text(text)]) == [Text(text)] + Pass(BoldPattern, []);
    assert Pass(ItalicPattern, [Text(text)]) == [Text(text)] + Pass(ItalicPattern, []);
    assert Pass(CodePattern, [Text(text)]) == [Text(text)] + Pass(CodePattern, []);
  }

  // ---------------------------------------------------------------------------
  //  Lines
  // ---------------------------------------------------------------------------

  /** What one line of assistant text becomes. */
  datatype Block =
    | Heading(level: nat, text: string)
    | NumberedItem(body: Rendered)
    | BulletItem(body: Rendered)
    | Paragraph(body: Rendered)
    | LineBreak

  /** The length of a `^\d+\.\s` marker at the start of `t`, if any. */
  function NumberMarker(t: string): (r: Option<nat>)
    ensures r.Some? ==> 3 <= r.value <= |t|
    ensures r.Some? ==> AllDigits(t[..r.value - 2]) && t[r.value - 2] == '.' && IsSpace(t[r.value - 1])
  {
    var k := |LeadingDigits(t)|;
    if k >= 1 && k + 2 <= |t| && t[k] == '.' && IsSpace(t[k + 1]) then Some(k + 2) else None
  }

  /** `^[-*+]\s`. */
  predicate BulletMarker(t: string)
  {
    |t| >= 2 && t[0] in {'-', '*', '+'} && IsSpace(t[1])
  }

  /** The block a source line becomes: the line is trimmed first. */
  function Classify(line: string): (b: Block)
  {
    Shape(Trim(line))
  }

  /** What a trimmed line starts with, tested in the order the bubble
      tests it: the heading markers most specific first, then a number,
      then a bullet. */
  datatype LineMarker = HashMarker(level: nat) | NumberMark(width: nat) | BulletMark | NoMarker | EmptyLine

  function MarkerOf(t: string): (m: LineMarker)
    ensures m.HashMarker? ==> 1 <= m.level <= 3 && m.level < |t| && t[..m.level + 1] == Hashes(m.level) + " "
    ensures m.NumberMark? ==> NumberMarker(t) == Some(m.width)
    ensures m.BulletMark? ==> BulletMarker(t)
    ensures m.EmptyLine? <==> t == ""
  {
    assert Hashes(3) == "###" && Hashes(2) == "##" && Hashes(1) == "#";
    if StartsWith(t, "### ") then HashMarker(3)
    else if StartsWith(t, "## ") then HashMarker(2)
    else if StartsWith(t, "# ") then HashMarker(1)
    else if NumberMarker(t).Some? then NumberMark(NumberMarker(t).value)
    else if BulletMarker(t) then BulletMark
    else if |t| > 0 then NoMarker
    else EmptyLine
  }

  /** The block of an already trimmed line. A heading's text is the line
      after its marker; `replace` removes the first occurrence of the
      marker, which is the one the line starts with. */
  function Shape(t: string): (b: Block)
  {
    match MarkerOf(t)
    case HashMarker(n) => Heading(n, t[n + 1..])
    case NumberMark(k) => NumberedItem(Inline(t[k..]))
    case BulletMark => BulletItem(Inline(t[2..]))
    case NoMarker => Paragraph(Inline(t))
    case EmptyLine => LineBreak
  }

  function Hashes(n: nat): string
  {
    if n == 0 then "" else "#" + Hashes(n - 1)
  }

  /** A heading is its level's marker, a space and its text, which is
      not inline-processed. */
  lemma HeadingReadsBack(t: string)
    requires Shape(t).Heading?
    ensures 1 <= Shape(t).level <= 3 && t == Hashes(Shape(t).level) + " " + Shape(t).text
  {
    var n := MarkerOf(t).level;
    CutAt(t, n + 1);
  }

  lemma InlineReadsBack(text: string, r: Rendered)
    requires r == Inline(text)
    ensures UnparseRendered(r) == text
  {
  }

  lemma CutAt(t: string, k: nat)
    requires k <= |t|
    ensures t == t[..k] + t[k..]
  {
  }

  /** A numbered item is its `digits. ` marker followed by its inline body. */
  lemma NumberedItemReadsBack(t: string)
    requires Shape(t).NumberedItem?
    ensures NumberMarker(t).Some? && t == t[..NumberMarker(t).value] + UnparseRendered(Shape(t).body)
  {
    var k := MarkerOf(t).width;
    InlineReadsBack(t[k..], Shape(t).body);
    CutAt(t, k);
  }

  /** A bulleted item is its `-`, `*` or `+` marker and a space, followed
      by its inline body. */
  lemma BulletItemReadsBack(t: string)
    requires Shape(t).BulletItem?
    ensures BulletMarker(t) && t == t[..2] + UnparseRendered(Shape(t).body)
  {
    InlineReadsBack(t[2..], Shape(t).body);
    CutAt(t, 2);
  }

  /** A paragraph is the whole non-empty line, inline-processed, and only
      the empty line is a line break. */
  lemma ParagraphReadsBack(t: string)
    ensures Shape(t).Paragraph? ==> t == UnparseRendered(Shape(t).body) && t != ""
    ensures Shape(t).LineBreak? <==> t == ""
  {
    var m := MarkerOf(t);
    assert m.EmptyLine? <==> t == "";
    if m.NoMarker? {
      assert Shape(t) == Paragraph(Inline(t));
      InlineReadsBack(t, Inline(t));
    }
  }

  /** A source line becomes a line break exactly when it is all blank. */
  lemma LineBreakIffBlank(line: string)
    ensures Classify(line).LineBreak? <==> Blank(line)
  {
    ParagraphReadsBack(Trim(line));
  }

  /** The order of the tests decides overlapping shapes: a bulleted line
      whose marker is `*` is a list item, not italic text. */
  lemma StarBulletIsListItem(line: string)
    requires |line| >= 2 && line[0] == '*' && line[1] == ' ' && !IsSpace(line[|line| - 1])
    ensures Classify(line).BulletItem?
  {
    TrimKeepsUnspaced(line);
    StarSpaceIsBulletMarker(line);
  }

  lemma StarSpaceIsBulletMarker(t: string)
    requires |t| >= 2 && t[0] == '*' && t[1] == ' '
    ensures MarkerOf(t) == BulletMark
  {
    assert !StartsWith(t, "# ") && !StartsWith(t, "## ") && !StartsWith(t, "### ");
    assert LeadingDigits(t) == [];
  }

  /** A `#` followed by anything but a space or another `#` starts no
      heading, so the line is a paragraph. */
  lemma HashWithoutSpaceIsNoMarker(t: string)
    requires |t| >= 2 && t[0] == '#' && t[1] != ' ' && t[1] != '#'
    ensures MarkerOf(t) == NoMarker
  {
    assert !StartsWith(t, "# ") && !StartsWith(t, "## ") && !StartsWith(t, "### ");
    assert LeadingDigits(t) == [];
  }

  /** A `#` not followed by a space is no heading: a line such as
      `#title` is shown as a paragraph. */
  lemma HashWithoutSpaceIsParagraph(line: string)
    requires |line| >= 2 && line[0] == '#' && line[1] != ' ' && line[1] != '#'
    requires !IsSpace(line[|line| - 1])
    ensures Classify(line).Paragraph?
  {
    TrimKeepsUnspaced(line);
    HashWithoutSpaceIsNoMarker(line);
  }

  /** `text.split("\n").map(...)`: one block per line, in order. */
  function Markdown(text: string): (r: seq<Block>)
    ensures |r| == Count(text, '\n') + 1
    ensures var lines := Split(text, '\n');
      forall i :: 0 <= i < |r| ==> r[i] == Classify(lines[i])
  {
    var lines := Split(text, '\n');
    seq(|lines|, i requires 0 <= i < |lines| => Classify(lines[i]))
  }

  // ---------------------------------------------------------------------------
  //  The bubble
  // ---------------------------------------------------------------------------

  datatype Body = Verbatim(text: string) | Blocks(blocks: seq<Block>)

  /** A relevant work's card: `titulo || name` over `artista || artist`. */
  datatype WorkCard = WorkCard(title: string, subtitle: string)

  datatype Bubble = Bubble(
    alignedRight: bool,
    image: Option<string>,
    body: Body,
    works: seq<WorkCard>)

  function Card(w: Work): (c: WorkCard)
    ensures Field(w, "titulo") != "" ==> c.title == w["titulo"]
    ensures Field(w, "titulo") == "" ==> c.title == Field(w, "name")
    ensures Field(w, "artista") != "" ==> c.subtitle == w["artista"]
    ensures Field(w, "artista") == "" ==> c.subtitle == Field(w, "artist")
  {
    WorkCard(Or(Field(w, "titulo"), Field(w, "name")), Or(Field(w, "artista"), Field(w, "artist")))
  }

  function Render(m: Message): (b: Bubble)
    ensures b.alignedRight <==> m.role == User
    ensures m.role == User ==> b.body == Verbatim(m.content)
    ensures m.role == Assistant ==> b.body.Blocks? && |b.body.blocks| == Count(m.content, '\n') + 1
    ensures b.image.Some? <==> m.imageUrl.Some? && m.imageUrl.value != ""
    ensures b.image.Some? ==> b.image == m.imageUrl
    ensures m.relevantWorks.Some? ==> |b.works| == |m.relevantWorks.value|
    ensures m.relevantWorks.Some? ==> forall i :: 0 <= i < |b.works| ==> b.works[i] == Card(m.relevantWorks.value[i])
    ensures m.relevantWorks.None? ==> b.works == []
  {
    var image := if m.imageUrl.Some? && m.imageUrl.value != "" then m.imageUrl else None;
    var body := if m.role == User then Verbatim(m.content) else Blocks(Markdown(m.content));
    var works := if m.relevantWorks.Some? then
        var ws := m.relevantWorks.value;
        seq(|ws|, i requires 0 <= i < |ws| => Card(ws[i]))
      else [];
    Bubble(m.role == User, image, body, works)
  }

  /** The rendered assistant text holds the whole message: joining the
      lines the blocks were classified from gives back the content. */
  lemma AssistantLinesCoverContent(m: Message)
    requires m.role == Assistant
    ensures var lines := Split(m.content, '\n');
      |Render(m).body.blocks| == |lines| && Join(lines, '\n') == m.content
      && forall i :: 0 <= i < |lines| ==> Render(m).body.blocks[i] == Classify(lines[i])
  {
  }
}

=== FILE: metadata_editor.dfy ===
/** The dynamic metadata editor of one collection item
    (components/admin/DynamicMetadataEditor.tsx): a fixed list of core
    fields splits the item's metadata into core and custom fields, guards
    stop empty, duplicate and protected field operations before any request,
    and edits go to the record store either as a partial command
    (`replace_all = false`) or as the full map (`replace_all = true`).

    Each handler is one step: the editor state before it, the settled reply
    of its request and the answer to `confirm()` go in; the state after it,
    the prompt shown and the request sent come out. */
module MetadataEditor {
  import opened Js

  type Metadata = map<string, string>

  const CoreFields: seq<string> := ["tipo", "titulo", "nombre", "artista", "zona", "descripcion"]

  const SuggestedFields: seq<string> := [
    "precio_estimado",
    "estado_conservacion",
    "exposicion_actual",
    "fecha_adquisicion",
    "dimensiones",
    "materiales",
    "tecnica",
    "periodo_historico",
    "significado_cultural",
    "ubicacion_fisica"
  ]

  const MissingInputError := "Nombre y valor del campo son requeridos"
  const DuplicateFieldError := "Este campo ya existe"
  const ProtectedFieldError := "No se pueden eliminar campos principales"

  predicate IsCore(field: string)
  {
    field in CoreFields
  }

  // ---------------------------------------------------------------------------
  //  Core / custom partition
  // ---------------------------------------------------------------------------

  /** The entries shown under "Campos Principales". */
  function CoreEntries(m: Metadata): (r: Metadata)
    ensures forall k :: k in r ==> k in m && r[k] == m[k]
  {
    map k | k in m && IsCore(k) :: m[k]
  }

  /** The entries shown under "Campos Personalizados". */
  function CustomEntries(m: Metadata): (r: Metadata)
    ensures forall k :: k in r ==> k in m && r[k] == m[k]
  {
    map k | k in m && !IsCore(k) :: m[k]
  }

  /** Every metadata key lands in exactly one of the two lists, and it lands
      in the core list exactly when it is one of the six core names. */
  lemma Partition(m: Metadata)
    ensures CoreEntries(m).Keys !! CustomEntries(m).Keys
    ensures CoreEntries(m) + CustomEntries(m) == m
    ensures forall k :: k in m ==>
      (k in CoreEntries(m) <==> k in {"tipo", "titulo", "nombre", "artista", "zona", "descripcion"})
  {
    assert CoreEntries(m) + CustomEntries(m) == m;
  }

  /** The suggestion buttons: the suggested names that are not yet keys of
      the metadata, in their declared order. */
  function Suggestions(m: Metadata): (r: seq<string>)
    ensures Subseq(r, SuggestedFields)
    ensures forall f :: f in r <==> f in SuggestedFields && f !in m
  {
    Absent(SuggestedFields, m)
  }

  /** The names of `names` that are not keys of `m`, in order. */
  function Absent(names: seq<string>, m: Metadata): (r: seq<string>)
    ensures Subseq(r, names)
    ensures forall f :: f in r <==> f in names && f !in m
  {
    var keep := (f: string) => f !in m;
    var r := Filter(names, keep);
    forall f ensures f in r <==> f in names && f !in m {
      FilterMember(names, keep, f);
    }
    r
  }

  // ---------------------------------------------------------------------------
  //  Commands and the record store's documented handling of them
  // ---------------------------------------------------------------------------

  datatype MetadataUpdate = MetadataUpdate(updates: Metadata, replaceAll: bool)

  datatype Request =
    | UpdateMetadata(update: MetadataUpdate)
    | AddField(name: string, value: string)
    | RemoveField(field: string)

  /** How the remote record store applies a MetadataUpdate: a merge when
      `replace_all` is false and a replacement when it is true. This is the
      store's documented contract, taken as an assumption: the store is not
      part of this model. */
  function StoreApply(m: Metadata, u: MetadataUpdate): Metadata
  {
    if u.replaceAll then u.updates else m + u.updates
  }

  /** Applying the same command twice leaves what applying it once left. */
  lemma StoreApplyIdempotent(m: Metadata, u: MetadataUpdate)
    ensures StoreApply(StoreApply(m, u), u) == StoreApply(m, u)
  {
  }

  // ---------------------------------------------------------------------------
  //  Editor state and handlers
  // ---------------------------------------------------------------------------

  datatype EditorState = EditorState(
    edited: Metadata,
    newName: string,
    newValue: string,
    saving: bool,
    error: Option<string>)

  /** What one handler did: the state after it, the `confirm()` prompt it
      showed, and the request it sent. */
  datatype Step = Step(state: EditorState, prompt: Option<string>, sent: Option<Request>)

  function Init(metadata: Metadata): (s: EditorState)
    ensures s.edited == metadata && s.newName == "" && s.newValue == ""
    ensures !s.saving && s.error == None
  {
    EditorState(metadata, "", "", false, None)
  }

  /** Typing into a field's input changes only the local copy. */
  function EditLocally(s: EditorState, field: string, value: string): (r: EditorState)
    ensures r.edited.Keys == s.edited.Keys + {field} && r.edited[field] == value
    ensures forall k :: k in s.edited && k != field ==> r.edited[k] == s.edited[k]
    ensures r.(edited := s.edited) == s
  {
    s.(edited := s.edited[field := value])
  }

  /** Clicking a suggestion proposes its name as the new field's name. */
  function PickSuggestion(s: EditorState, field: string): (r: EditorState)
    ensures r.newName == field
    ensures r.(newName := s.newName) == s
  {
    s.(newName := field)
  }

  /** `updateField(fieldName, value)`, run when a field input loses focus:
      a one-key partial command; on success the local copy takes the value. */
  function UpdateField(s: EditorState, field: string, value: string, reply: Outcome<()>): (r: Step)
    ensures r.prompt == None
    ensures r.sent.Some? && r.sent.value.UpdateMetadata?
    ensures r.sent.value.update.updates.Keys == {field}
    ensures r.sent.value.update.updates[field] == value
    ensures !r.sent.value.update.replaceAll
    ensures reply.Succeeded? ==>
      && r.state.edited.Keys == s.edited.Keys + {field}
      && r.state.edited[field] == value
      && (forall k :: k in s.edited && k != field ==> r.state.edited[k] == s.edited[k])
      && r.state.error == s.error
    ensures reply.Failed? ==> r.state.edited == s.edited && r.state.error == Some(reply.message)
    ensures r.state.newName == s.newName && r.state.newValue == s.newValue
  {
    var cmd := MetadataUpdate(map[field := value], false);
    match reply
    case Succeeded(_) => Step(s.(edited := s.edited[field := value]), None, Some(UpdateMetadata(cmd)))
    case Failed(msg) => Step(s.(error := Some(msg)), None, Some(UpdateMetadata(cmd)))
  }

  /** `addCustomField()`: an empty name or value, or a name that is already
      a key (core or custom), is refused before any request; otherwise the
      field is added and, on success, the inputs are cleared. */
  function AddCustomField(s: EditorState, reply: Outcome<()>): (r: Step)
    ensures r.prompt == None
    ensures (s.newName == "" || s.newValue == "") ==>
      r.sent == None && r.state == s.(error := Some(MissingInputError))
    ensures s.newName != "" && s.newValue != "" && s.newName in s.edited ==>
      r.sent == None && r.state == s.(error := Some(DuplicateFieldError))
    ensures r.sent.Some? <==> s.newName != "" && s.newValue != "" && s.newName !in s.edited
    ensures r.sent.Some? ==> r.sent.value == AddField(s.newName, s.newValue) && !r.state.saving
    ensures r.sent.Some? && reply.Succeeded? ==>
      && r.state.edited.Keys == s.edited.Keys + {s.newName}
      && r.state.edited[s.newName] == s.newValue
      && (forall k :: k in s.edited ==> r.state.edited[k] == s.edited[k])
      && r.state.newName == "" && r.state.newValue == ""
      && r.state.error == None
    ensures r.sent.Some? && reply.Failed? ==>
      && r.state.edited == s.edited
      && r.state.newName == s.newName && r.state.newValue == s.newValue
      && r.state.error == Some(reply.message)
  {
    if s.newName == "" || s.newValue == "" then
      Step(s.(error := Some(MissingInputError)), None, None)
    else if s.newName in s.edited then
      Step(s.(error := Some(DuplicateFieldError)), None, None)
    else
      var sent := Some(AddField(s.newName, s.newValue));
      match reply
      case Succeeded(_) =>
        Step(EditorState(s.edited[s.newName := s.newValue], "", "", false, None), None, sent)
      case Failed(msg) =>
        Step(s.(saving := false, error := Some(msg)), None, sent)
  }

  function RemovePrompt(field: string): string
  {
    "¿Eliminar el campo \"" + field + "\"?"
  }

  /** `removeField(fieldName)`: a core field is refused before the prompt;
      a declined prompt sends nothing; a confirmed, successful removal
      deletes that key and only that key. */
  function RemoveField(s: EditorState, field: string, confirmed: bool, reply: Outcome<()>): (r: Step)
    ensures IsCore(field) ==>
      r.prompt == None && r.sent == None && r.state == s.(error := Some(ProtectedFieldError))
    ensures !IsCore(field) ==> r.prompt == Some(RemovePrompt(field))
    ensures !IsCore(field) && !confirmed ==> r.sent == None && r.state == s
    ensures r.sent.Some? <==> !IsCore(field) && confirmed
    ensures r.sent.Some? ==> r.sent.value == Request.RemoveField(field)
    ensures r.sent.Some? && reply.Succeeded? ==>
      && r.state.edited.Keys == s.edited.Keys - {field}
      && (forall k :: k in r.state.edited ==> r.state.edited[k] == s.edited[k])
    ensures r.sent.Some? && reply.Failed? ==>
      r.state.edited == s.edited && r.state.error == Some(reply.message)
  {
    if IsCore(field) then
      Step(s.(error := Some(ProtectedFieldError)), None, None)
    else if !confirmed then
      Step(s, Some(RemovePrompt(field)), None)
    else
      var sent := Some(Request.RemoveField(field));
      match reply
      case Succeeded(_) => Step(s.(edited := s.edited - {field}), Some(RemovePrompt(field)), sent)
      case Failed(msg) => Step(s.(error := Some(msg)), Some(RemovePrompt(field)), sent)
  }

  /** `saveAllChanges()`: the whole local copy goes out with
      `replace_all = true`; the local copy itself does not change. */
  function SaveAllChanges(s: EditorState, reply: Outcome<()>): (r: Step)
    ensures r.prompt == None
    ensures r.sent == Some(UpdateMetadata(MetadataUpdate(s.edited, true)))
    ensures r.state.edited == s.edited && !r.state.saving
    ensures r.state.error == (if reply.Failed? then Some(reply.message) else None)
  {
    var sent := Some(UpdateMetadata(MetadataUpdate(s.edited, true)));
    match reply
    case Succeeded(_) => Step(s.(saving := false, error := None), None, sent)
    case Failed(msg) => Step(s.(saving := false, error := Some(msg)), None, sent)
  }

  /** The "Agregar" button is enabled only when both inputs are filled and
      nothing is being saved. */
  predicate AddEnabled(s: EditorState)
  {
    s.newName != "" && s.newValue != "" && !s.saving
  }

  // ---------------------------------------------------------------------------
  //  Properties relating several handlers, and the handlers to the store
  // ---------------------------------------------------------------------------

  /** Every field edit sends a partial command, and a successful edit leaves
      the local copy exactly as the store leaves the record it merges into. */
  lemma UpdateFieldMirrorsStore(s: EditorState, field: string, value: string)
    ensures var r := UpdateField(s, field, value, Succeeded(()));
      r.state.edited == StoreApply(s.edited, r.sent.value.update)
  {
  }

  /** Save-all makes the store hold exactly the local copy, whatever it held. */
  lemma SaveAllMirrorsStore(s: EditorState, stored: Metadata, reply: Outcome<()>)
    ensures StoreApply(stored, SaveAllChanges(s, reply).sent.value.update) == s.edited
  {
  }

  /** Adding a field never overwrites: a successful add applied as a merge
      gives the local copy the add produced. */
  lemma AddFieldIsFreshMerge(s: EditorState)
    requires s.newName != "" && s.newValue != "" && s.newName !in s.edited
    ensures var r := AddCustomField(s, Succeeded(()));
      r.state.edited == StoreApply(s.edited, MetadataUpdate(map[s.newName := s.newValue], false))
      && s.edited.Keys < r.state.edited.Keys
  {
    assert s.newName in AddCustomField(s, Succeeded(())).state.edited.Keys;
  }

  /** Adding a custom field and then removing it (confirmed, both requests
      successful) gives back the metadata the editor started with. */
  lemma AddThenRemoveRestores(s: EditorState)
    requires s.newName != "" && s.newValue != "" && s.newName !in s.edited
    requires !IsCore(s.newName)
    ensures var added := AddCustomField(s, Succeeded(())).state;
      RemoveField(added, s.newName, true, Succeeded(())).state.edited == s.edited
  {
    var added := AddCustomField(s, Succeeded(())).state;
    assert added.edited - {s.newName} == s.edited;
  }

  /** A field the add guard refuses as a duplicate stays removable exactly
      when it is custom: the guards of add and remove look at different
      things (presence versus the core list). */
  lemma DuplicateGuardIgnoresCoreness(s: EditorState)
    requires s.newName != "" && s.newValue != "" && s.newName in s.edited
    ensures AddCustomField(s, Succeeded(())).sent == None
    ensures RemoveField(s, s.newName, true, Succeeded(())).sent.Some? <==> s.newName in CustomEntries(s.edited)
  {
  }

  /** Whenever the add button is enabled, the add either sends its request
      or stops at the duplicate guard. */
  lemma AddEnabledPassesMissingInputGuard(s: EditorState, reply: Outcome<()>)
    requires AddEnabled(s)
    ensures var r := AddCustomField(s, reply);
      r.sent.Some? || r.state.error == Some(DuplicateFieldError)
  {
  }
}

=== FILE: sorted_strings.dfy ===
/** `Array.from(new Set(values)).sort()`: the distinct values of a list in
    ascending string order, built by inserting each value into a sorted,
    duplicate-free list. Strings compare character by character, and a
    proper prefix sorts first. */
module SortedStrings {

  /** Strict lexicographic order on strings. */
  predicate Less(a: string, b: string)
  {
    if |a| == 0 then |b| > 0
    else if |b| == 0 then false
    else a[0] < b[0] || (a[0] == b[0] && Less(a[1..], b[1..]))
  }

  lemma {:induction false} LessIrreflexive(a: string)
    ensures !Less(a, a)
  {
    if |a| > 0 {
      LessIrreflexive(a[1..]);
    }
  }

  lemma {:induction false} LessTransitive(a: string, b: string, c: string)
    requires Less(a, b) && Less(b, c)
    ensures Less(a, c)
  {
    if |a| > 0 && |b| > 0 && |c| > 0 && a[0] == b[0] && b[0] == c[0] {
      LessTransitive(a[1..], b[1..], c[1..]);
    }
  }

  lemma {:induction false} LessTotal(a: string, b: string)
    ensures a == b || Less(a, b) || Less(b, a)
  {
    if |a| > 0 && |b| > 0 && a[0] == b[0] {
      LessTotal(a[1..], b[1..]);
      if a[1..] == b[1..] {
        assert a == [a[0]] + a[1..] && b == [b[0]] + b[1..];
      }
    }
  }

  /** Strictly ascending, hence also duplicate-free. */
  predicate Sorted(s: seq<string>)
  {
    forall i, j :: 0 <= i < j < |s| ==> Less(s[i], s[j])
  }

  /** Adds `x` to a sorted list at its place; a value already present
      leaves the list as it is. */
  function Insert(s: seq<string>, x: string): (r: seq<string>)
    requires Sorted(s)
    ensures Sorted(r)
    ensures forall y :: y in r <==> y in s || y == x
  {
    if |s| == 0 then [x]
    else if x == s[0] then s
    else if Less(x, s[0]) then
      assert forall j :: 0 < j < |s| ==> Less(x, s[j]) by {
        forall j | 0 < j < |s| ensures Less(x, s[j]) {
          LessTransitive(x, s[0], s[j]);
        }
      }
      [x] + s
    else
      LessTotal(x, s[0]);
      var rest := Insert(s[1..], x);
      assert forall j :: 0 <= j < |rest| ==> Less(s[0], rest[j]) by {
        forall j | 0 <= j < |rest| ensures Less(s[0], rest[j]) {
          assert rest[j] in rest;
          if rest[j] != x {
            var k :| 0 <= k < |s[1..]| && s[1..][k] == rest[j];
            assert s[k + 1] == rest[j];
          }
        }
      }
      [s[0]] + rest
  }

  /** The distinct values of `values`, ascending. */
  function SortedDistinct(values: seq<string>): (r: seq<string>)
    ensures Sorted(r)
    ensures forall y :: y in r <==> y in values
    decreases |values|
  {
    if |values| == 0 then []
    else
      var r := Insert(SortedDistinct(values[..|values| - 1]), values[|values| - 1]);
      assert values == values[..|values| - 1] + [values[|values| - 1]];
      r
  }

  /** A sorted list is determined by its elements: any two sorted lists
      holding the same values are the same list. So `SortedDistinct` is
      the one and only ascending, duplicate-free listing of its input's
      values. */
  lemma {:induction false} SortedIsUnique(a: seq<string>, b: seq<string>)
    requires Sorted(a) && Sorted(b)
    requires forall y :: y in a <==> y in b
    ensures a == b
  {
    SameValuesSameEmptiness(a, b);
    if |a| > 0 {
      assert a[0] in b && b[0] in a;
      if a[0] != b[0] {
        var i :| 0 <= i < |b| && b[i] == a[0];
        var j :| 0 <= j < |a| && a[j] == b[0];
        assert i > 0 && j > 0;
        assert Less(b[0], a[0]) && Less(a[0], b[0]);
        LessTransitive(a[0], b[0], a[0]);
        LessIrreflexive(a[0]);
      }
      forall y ensures y in a[1..] <==> y in b[1..] {
        SortedTail(a, y);
        SortedTail(b, y);
      }
      SortedIsUnique(a[1..], b[1..]);
      assert a == [a[0]] + a[1..] && b == [b[0]] + b[1..];
    }
  }

  lemma SameValuesSameEmptiness(a: seq<string>, b: seq<string>)
    requires forall y :: y in a <==> y in b
    ensures |a| == 0 <==> |b| == 0
  {
    if |a| > 0 {
      assert a[0] in b;
    }
    if |b| > 0 {
      assert b[0] in a;
    }
  }

  /** The tail of a sorted list is its elements other than the head. */
  lemma SortedTail(s: seq<string>, y: string)
    requires Sorted(s) && |s| > 0
    ensures y in s[1..] <==> y in s && y != s[0]
  {
    if y in s[1..] {
      var k :| 0 <= k < |s[1..]| && s[1..][k] == y;
      assert Less(s[0], s[k + 1]);
      if y == s[0] {
        LessIrreflexive(y);
      }
    }
    if y in s && y != s[0] {
      var k :| 0 <= k < |s| && s[k] == y;
      assert s[1..][k - 1] == y;
    }
  }
}
